=== FILE: README.md ===
# GPS pipeline model

A Dafny model of the core of a C++ GPS pipeline. The pipeline reads NMEA 0183
sentences (`$…*hh` lines with an exclusive-or checksum, RMC, GGA and GSV
sentences). It merges RMC and GGA data of the same time into a fix. It runs the
fix through a priority-ordered chain of filters that accept, reject or stop it.
Accepted fixes go into a bounded history and are shown on a display.

The model follows the source's structure, one module per component:

- `Wrappers`, `Text`, `Numbers`: helpers.
  - `Option`.
  - `std::string` searches (`find`, `find_first_of`, …).
  - `std::stoi` / `std::stod` as prefix readers that fail where the C++ library throws.
  - Truncating division and casts.
  - Decimal rendering.
- `Checksum`: the exclusive-or sentence checksum over `bv8`, and the reading of the two hex characters after `*`.
- `Units`: NMEA `ddmm.mmmm` angles to decimal degrees, and knots to km/h.
- `Fix`, `History`: the current-generation `GpsPoint` and the bounded `GpsHistory` deque (src/gps_history.cpp).
- `Nmea`: the current-generation decoder and RMC/GGA correlator (src/nmea_parser.cpp).
- `LegacyPoint`, `LegacyNmea`: the earlier `gps::Parser` (src/filters/nmea_parser.cpp).
  - Its time stamps come from a wall-clock conversion, which is a function parameter (`Clock`).
- `Smoothing`, `InfraFilters`: the five filters the application wires up.
  - They are satellite, speed, jump, stop and smoothing.
  - They reject invalid fixes, and the stop filter pins a slow fix to the last valid history entry.
- `GpsFilters`: the `gps::` filters (src/filters/).
  - They pass invalid points.
  - The jump filter bounds distance per elapsed whole second.
  - The stop filter is a dwell-time state machine.
- `FilterFactory`: configuration record to filter, with defaults (src/filter_factory.cpp).
- `Pipeline`: `GpsPipeline`, with counters, the filter chain and history updates.
  - The display is modelled as a log of the four kinds of display call.
- `JsonScan`: the hand-written JSON scanners `trim`, `extractValue`, `extractArray` and `extractObject` (src/json_config.cpp).
- `ConsoleDisplay`: `formatTime` and the fixed lines of the console display.

The model is functional throughout:

- Filters and decoders are functions that return the verdict, the possibly rewritten fix and the filter's or decoder's next state.
- Haversine distance and π are parameters: `Distance` is any function on two points, and `pi` is any real.
- Doubles are Dafny `real`s.
- Integers are unbounded, except where the source's width matters:
  - the `unsigned long long` time of day is reduced modulo 2^64;
  - `int` conversions go through `Numbers.ToInt32`;
  - checksum bytes are `bv8`.

Behaviour of the code as written, kept in the model:

- The current decoder returns a partial point for an RMC or GGA that finds no partner. It does not return nothing (`Nmea.LoneRmcGivesPartialPoint`).
- The earlier decoder reads fields with `std::getline`, which drops an empty last field.
  - A GGA sentence whose last field is empty therefore arrives with 14 fields.
  - It is ignored, because that decoder wants 15 (`LegacyNmea.GgaWithEmptyLastFieldIgnored`).
- With the `*` at index 0, `substr(1, npos)` sums the whole rest of the line, the two checksum characters included (`Nmea.StarFirstSumsRest`).
- `extractValue` does not track nesting: an object or array value ends at the first closing bracket of its kind.
- `extractObject` keeps a string value with its quotes, and a bare value untrimmed.
- The `gps::` speed filter lets negative speeds pass. The infra satellite filter lets a fix reporting 0 satellites pass.

## Model

| member | source | states |
|---|---|---|
| Checksum.XorAllDetectsOneChange | src/nmea_parser.cpp:23-27 | replacing one character by one with a different byte always changes the exclusive-or checksum |
| Checksum.XorAllConcat | src/nmea_parser.cpp:23-27 | the checksum of a concatenation is the exclusive-or of the two checksums |
| Checksum.ReadHexPair | src/nmea_parser.cpp:29-33 | the two characters after `*` read in base 16 as the stream does; no value exactly when neither gives a digit to read |
| Checksum.HexByteRoundTrip | src/nmea_parser.cpp:29-35 | the two-digit checksum text of a byte reads back as that byte |
| Checksum.ReadHexPairIgnoresCase | src/nmea_parser.cpp:29-33 | the checksum text is read the same in upper and lower case |
| Nmea.ValidateChecksum | src/nmea_parser.cpp:17-36 | false without a `*` followed by two characters; otherwise true exactly when the exclusive-or of the bytes between `$` and `*` equals the hex value after `*`, an unreadable value counting as 0 |
| Nmea.ExpectedChecksumOfHexByte | src/nmea_parser.cpp:29-35 | the two hex digits written for a byte are expected to be that byte |
| Nmea.StarFirstSumsRest | src/nmea_parser.cpp:18-35 | with the `*` first, the test compares the exclusive-or of everything after it, checksum characters included, with the two characters after it |
| Nmea.LeadCharNotSummed | src/nmea_parser.cpp:23-27 | the first character, normally the `$`, does not affect the test |
| Nmea.FrameValidates | src/nmea_parser.cpp:17-36 | every sentence framed with its own checksum passes the test |
| Nmea.ChecksumDetectsOneChange | src/nmea_parser.cpp:17-36 | changing one summed byte of a passing sentence to a different non-`*` byte makes the test fail |
| Nmea.ParseTimeToMs | src/nmea_parser.cpp:54-71 | 0 for texts shorter than 6; otherwise a value below 2^64, or none where `std::stoi` throws |
| Nmea.ParseTimeToMsOfDigits | src/nmea_parser.cpp:54-71 | six digits `hhmmss` give (h·3600 + m·60 + s)·1000 |
| Nmea.ParseTimeToMsExample | src/nmea_parser.cpp:54-71 | "123519" gives 45 319 000 |
| Nmea.ParseTimeToMsDefined | src/nmea_parser.cpp:54-71 | six leading digits and at most one more character never make `std::stoi` throw |
| Nmea.ParseTimeToMsFraction | src/nmea_parser.cpp:62-70 | with a fraction after the `.`, ten times its value is added to the time of day |
| Nmea.TimeWithSuffix | src/nmea_parser.cpp:54-71 | a longer time text adds its sub-second part to the time of its first six characters, modulo 2^64 |
| Nmea.SplitFields | src/nmea_parser.cpp:73-90 | no field holds a comma; there is one field per comma, plus the last piece when a `*` follows it |
| Nmea.SplitFieldsRoundTrip | src/nmea_parser.cpp:73-90 | fields joined by commas and closed by `*` and a checksum split back into the same fields, empty ones included |
| Nmea.RealFieldOfDecimal | src/nmea_parser.cpp:108-116 | a field written as a decimal numeral is read as its value, whatever the default |
| Nmea.IntFieldOfDecimal | src/nmea_parser.cpp:140-146 | an integer field written in decimal is read as that integer, whatever the default |
| Nmea.AngleFieldsOfDecimal | src/nmea_parser.cpp:99-107 | an angle written as a decimal numeral, with a hemisphere letter, is read as that angle and letter |
| Nmea.ParseRmc | src/nmea_parser.cpp:92-122 | RMC needs at least 12 fields; it throws exactly when the time, an angle, the speed or the course fails to read; status "A" means valid; each value is the reading of its field, the date is field 9 |
| Nmea.RmcOfWrittenFields | src/nmea_parser.cpp:92-122 | an RMC whose time is six digits and whose numbers are written as decimals decodes to exactly those numbers |
| Nmea.ParseGga | src/nmea_parser.cpp:124-161 | GGA needs at least 14 fields; it throws exactly when the time, an angle, the quality, the satellites, the HDOP or the altitude fails to read; each value is the reading of its field |
| Nmea.GgaOfWrittenFields | src/nmea_parser.cpp:124-161 | a GGA whose time is six digits and whose numbers are written in decimal decodes to exactly those numbers |
| Nmea.ParseGsv | src/nmea_parser.cpp:163-186 | GSV needs at least 4 fields; nothing exactly when a count or a satellite group fails to read; the counts are fields 1 to 3; at most one satellite per group of four fields |
| Nmea.GsvGroupThrowGivesNothing | src/nmea_parser.cpp:172-185 | a throw in any satellite group whose first field is present makes the whole sentence give nothing |
| Nmea.GsvOfOneSatellite | src/nmea_parser.cpp:163-186 | a GSV of one satellite, all numbers written in decimal, decodes to exactly those numbers |
| Nmea.CombineData | src/nmea_parser.cpp:188-202 | the merged fix takes time, position, speed and course from the RMC and altitude, satellites and HDOP from the GGA; it is valid exactly when the RMC is valid and the GGA quality is positive |
| Nmea.RmcPoint | src/nmea_parser.cpp:219-229 | a lone RMC gives the point the merge would give with an empty GGA, valid exactly when the RMC is: its time, position, speed and course, and no altitude, satellites or HDOP |
| Nmea.GgaPoint | src/nmea_parser.cpp:232-244 | a lone GGA gives a point with the GGA's time, converted position, altitude, satellites and HDOP; it is valid exactly when the quality is positive |
| Nmea.ParseLine | src/nmea_parser.cpp:204-270 | a line failing the checksum changes nothing; the correlator never keeps a mergeable RMC/GGA pair |
| Nmea.LoneRmcGivesPartialPoint | src/nmea_parser.cpp:219-229 | an RMC with no stored GGA of its time is stored and returned as a partial point |
| Nmea.LoneGgaGivesPartialPoint | src/nmea_parser.cpp:232-244 | a GGA with no stored RMC of its time is stored and returned as a partial point |
| Nmea.GgaCompletesRmc | src/nmea_parser.cpp:254-262 | a GGA with the stored RMC's time gives the merged fix and empties both slots, keeping the GSV |
| Nmea.RmcCompletesGga | src/nmea_parser.cpp:254-262 | an RMC with the stored GGA's time gives the merged fix and empties both slots |
| Nmea.MergeOnlyOnEqualTimes | src/nmea_parser.cpp:254-262 | a fix returned with both slots emptied is the combination of an RMC and a GGA with equal times |
| Nmea.OtherSentencesYieldNothing | src/nmea_parser.cpp:246-269 | GSV and unknown sentences yield no point and leave the RMC and GGA slots alone |
| Nmea.Reset | src/nmea_parser.cpp:11-15 | `reset` empties all three slots |
| Nmea.ParseAll | src/nmea_parser.cpp:204-270 | over any run of lines the correlator keeps no mergeable pair |
| Units.ConvertCoordinate | src/nmea_parser.cpp:38-48 | a non-negative NMEA angle converts to between 0 and itself, negated for south and west |
| Units.ConvertEncodeRoundTrip | src/nmea_parser.cpp:38-48 | converting the `ddmm.mmmm` notation of an angle gives the angle back, signed by hemisphere |
| Units.ConvertCoordinateExample | src/nmea_parser.cpp:38-48 | "4807.038,N" is 48.1173 degrees; the southern and western forms are negated |
| Units.KnotsToKmh | src/nmea_parser.cpp:50-52 | km/h is 1.852 times knots |
| Units.KnotsToKmhExample | src/nmea_parser.cpp:50-52 | 22.4 knots is 41.4848 km/h |
| LegacyNmea.ValidateChecksum | src/filters/nmea_parser.cpp:14-34 | true exactly when a `*` is followed by two characters that read as hex and the exclusive-or of the bytes between the first character and the `*` equals the low byte of that value |
| LegacyNmea.LeadCharNotSummed | src/filters/nmea_parser.cpp:28-31 | the first character, normally the `$`, does not affect the test |
| LegacyNmea.UnreadableChecksumFails | src/filters/nmea_parser.cpp:20-26 | two non-hex characters after the `*` make `std::stoi` throw, and the test fails |
| LegacyNmea.SetErrorCallback | src/filters/nmea_parser.cpp:10-12 | errors are reported exactly when a callback is installed; the stored sentences are kept |
| LegacyNmea.FrameValidates | src/filters/nmea_parser.cpp:14-34 | every sentence framed with its own checksum passes |
| LegacyNmea.ChecksumDetectsOneChange | src/filters/nmea_parser.cpp:14-34 | one changed summed byte makes a passing sentence fail |
| LegacyNmea.CleanLine | src/filters/nmea_parser.cpp:176-178 | at most two characters come off the end, and a leading `$` is kept |
| LegacyNmea.CleanLineEndings | src/filters/nmea_parser.cpp:176-178 | CR LF, a lone LF and a lone CR at the end are removed, and nothing else is |
| LegacyNmea.Fields | src/filters/nmea_parser.cpp:190-196 | the pieces `std::getline` reads: comma-free, none for empty data |
| LegacyNmea.FieldsOfJoin | src/filters/nmea_parser.cpp:190-196 | fields joined by commas are read back, except an empty last one |
| LegacyNmea.ToDegreesOfEncoded | src/filters/nmea_parser.cpp:40-57 | an angle written in `ddmm.mmmm` notation converts back to the angle, negated for south and west |
| LegacyNmea.AngleOfDecimal | src/filters/nmea_parser.cpp:40-57 | a present angle written as a decimal numeral converts as the current decoder's conversion does |
| LegacyNmea.RmcRecord | src/filters/nmea_parser.cpp:94-114 | an RMC is valid exactly for status "A"; without it it carries only its time; with it, it throws exactly when the speed or course fails to read, and the position, speed in km/h and course are the readings of their fields |
| LegacyNmea.RmcRecordOfWrittenFields | src/filters/nmea_parser.cpp:94-114 | a valid RMC whose numbers are written as decimals gives exactly those numbers, the speed converted to km/h |
| LegacyNmea.GgaRecord | src/filters/nmea_parser.cpp:131-155 | a GGA is valid exactly for quality "1" or "2"; it throws exactly when the satellites, HDOP or altitude fail to read; the position, satellites, HDOP and altitude are the readings of their fields; no speed or course |
| LegacyNmea.GgaRecordOfWrittenFields | src/filters/nmea_parser.cpp:131-155 | a GGA whose numbers are written in decimal gives exactly those numbers |
| LegacyNmea.ParseRmc | src/filters/nmea_parser.cpp:94-129 | fewer than 12 fields give nothing; it throws exactly when the RMC record cannot be read; a point is returned exactly when a stored GGA has the record's time, and it is the RMC record with that GGA's altitude, satellites and HDOP, both slots cleared; otherwise the RMC record itself is stored |
| LegacyNmea.ParseGga | src/filters/nmea_parser.cpp:131-169 | fewer than 15 fields give nothing; it throws exactly when the GGA record cannot be read; a point is returned exactly when a stored RMC has the record's time, and it is that RMC with the GGA record's altitude, satellites and HDOP, both slots cleared; otherwise the GGA record itself is stored |
| LegacyNmea.Dispatch | src/filters/nmea_parser.cpp:199-207 | the type is the first field minus its two-character talker; other types give nothing; a first field under two characters throws |
| LegacyNmea.Parse | src/filters/nmea_parser.cpp:171-208 | no `$` gives nothing; a failed checksum reports "Invalid checksum: " and the line when a callback is set, and gives nothing |
| LegacyNmea.ParseFramed | src/filters/nmea_parser.cpp:171-208 | a framed sentence, with or without CR LF, reaches the dispatch with its body's fields |
| LegacyNmea.GgaWithEmptyLastFieldIgnored | src/filters/nmea_parser.cpp:190-205 | a GGA whose fifteenth field is empty is ignored |
| LegacyNmea.RmcThenGgaMerges | src/filters/nmea_parser.cpp:156-168 | RMC then GGA of equal time gives the overlaid point, whose validity is the RMC's |
| LegacyNmea.GgaThenRmcMerges | src/filters/nmea_parser.cpp:116-128 | GGA then RMC of equal time gives the overlaid point, whose validity is the RMC's |
| LegacyNmea.ParseStream | src/filters/nmea_parser.cpp:210-224 | with a callback and no throw, every line not skipped is answered once, by a point or by "Failed to parse: " |
| LegacyNmea.StreamStep | src/filters/nmea_parser.cpp:214-222 | a line not skipped sends the messages of `parse`, then its answer, then the rest of the stream from the parser `parse` left; a throw ends the stream with nothing sent |
| LegacyNmea.StreamDeliversPoint | src/filters/nmea_parser.cpp:217-219 | a line that `parse` turns into a point delivers exactly that point |
| LegacyNmea.StreamReportsFailure | src/filters/nmea_parser.cpp:217-222 | a line `parse` rejects sends its messages, then "Failed to parse: " and the line exactly when an error callback was given |
| LegacyNmea.ParseStreamConcat | src/filters/nmea_parser.cpp:214-223 | lines are handled in order: a stream is its first part's events followed by the second part's, from the parser the first part leaves |
| LegacyNmea.SkippedLinesIgnored | src/filters/nmea_parser.cpp:214-216 | empty and `#` lines change nothing and send nothing |
| History.AddPoint | src/gps_history.cpp:7-13 | the point goes to the back, the front is dropped when over capacity, and the size bound is kept |
| History.AddAllConcat | src/gps_history.cpp:7-13 | appending two runs one after the other is appending their concatenation |
| History.AddAllKeepsLast | src/gps_history.cpp:7-13 | starting empty, a history of capacity c holds the last min(n, c) of n appended points, in order |
| History.LastValid | src/gps_history.cpp:15-23 | the back-most valid entry, and none exactly when no entry is valid |
| History.AddValidIsLastValid | src/gps_history.cpp:7-23 | appending a valid point makes it the last valid entry |
| History.AddInvalidKeepsLastValid | src/gps_history.cpp:7-23 | appending an invalid point below capacity keeps the last valid entry |
| History.SetMaxSize | src/gps_history.cpp:45-51 | the new capacity; entries dropped from the front until the history fits, survivors in order |
| History.Clear | src/gps_history.cpp:30-33 | no entries, same capacity |
| History.IsEmpty | src/gps_history.cpp:35-43 | `empty` agrees with `size` |
| Smoothing.Alpha | src/smoothing_filter.cpp:9-15 | for positive parameters 0 < alpha < 1 |
| Smoothing.AlphaClosedForm | src/smoothing_filter.cpp:9-15 | alpha is 2π·fc / (2π·fc + rate) |
| Smoothing.AlphaGrowsWithCutoff | src/smoothing_filter.cpp:9-15 | a higher cutoff gives a larger alpha |
| Smoothing.AlphaShrinksWithSampleRate | src/smoothing_filter.cpp:9-15 | a higher sample rate gives a smaller alpha |
| Smoothing.LowPassBetween | src/smoothing_filter.cpp:17-19 | with 0 < alpha < 1 the filtered value lies strictly between the previous and the current value |
| Smoothing.Smoothed | src/smoothing_filter.cpp:39-50 | only position, speed and altitude change; zero or negative speed and altitude stay as they are |
| Smoothing.Push | src/smoothing_filter.cpp:29-32 | the buffer gains the point at the back and stays within 5 entries |
| Smoothing.Process | src/smoothing_filter.cpp:21-53 | disabled or invalid changes nothing; otherwise the raw fix is pushed onto the buffer; the first raw fix passes unchanged; later ones are smoothed toward the previous raw fix in the buffer |
| Smoothing.ThirdFixPulledTowardSecond | src/smoothing_filter.cpp:28-42 | after fixes a, b, c the buffer holds the raw a, b, c, and c is pulled toward b's raw latitude, landing strictly between b and c |
| Smoothing.SecondFixPulledTowardFirst | src/smoothing_filter.cpp:21-53 | the second of two fixes lands strictly between the first and its own latitude |
| InfraFilters.Name | src/satellite_filter.cpp:22 | each kind has its class name |
| InfraFilters.Make | src/satellite_filter.cpp:3-4 | a new filter of any kind is enabled and holds the given parameters |
| InfraFilters.SetEnabled | src/satellite_filter.cpp:20 | only the enabled flag changes |
| InfraFilters.SetMinSatellites | src/satellite_filter.cpp:23 | the minimum becomes the given one |
| InfraFilters.SetMaxSpeed | src/speed_filter.cpp:32-34 | the maximum speed becomes the given one |
| InfraFilters.SetMaxJump | src/jump_filter.cpp:50 | the maximum jump becomes the given one |
| InfraFilters.SetThreshold | src/stop_filter.cpp:29 | the threshold becomes the given one |
| InfraFilters.SetCutoffFrequency | src/smoothing_filter.cpp:67-69 | the cutoff becomes the given one; the rest is kept |
| InfraFilters.SetSampleRate | src/smoothing_filter.cpp:75-77 | the sample rate becomes the given one; the rest is kept |
| InfraFilters.Process | src/stop_filter.cpp:6-24 | disabled passes untouched; only the stop filter stops; only stop and smoothing rewrite the fix; an enabled filter rejects an invalid fix unless it smooths |
| InfraFilters.SatellitePassesIff | src/satellite_filter.cpp:6-18 | a valid fix passes exactly when disabled, reporting no satellites, or reporting at least the minimum |
| InfraFilters.SatelliteMinimumMonotone | src/satellite_filter.cpp:13-15 | raising the minimum never lets through a rejected fix |
| InfraFilters.SpeedPassesIff | src/speed_filter.cpp:6-18 | a valid fix passes exactly when its speed lies in [0, max] |
| InfraFilters.JumpPassesIff | src/jump_filter.cpp:26-45 | with no valid history entry a valid fix passes; otherwise it passes exactly within the maximum distance of the last valid entry |
| InfraFilters.StopPinsToLastValid | src/stop_filter.cpp:6-24 | below the threshold the chain stops and the fix takes the last valid entry's position at speed 0; otherwise it passes unchanged |
| InfraFilters.SmoothingOnlyRewrites | src/smoothing_filter.cpp:21-53 | the smoothing filter always passes and keeps at most five raw fixes |
| GpsFilters.Make | include/filters/filter.h:34 | a new filter is enabled |
| GpsFilters.Name | src/filters/stop_filter.cpp:46-48 | each kind has its class name, and no two kinds share one |
| GpsFilters.SetEnabled | src/filters/filter.cpp:5-11 | `isEnabled` returns the flag last set |
| GpsFilters.SetMinSatellites | src/filters/satellite_filter.cpp:28-30 | the minimum becomes the given one |
| GpsFilters.SetMaxSpeed | src/filters/speed_filter.cpp:28-30 | the maximum becomes the given one |
| GpsFilters.SetMaxJump | src/filters/jump_filter.cpp:43-45 | the maximum becomes the given one |
| GpsFilters.SetThreshold | src/filters/stop_filter.cpp:59-61 | the threshold becomes the given one; a stop under way is kept |
| GpsFilters.SetMinStopTime | src/filters/stop_filter.cpp:67-69 | the minimum stop time becomes the given one |
| GpsFilters.NewStopFilter | src/filters/stop_filter.cpp:6-11 | a new stop filter is enabled and not stopped |
| GpsFilters.Reset | src/filters/stop_filter.cpp:50-53 | the base reset changes nothing; the stop filter's reset leaves it not stopped with no stop position |
| GpsFilters.Seconds | src/filters/jump_filter.cpp:20-21 | whole seconds between two times, truncated toward zero |
| GpsFilters.Process | src/filters/jump_filter.cpp:9-33 | disabled filters and invalid points pass untouched; only the stop filter stops, rewrites or changes state |
| GpsFilters.StopStep | src/filters/stop_filter.cpp:13-44 | the dwell state machine: latch on the first slow point, stop after the minimum whole seconds, unlatch when moving |
| GpsFilters.SatelliteRejectsIff | src/filters/satellite_filter.cpp:8-18 | a valid point is rejected exactly when it reports fewer satellites than the minimum, zero included |
| GpsFilters.SpeedRejectsIff | src/filters/speed_filter.cpp:8-18 | a valid point is rejected exactly when its speed is above the maximum |
| GpsFilters.JumpIgnoresSubSecondGaps | src/filters/jump_filter.cpp:20-25 | points less than a second after the back of the history always pass |
| GpsFilters.JumpRejectsOnlyFast | src/filters/jump_filter.cpp:9-33 | a rejected point is valid and more than max times the elapsed whole seconds from a valid back entry with a position |
| GpsFilters.JumpRejectsIff | src/filters/jump_filter.cpp:9-33 | a valid point is rejected exactly when the back entry is valid, has a position, is at least a whole second older and lies more than max times the elapsed seconds away; an empty history, an invalid back entry or one without a position lets it pass |
| GpsFilters.StoppedRun | src/filters/stop_filter.cpp:25-36 | once stopped, each slow point stops exactly when the minimum has elapsed since the latch, pinned to the latched position |
| GpsFilters.DwellRun | src/filters/stop_filter.cpp:18-36 | a slow run from not stopped: the first point passes and latches; later ones stop exactly when the minimum has elapsed since it |
| GpsFilters.MovingEndsStop | src/filters/stop_filter.cpp:38-43 | a point at or above the threshold passes unchanged and ends the stop |
| FilterFactory.Create | src/filter_factory.cpp:9-67 | unknown types give nothing; known types give a filter of that name with the configured enabled flag |
| FilterFactory.CreateDefaults | src/filter_factory.cpp:12-59 | absent parameters take the defaults 4, 300, 100, 3.0, 0.1 and 1.0 |
| FilterFactory.CreateUsesParams | src/filter_factory.cpp:12-59 | a present parameter overrides its default; the satellite minimum is truncated toward zero |
| FilterFactory.CreateIgnoresOtherParams | src/filter_factory.cpp:9-67 | only the parameters the type reads matter, and the priority does not |
| Pipeline.Insert | src/pipeline.cpp:15-21 | the list stays sorted by priority, gains exactly the new entry and grows by one |
| Pipeline.AddFilter | src/pipeline.cpp:15-21 | only the filter list changes, and the pipeline invariant is kept |
| Pipeline.EnabledFrom | src/pipeline.cpp:24-25 | only enabled entries, from the given index on |
| Pipeline.EnabledFromExact | src/pipeline.cpp:24-25 | every enabled entry from the given index on is listed, and no other, in increasing order |
| Pipeline.ApplyFilters | src/pipeline.cpp:23-42 | enabled filters are called in priority order; each call is that filter's `process` on the fix the one before passed on, and leaves the filter's new state in the list; every call but the last returned PASS; the chain is a rejection, named after the last filter called, exactly when the last call returned REJECT; it ends early only on REJECT or STOP; its fix is the last call's; the list keeps its shape |
| Pipeline.AllDisabledAccepts | src/pipeline.cpp:23-42 | a list of disabled filters accepts the fix untouched and calls nothing |
| Pipeline.Handle | src/pipeline.cpp:44-63 | one display call per line; a parse error only counts an error and keeps the decoder state the parse left, filters and history untouched; an invalid fix is only shown; the decoder state is always the one the parse left unless it threw; counters and history match the calls |
| Pipeline.Admit | src/pipeline.cpp:29-41 | a valid fix is counted once, as rejected or as valid; a rejection shows the filter's name and ": point rejected", an accepted fix is shown and appended to the history as the chain left it |
| Pipeline.Process | src/pipeline.cpp:44-63 | every line is counted processed once; a line failing the checksum shows the parse-error message and changes nothing but the processed and error counters, so a pending RMC or GGA survives it; valid + rejected + errors ≤ processed is kept |
| Pipeline.SetHistorySize | src/pipeline.cpp:65-67 | the history takes the new capacity and fits it; nothing else changes |
| Pipeline.ProcessAll | src/pipeline.cpp:44-63 | over a run of lines the counters and history match the display calls |
| Pipeline.HistoryHoldsLastShown | src/pipeline.cpp:44-63 | from a new pipeline the history holds the last min(n, c) shown points, oldest first |
| JsonScan.Trim | src/json_config.cpp:21-26 | the result neither starts nor ends with white space or `"`, is empty exactly when the text is all such characters, and is a slice of the text |
| JsonScan.TrimUnique | src/json_config.cpp:21-26 | a non-empty tight slice with only strippable characters around it is the result |
| JsonScan.TrimIdempotent | src/json_config.cpp:21-26 | trimming twice is trimming once |
| JsonScan.TrimUnquotes | src/json_config.cpp:21-26 | a quoted tight text loses its quotes |
| JsonScan.TrimFreeOf | src/json_config.cpp:21-26 | trimming adds no character that was not in the text |
| JsonScan.ExtractValue | src/json_config.cpp:75-86 | empty when the quoted key is absent, no colon follows it, or only white space follows the colon |
| JsonScan.ExtractValueShape | src/json_config.cpp:88-104 | a string value without quotes, an object or array through its first closer, a scalar trimmed up to `,` or `}` |
| JsonScan.ReadValue | src/json_config.cpp:88-104 | the raw text of the value: unclosed strings, objects and arrays give nothing |
| JsonScan.ExtractStringValue | src/json_config.cpp:75-92 | a string value written after its key is read back without quotes |
| JsonScan.ExtractBareValue | src/json_config.cpp:75-104 | a bare value written after its key is read back as written |
| JsonScan.CloseObjectBalances | src/json_config.cpp:119-126 | the brace scan stops where the count first returns to zero, or at the end |
| JsonScan.NextElement | src/json_config.cpp:114-141 | an element read moves the scan forward, and a closed object element is balanced |
| JsonScan.ExtractArray | src/json_config.cpp:107-143 | empty unless the value starts with `[`; every element has the shape of an object or a scalar |
| JsonScan.ArrayElements | src/json_config.cpp:107-143 | the elements of an array written from items are the items |
| JsonScan.ExtractArrayRoundTrip | src/json_config.cpp:107-143 | an array written after its key is read back item by item |
| JsonScan.NextKeySound | src/json_config.cpp:33-44 | a key read is free of quotes and stands quoted in the text |
| JsonScan.ReadEntrySound | src/json_config.cpp:33-68 | an entry read has a sound key and a raw value |
| JsonScan.Scan | src/json_config.cpp:32-70 | the scan only adds sound entries, and its position strictly increases |
| JsonScan.ExtractObject | src/json_config.cpp:28-73 | every entry of the map is a key quoted in the text with a raw value |
| JsonScan.ExtractObjectOfPairs | src/json_config.cpp:28-73 | an object of string pairs is read as the map they denote, values still quoted |
| JsonScan.PairsMapLastWins | src/json_config.cpp:58-62 | a repeated key keeps its last value |
| JsonScan.PairsMapUntouched | src/json_config.cpp:58-62 | a key none of the pairs names keeps its earlier presence and value |
| ConsoleDisplay.ClockOf | src/console_display.cpp:6-10 | minutes and seconds lie in 0..59; hours are not reduced modulo 24; the fields rebuild the timestamp to the whole second |
| ConsoleDisplay.Pad2 | src/console_display.cpp:13-15 | a number below 100 is exactly two digits; no field holds a colon |
| ConsoleDisplay.Pad2ReadBack | src/console_display.cpp:13-15 | a padded field reads back as its number |
| ConsoleDisplay.FormatTime | src/console_display.cpp:6-17 | at least 8 characters, exactly 8 below 100 hours |
| ConsoleDisplay.FormatTimeReadBack | src/console_display.cpp:6-17 | split at `:`, the text gives back hours, minutes and seconds; minutes and seconds are two digits |
| ConsoleDisplay.FormatTimeExample | src/console_display.cpp:6-17 | 45 320 000 ms renders as "12:35:20" |
| ConsoleDisplay.ShowInvalidFix | src/console_display.cpp:48-50 | appends `[`, the formatted time and "] No valid GPS fix" and a newline |
| ConsoleDisplay.ShowParseError | src/console_display.cpp:52-54 | appends "Parse error: ", the error and a newline; the error can be read back |
| ConsoleDisplay.ShowRejected | src/console_display.cpp:56-58 | appends "Point rejected: ", the reason and a newline; the reason can be read back |
| ConsoleDisplay.Clear | src/console_display.cpp:60 | writes nothing |
| ConsoleDisplay.StoppedMark | src/console_display.cpp:38-40 | " (stopped)" is written exactly when the speed is below 0.1 |

## Left out

- Haversine distance (src/jump_filter.cpp:7-24, `GpsPoint::distanceTo`) is a function parameter; its trigonometry and its truncation are not modelled. π in the smoothing filter is a parameter too.
- Floating point: doubles are exact reals, and `std::stof` for HDOP is `std::stod`. Rounding, infinities and NaN are not modelled.
- `std::stod` reads only `[ws][sign]digits[.digits]` and `.digits`. Exponents, hex floats, "inf" and "nan" are not modelled.
- `std::stoi` out of the `int` range is modelled as a throw, as `std::out_of_range` does. Overflow of `int` arithmetic on values read is not modelled: the sub-second `stoi(frac) * 10` and the RMC/GGA decimal fields.
- Exceptions: a throw from `std::stoi` or `std::stod` inside the decoders is a result (`Threw`, `LineThrew`, `None`). It is not C++ exception propagation.
- The earlier parser's wall-clock `parseTime` (src/filters/nmea_parser.cpp:59-92) is a parameter `Clock` from the time and date texts to an integer. `mktime` and the system clock are not modelled.
- The stop filter's construction time `system_clock::now()` (src/filters/stop_filter.cpp:10) is a parameter.
- `GpsPoint::hasPosition` of the earlier generation is a predicate parameter; its implementation is not part of this model.
- Fixed-precision output in `formatLatitude`, `formatLongitude` and the rest of `showPoint` (src/console_display.cpp:19-46) is not modelled; only the " (stopped)" marker is.
- Stream I/O is not modelled: `readFile`, `loadFromFile` and `saveToFile` (src/json_config.cpp:12-19, 145-240), `parseStream`'s reading from an `istream` (the lines are given as a sequence), and file display.
- main.cpp and src/main.cpp (process wiring) are not part of this model.
- The history's mutex is not modelled; the model is single-threaded.
- `std::sort` in `addFilter` is not stable. The model inserts after equal priorities, which is one of the orders it may produce.
- Pipeline.Process: requires every smoothing filter in the list to have parameters for which alpha is defined (no division by zero). The source divides regardless.
- InfraFilters.Process: requires the same of a smoothing filter that is enabled and receives a valid fix.
- JsonScan.ExtractValue: its contract states only the empty cases. The shape of a found value is stated by JsonScan.ExtractValueShape, because the combined contract is too costly to check on the function.
- JsonScan.Elements: its contract states only that elements come from inside the text. Their shapes are stated by JsonScan.ElementsShape and JsonScan.ArrayItems.
- JsonScan.NextKey: its contract states only that the scan advances. The key's properties are stated by JsonScan.NextKeySound.
- JsonScan.ReadEntry: its contract states only that the scan advances. The entry's properties are stated by JsonScan.ReadEntrySound.
- ConsoleDisplay.FormatTime: the timestamp is limited to below 2^64, the range of `unsigned long long`.
- Checksum.ByteOf: a character is taken as its code modulo 256. The source XORs the bytes of the line's UTF-8 text, so the checksum of a line with non-ASCII characters differs.
- FilterFactory.Create: `static_cast<int>` of a `minSatellites` value outside the `int` range is undefined behaviour in C++ (src/filter_factory.cpp:16). The model truncates toward zero without bound.
- Nmea.ParseTimeToMs: the source's `int` intermediate `hours * 3600 + minutes * 60 + seconds` cannot overflow with two-digit fields, so it is unbounded here.
- `getAllPoints`, `size` and `getMaxSize` of the history, `getLastGSV` and the getters of the filters are plain field reads. They have no contract beyond their definition.

=== FILE: checksum.dfy ===
/**
 * The NMEA 0183 sentence checksum: the exclusive-or of the bytes between
 * '$' and '*', written after the '*' as two hexadecimal digits. This
 * module holds the byte-level pieces shared by both parser generations;
 * each generation decides for itself which bytes are summed and how a
 * malformed checksum text is treated.
 */
module Checksum {
  import opened Wrappers
  import Text

  /** The byte a `char` of a `std::string` carries. */
  function ByteOf(c: char): bv8 {
    ((c as int) % 256) as bv8
  }

  /** Exclusive-or of the bytes of `s`, starting from 0. */
  function XorAll(s: string): bv8 {
    if s == [] then 0 else ByteOf(s[0]) ^ XorAll(s[1..])
  }

  /** The checksum of a concatenation is the exclusive-or of the two checksums. */
  lemma {:induction false} XorAllConcat(a: string, b: string)
    ensures XorAll(a + b) == XorAll(a) ^ XorAll(b)
  {
    if a != [] {
      assert (a + b)[1..] == a[1..] + b;
      XorAllConcat(a[1..], b);
    } else {
      assert a + b == b;
    }
  }

  /**
   * Replacing one character by another with a different byte always
   * changes the checksum: a single corrupted byte is always detected.
   */
  lemma {:induction false} XorAllDetectsOneChange(s: string, i: nat, c: char)
    requires i < |s| && ByteOf(c) != ByteOf(s[i])
    ensures XorAll(s[i := c]) != XorAll(s)
  {
    var t := s[i := c];
    assert s == s[..i] + [s[i]] + s[i + 1..];
    assert t == s[..i] + [c] + s[i + 1..];
    XorAllConcat(s[..i] + [s[i]], s[i + 1..]);
    XorAllConcat(s[..i], [s[i]]);
    XorAllConcat(s[..i] + [c], s[i + 1..]);
    XorAllConcat(s[..i], [c]);
  }

  predicate IsHexDigit(c: char) {
    '0' <= c <= '9' || 'a' <= c <= 'f' || 'A' <= c <= 'F'
  }

  /** Value of a hexadecimal digit, either case. */
  function HexValue(c: char): (v: nat)
    requires IsHexDigit(c)
    ensures v < 16
  {
    if '0' <= c <= '9' then c as int - '0' as int
    else if 'a' <= c <= 'f' then c as int - 'a' as int + 10
    else c as int - 'A' as int + 10
  }

  /** Upper-case hexadecimal digit for a value below 16. */
  function HexDigit(v: nat): (c: char)
    requires v < 16
    ensures IsHexDigit(c) && HexValue(c) == v
  {
    if v < 10 then ('0' as int + v) as char else ('A' as int + v - 10) as char
  }

  /**
   * How the C++ library reads the two characters after '*' in base 16:
   * leading white space is skipped, one sign is accepted, and reading stops
   * at the first character that is not a hexadecimal digit. None where no
   * digit is found. The value is signed; both parsers then keep its low
   * eight bits.
   */
  function ReadHexPair(c1: char, c2: char): (r: Option<int>)
    ensures r.Some? ==> -16 < r.value < 256
    ensures r.None? <==>
      !IsHexDigit(c1) && (!IsHexDigit(c2) || (!Text.IsSpace(c1) && c1 != '+' && c1 != '-'))
  {
    if IsHexDigit(c1) && IsHexDigit(c2) then Some(16 * HexValue(c1) + HexValue(c2))
    else if IsHexDigit(c1) then Some(HexValue(c1))
    else if (Text.IsSpace(c1) || c1 == '+') && IsHexDigit(c2) then Some(HexValue(c2))
    else if c1 == '-' && IsHexDigit(c2) then Some(-(HexValue(c2) as int))
    else None
  }

  /** Conversion of an integer to an unsigned 8-bit value: its residue modulo 256. */
  function LowByte(v: int): bv8 {
    (v % 256) as bv8
  }

  /** The two-character checksum text a well-formed sentence carries for `b`. */
  function HexByte(b: bv8): (s: string)
    ensures |s| == 2 && IsHexDigit(s[0]) && IsHexDigit(s[1])
  {
    HexText(b as int)
  }

  /** Two upper-case hexadecimal digits for a value below 256. */
  function HexText(n: nat): (s: string)
    requires n < 256
    ensures |s| == 2 && IsHexDigit(s[0]) && IsHexDigit(s[1])
    ensures 16 * HexValue(s[0]) + HexValue(s[1]) == n
  {
    [HexDigit(n / 16), HexDigit(n % 16)]
  }

  /** Reading back the checksum text of a byte gives that byte. */
  lemma {:induction false} HexByteRoundTrip(b: bv8)
    ensures ReadHexPair(HexByte(b)[0], HexByte(b)[1]) == Some(b as int)
    ensures LowByte(b as int) == b
  {
    var n := b as int;
    assert n % 256 == n;
  }

  /** ASCII upper-casing of a letter; other characters are unchanged. */
  function UpperAscii(c: char): (u: char)
    ensures 'a' <= c <= 'z' ==> u as int == c as int - 32
    ensures !('a' <= c <= 'z') ==> u == c
  {
    if 'a' <= c <= 'z' then (c as int - 32) as char else c
  }

  /** The checksum text is read case-insensitively. */
  lemma {:induction false} ReadHexPairIgnoresCase(c1: char, c2: char)
    ensures ReadHexPair(UpperAscii(c1), UpperAscii(c2)) == ReadHexPair(c1, c2)
  {
  }

  /** A sentence as a talker sends it: '$', the body, '*', and the body's checksum. */
  function Frame(body: string): (line: string)
    ensures |line| == |body| + 4 && line[0] == '$'
  {
    "$" + body + "*" + HexByte(XorAll(body))
  }

  /** The first '*' of a framed sentence is the one written after the body. */
  lemma {:induction false} FrameStar(body: string)
    requires '*' !in body
    ensures Text.Find(Frame(body), '*') == Some(|body| + 1)
  {
    var line := Frame(body);
    assert line[..|body| + 1] == "$" + body;
    Text.FindIs(line, '*', |body| + 1);
  }
}

=== FILE: console_display.dfy ===
/**
 * The console display (src/console_display.cpp): the "HH:MM:SS" rendering
 * of a millisecond timestamp and the fixed lines written for an invalid
 * fix, a parse error and a rejected point. The output stream is modelled
 * as the text written so far; each operation appends to it.
 */
module ConsoleDisplay {
  import opened Wrappers
  import Numbers
  import Text

  /** The three fields of a formatted time: hours (held in an int), minutes, seconds. */
  datatype Clock = Clock(hours: int, minutes: int, seconds: int)

  /**
   * The fields of `formatTime`: sub-second milliseconds are dropped, hours
   * are not reduced modulo 24 and go through a conversion to int.
   */
  function ClockOf(timestampMs: nat): (c: Clock)
    requires timestampMs < Numbers.TwoTo64
    ensures 0 <= c.minutes < 60 && 0 <= c.seconds < 60
    ensures Numbers.MinInt32 <= c.hours <= Numbers.MaxInt32
    ensures timestampMs / 1000 / 3600 <= Numbers.MaxInt32 ==>
      c.hours >= 0 && (c.hours * 3600 + c.minutes * 60 + c.seconds) * 1000 + timestampMs % 1000 == timestampMs
  {
    var seconds := timestampMs / 1000;
    var c := Clock(Numbers.ToInt32(seconds / 3600), (seconds % 3600) / 60, seconds % 60);
    assert seconds % 3600 == (seconds % 3600) / 60 * 60 + seconds % 60 by {
      SplitMinutes(seconds);
    }
    c
  }

  /** The seconds inside an hour are whole minutes plus the seconds of the minute. */
  lemma {:induction false} SplitMinutes(seconds: nat)
    ensures seconds % 3600 == (seconds % 3600) / 60 * 60 + seconds % 60
  {
    var q := seconds / 3600;
    assert seconds == q * 3600 + seconds % 3600;
    assert seconds == (q * 60) * 60 + seconds % 3600;
  }

  /**
   * `std::setfill('0') << std::setw(2) << n`: one leading '0' for a single
   * digit, otherwise the plain decimal rendering (a '-' already makes a
   * negative number two characters wide).
   */
  function Pad2(n: int): (s: string)
    ensures 0 <= n < 100 ==> |s| == 2 && Numbers.AllDigits(s)
    ensures ':' !in s
  {
    if 0 <= n < 10 then ['0', Numbers.DigitChar(n)]
    else
      var s := Numbers.IntToDecimal(n);
      assert ':' !in Numbers.NatToDecimal(if n < 0 then -n else n) by {
        DigitsFreeOfColon(Numbers.NatToDecimal(if n < 0 then -n else n));
      }
      assert 10 <= n < 100 ==> |s| == 2 by {
        if 10 <= n < 100 {
          TwoDigitDecimal(n);
        }
      }
      s
  }

  lemma {:induction false} DigitsFreeOfColon(d: string)
    requires Numbers.AllDigits(d)
    ensures ':' !in d
  {
    forall i | 0 <= i < |d|
      ensures d[i] != ':'
    {
      assert Numbers.IsDigit(d[i]);
    }
  }

  lemma {:induction false} TwoDigitDecimal(n: nat)
    requires 10 <= n < 100
    ensures |Numbers.NatToDecimal(n)| == 2
  {
    assert n / 10 < 10;
  }

  /** A padded field reads back, with std::stoi, as the number it shows. */
  lemma {:induction false} Pad2ReadBack(n: int)
    requires Numbers.MinInt32 <= n <= Numbers.MaxInt32
    ensures Numbers.ParseInt(Pad2(n)) == Some(n)
  {
    if 0 <= n < 10 {
      var s := Pad2(n);
      assert s[..1] == ['0'] && s[..1][..0] == [];
      assert Numbers.DigitsValue(s[..1]) == 0;
      assert Numbers.DigitsValue(s) == n;
      Numbers.ParseIntOfDigits(s);
    } else {
      Numbers.IntToDecimalRoundTrip(n);
    }
  }

  /** `formatTime`: hours, minutes and seconds, each padded to two digits, joined by ':'. */
  function FormatTime(timestampMs: nat): (r: string)
    requires timestampMs < Numbers.TwoTo64
    ensures |r| >= 8
    ensures timestampMs < 100 * 3_600_000 ==> |r| == 8
  {
    var c := ClockOf(timestampMs);
    Pad2(c.hours) + ":" + Pad2(c.minutes) + ":" + Pad2(c.seconds)
  }

  /**
   * Splitting a formatted time at ':' gives back three fields that
   * std::stoi reads as the whole hours (as an int), the minutes of the
   * hour and the seconds of the minute; minutes and seconds are always
   * exactly two digits.
   */
  lemma {:induction false} FormatTimeReadBack(timestampMs: nat)
    requires timestampMs < Numbers.TwoTo64
    ensures var parts := Text.SplitAll(FormatTime(timestampMs), ':');
      var seconds := timestampMs / 1000;
      && |parts| == 3
      && |parts[1]| == 2 && |parts[2]| == 2
      && Numbers.ParseInt(parts[0]) == Some(Numbers.ToInt32(seconds / 3600))
      && Numbers.ParseInt(parts[1]) == Some(seconds % 3600 / 60)
      && Numbers.ParseInt(parts[2]) == Some(seconds % 60)
  {
    var c := ClockOf(timestampMs);
    var h, m, s := Pad2(c.hours), Pad2(c.minutes), Pad2(c.seconds);
    Text.JoinCons(m, [s], ':');
    Text.JoinCons(h, [m, s], ':');
    assert [h] + [m, s] == [h, m, s];
    assert FormatTime(timestampMs) == Text.Join([h, m, s], ':');
    Text.JoinSplitAll([h, m, s], ':');
    Pad2ReadBack(c.hours);
    Pad2ReadBack(c.minutes);
    Pad2ReadBack(c.seconds);
  }

  /** 12:35:20 after midnight renders as "12:35:20". */
  lemma {:induction false} FormatTimeExample(timestampMs: nat)
    requires timestampMs == 45_320_000
    ensures FormatTime(timestampMs) == "12:35:20"
  {
    var c := ClockOf(timestampMs);
    assert c == Clock(12, 35, 20);
    assert Numbers.NatToDecimal(12) == "12" by {
      assert Numbers.NatToDecimal(1) == "1";
    }
    assert Numbers.NatToDecimal(35) == "35" by {
      assert Numbers.NatToDecimal(3) == "3";
    }
    assert Numbers.NatToDecimal(20) == "20" by {
      assert Numbers.NatToDecimal(2) == "2";
    }
  }

  // ---------------------------------------------------------------------------
  // Lines written to the console

  /** `showInvalidFix`: the bracketed time, then the fixed message. */
  function ShowInvalidFix(out: string, timestamp: nat): (r: string)
    requires timestamp < Numbers.TwoTo64
    ensures |r| >= |out| + 28 && r[..|out|] == out
    ensures r[|out|] == '[' && r[|r| - 19..] == "] No valid GPS fix\n"
    ensures r[|out| + 1..|r| - 19] == FormatTime(timestamp)
  {
    out + "[" + FormatTime(timestamp) + "] No valid GPS fix\n"
  }

  /** `showParseError`: the error text after a fixed prefix, on a line of its own. */
  function ShowParseError(out: string, error: string): (r: string)
    ensures |r| == |out| + |error| + 14 && r[..|out|] == out
    ensures r[|out|..|out| + 13] == "Parse error: " && r[|r| - 1] == '\n'
    ensures r[|out| + 13..|r| - 1] == error
  {
    out + "Parse error: " + error + "\n"
  }

  /** `showRejected`: the rejection reason after a fixed prefix, on a line of its own. */
  function ShowRejected(out: string, reason: string): (r: string)
    ensures |r| == |out| + |reason| + 17 && r[..|out|] == out
    ensures r[|out|..|out| + 16] == "Point rejected: " && r[|r| - 1] == '\n'
    ensures r[|out| + 16..|r| - 1] == reason
  {
    out + "Point rejected: " + reason + "\n"
  }

  /** `clear` writes nothing. */
  function Clear(out: string): (r: string)
    ensures r == out
  {
    out
  }

  /** The marker `showPoint` writes after the speed: present exactly when the speed is below 0.1 km/h. */
  function StoppedMark(speed: real): (r: string)
    ensures r != [] <==> speed < 0.1
    ensures r != [] ==> r == " (stopped)"
  {
    if speed < 0.1 then " (stopped)" else ""
  }
}

=== FILE: filter_factory.dfy ===
/**
 * The filter factory (src/filter_factory.cpp): a filter configuration
 * record — a type name, an enabled flag, a priority and named numeric
 * parameters — becomes one of the five infra filters, each parameter
 * falling back to its default when absent. An unknown type yields nothing.
 */
module FilterFactory {
  import opened Wrappers
  import Numbers
  import Smoothing
  import InfraFilters

  /** `FilterConfig`: the type name, enabled (default true), priority (default 0) and parameters. */
  datatype FilterConfig = FilterConfig(filterType: string, enabled: bool, priority: int, params: map<string, real>)

  /** A configuration with only the type given. */
  function DefaultConfig(filterType: string): (c: FilterConfig)
    ensures c.filterType == filterType && c.enabled && c.priority == 0 && c.params == map[]
  {
    FilterConfig(filterType, true, 0, map[])
  }

  /** The parameter's value when present, else the default. */
  function Param(params: map<string, real>, key: string, default: real): (v: real)
    ensures key in params ==> v == params[key]
    ensures key !in params ==> v == default
  {
    if key in params then params[key] else default
  }

  /** The known type names. */
  predicate Known(filterType: string) {
    filterType in {"SatelliteFilter", "SpeedFilter", "JumpFilter", "StopFilter", "SmoothingFilter"}
  }

  /**
   * `create`. The satellite minimum is the parameter truncated toward zero
   * (default 4); the speed maximum defaults to 300, the jump maximum to
   * 100, the stop threshold to 3.0, the smoothing cutoff to 0.1 and its
   * sample rate to 1.0. The filter's enabled flag is the configuration's.
   */
  function Create(config: FilterConfig): (r: Option<InfraFilters.Filter>)
    ensures r.None? <==> !Known(config.filterType)
    ensures r.Some? ==> InfraFilters.Name(r.value) == config.filterType
    ensures r.Some? ==> r.value.enabled == config.enabled
  {
    var p := config.params;
    var kind :=
      if config.filterType == "SatelliteFilter" then
        Some(InfraFilters.SatelliteFilter(
          if "minSatellites" in p then Numbers.Trunc(p["minSatellites"]) else InfraFilters.DefaultMinSatellites))
      else if config.filterType == "SpeedFilter" then
        Some(InfraFilters.SpeedFilter(Param(p, "maxSpeed", InfraFilters.DefaultMaxSpeed)))
      else if config.filterType == "JumpFilter" then
        Some(InfraFilters.JumpFilter(Param(p, "maxJump", InfraFilters.DefaultMaxJump)))
      else if config.filterType == "StopFilter" then
        Some(InfraFilters.StopFilter(Param(p, "threshold", InfraFilters.DefaultStopThreshold)))
      else if config.filterType == "SmoothingFilter" then
        Some(InfraFilters.SmoothingFilter(Smoothing.New(
          Param(p, "cutoffFrequency", Smoothing.DefaultCutoff),
          Param(p, "sampleRate", Smoothing.DefaultSampleRate))))
      else None;
    match kind
    case None => None
    case Some(k) => Some(InfraFilters.SetEnabled(InfraFilters.Make(k), config.enabled))
  }

  /**
   * With no parameters every known type gets its defaults, and the result
   * is the filter of that kind that a default-constructed object would be,
   * with the configured enabled flag.
   */
  lemma {:induction false} CreateDefaults(filterType: string, enabled: bool, priority: int)
    requires Known(filterType)
    ensures var r := Create(FilterConfig(filterType, enabled, priority, map[]));
      && r.Some? && r.value.enabled == enabled
      && (filterType == "SatelliteFilter" ==> r.value.kind == InfraFilters.SatelliteFilter(4))
      && (filterType == "SpeedFilter" ==> r.value.kind == InfraFilters.SpeedFilter(300.0))
      && (filterType == "JumpFilter" ==> r.value.kind == InfraFilters.JumpFilter(100.0))
      && (filterType == "StopFilter" ==> r.value.kind == InfraFilters.StopFilter(3.0))
      && (filterType == "SmoothingFilter" ==>
            r.value.kind == InfraFilters.SmoothingFilter(Smoothing.Smoother(0.1, 1.0, [])))
  {
  }

  /**
   * A present parameter overrides its default; the satellite minimum is the
   * parameter truncated toward zero.
   */
  lemma {:induction false} CreateUsesParams(config: FilterConfig)
    requires Known(config.filterType)
    ensures var r := Create(config).value;
      var p := config.params;
      && (config.filterType == "SatelliteFilter" && "minSatellites" in p ==>
            && r.kind.SatelliteFilter?
            && r.kind.minSatellites == Numbers.Trunc(p["minSatellites"])
            && (p["minSatellites"] >= 0.0 ==>
                  r.kind.minSatellites as real <= p["minSatellites"] < r.kind.minSatellites as real + 1.0))
      && (config.filterType == "SpeedFilter" && "maxSpeed" in p ==> r.kind == InfraFilters.SpeedFilter(p["maxSpeed"]))
      && (config.filterType == "JumpFilter" && "maxJump" in p ==> r.kind == InfraFilters.JumpFilter(p["maxJump"]))
      && (config.filterType == "StopFilter" && "threshold" in p ==> r.kind == InfraFilters.StopFilter(p["threshold"]))
      && (config.filterType == "SmoothingFilter" && "cutoffFrequency" in p ==>
            r.kind.SmoothingFilter? && r.kind.smoother.cutoff == p["cutoffFrequency"])
      && (config.filterType == "SmoothingFilter" && "sampleRate" in p ==>
            r.kind.SmoothingFilter? && r.kind.smoother.sampleRate == p["sampleRate"])
  {
  }

  /**
   * The result depends only on the parameters the chosen type reads: two
   * configurations that agree on the type, the enabled flag and those
   * parameters give the same filter, whatever else they hold (the priority
   * included).
   */
  lemma {:induction false} CreateIgnoresOtherParams(a: FilterConfig, b: FilterConfig)
    requires a.filterType == b.filterType && a.enabled == b.enabled
    requires forall k :: k in Reads(a.filterType) ==> (k in a.params <==> k in b.params)
    requires forall k :: k in Reads(a.filterType) && k in a.params ==> a.params[k] == b.params[k]
    ensures Create(a) == Create(b)
  {
    var t := a.filterType;
    if t == "SatelliteFilter" {
      assert "minSatellites" in Reads(t);
    } else if t == "SpeedFilter" {
      assert "maxSpeed" in Reads(t);
    } else if t == "JumpFilter" {
      assert "maxJump" in Reads(t);
    } else if t == "StopFilter" {
      assert "threshold" in Reads(t);
    } else if t == "SmoothingFilter" {
      assert "cutoffFrequency" in Reads(t);
      assert "sampleRate" in Reads(t);
    }
  }

  /** The parameter names each type reads. */
  function Reads(filterType: string): set<string> {
    if filterType == "SatelliteFilter" then {"minSatellites"}
    else if filterType == "SpeedFilter" then {"maxSpeed"}
    else if filterType == "JumpFilter" then {"maxJump"}
    else if filterType == "StopFilter" then {"threshold"}
    else if filterType == "SmoothingFilter" then {"cutoffFrequency", "sampleRate"}
    else {}
  }
}

=== FILE: fix.dfy ===
/**
 * The GPS fix of the current generation (the `GpsPoint` record), with
 * doubles and the float HDOP as exact reals and the 64-bit unsigned
 * timestamp as a natural number.
 */
module Fix {

  /** Two to the power 64: the modulus of `unsigned long long` arithmetic. */
  const TwoTo64: int := 0x1_0000_0000_0000_0000

  datatype Fix = Fix(
    latitude: real,
    longitude: real,
    speed: real,
    course: real,
    altitude: real,
    satellites: int,
    hdop: real,
    timestamp: nat,
    isValid: bool)

  /** A default-constructed point: all zero and not valid. */
  const Unset: Fix := Fix(0.0, 0.0, 0.0, 0.0, 0.0, 0, 0.0, 0, false)

  /** Distance in metres between two fixes, as the filters use it. */
  type Distance = (Fix, Fix) -> real
}

=== FILE: gps_filters.dfy ===
/**
 * The filters of the earlier generation (namespace gps, src/filters/):
 * satellite, speed, jump and stop filters over `GpsPoint`s and a deque of
 * earlier points. Unlike the infra filters, an invalid point always
 * passes. The jump filter bounds the apparent speed between the point and
 * the back of the history; the stop filter is a small state machine that
 * pins the position once the receiver has been slow for long enough.
 *
 * Time points are integer milliseconds; `duration_cast<seconds>` truncates
 * toward zero. Whether a point carries a position (`hasPosition`) and the
 * distance between two points are parameters.
 */
module GpsFilters {
  import opened LegacyPoint
  import Numbers

  datatype FilterResult = Pass | Reject | Stop

  /** `GpsPoint::hasPosition`. */
  type HasPosition = Point -> bool

  /** Constructor defaults. */
  const DefaultMinSatellites: int := 4
  const DefaultMaxSpeed: real := 200.0
  const DefaultMaxJump: real := 100.0
  const DefaultThreshold: real := 3.0
  const DefaultMinStopTime: int := 5

  /** The stop filter's memory: whether a stop is under way, since when, and where. */
  datatype Dwell = Dwell(stopped: bool, stopStart: int, stopPosition: Point)

  datatype Kind =
    | SatelliteFilter(minSatellites: int)
    | SpeedFilter(maxSpeed: real)
    | JumpFilter(maxJump: real)
    | StopFilter(threshold: real, minStopTime: int, dwell: Dwell)

  datatype Filter = Filter(kind: Kind, enabled: bool)

  /** A new stop filter; its stop start is the clock reading `now` at construction. */
  function NewStopFilter(threshold: real, minStopTime: int, now: int): (f: Filter)
    ensures f.enabled && f.kind.StopFilter? && !f.kind.dwell.stopped
    ensures f.kind.threshold == threshold && f.kind.minStopTime == minStopTime
  {
    Filter(StopFilter(threshold, minStopTime, Dwell(false, now, Unset)), true)
  }

  /** A new filter of any other kind: enabled. */
  function Make(kind: Kind): (f: Filter)
    ensures f.kind == kind && f.enabled
  {
    Filter(kind, true)
  }

  /** `name`. */
  function Name(f: Filter): (name: string)
    ensures f.kind.SatelliteFilter? <==> name == "SatelliteFilter"
    ensures f.kind.SpeedFilter? <==> name == "SpeedFilter"
    ensures f.kind.JumpFilter? <==> name == "JumpFilter"
    ensures f.kind.StopFilter? <==> name == "StopFilter"
  {
    match f.kind
    case SatelliteFilter(_) => "SatelliteFilter"
    case SpeedFilter(_) => "SpeedFilter"
    case JumpFilter(_) => "JumpFilter"
    case StopFilter(_, _, _) => "StopFilter"
  }

  /** `setEnabled` of the base class. */
  function SetEnabled(f: Filter, enabled: bool): (r: Filter)
    ensures IsEnabled(r) == enabled && r.kind == f.kind
  {
    f.(enabled := enabled)
  }

  function IsEnabled(f: Filter): bool {
    f.enabled
  }

  /** `setMinSatellites`, `setMaxSpeed`, `setMaxJump`: one parameter changes. */
  function SetMinSatellites(f: Filter, min: int): (r: Filter)
    requires f.kind.SatelliteFilter?
    ensures r.kind.SatelliteFilter? && r.kind.minSatellites == min && r.enabled == f.enabled
  {
    f.(kind := SatelliteFilter(min))
  }

  function SetMaxSpeed(f: Filter, max: real): (r: Filter)
    requires f.kind.SpeedFilter?
    ensures r.kind.SpeedFilter? && r.kind.maxSpeed == max && r.enabled == f.enabled
  {
    f.(kind := SpeedFilter(max))
  }

  function SetMaxJump(f: Filter, max: real): (r: Filter)
    requires f.kind.JumpFilter?
    ensures r.kind.JumpFilter? && r.kind.maxJump == max && r.enabled == f.enabled
  {
    f.(kind := JumpFilter(max))
  }

  /** `setThreshold` and `setMinStopTime`: one parameter changes; a stop under way is kept. */
  function SetThreshold(f: Filter, threshold: real): (r: Filter)
    requires f.kind.StopFilter?
    ensures r.kind.StopFilter? && r.kind.threshold == threshold && r.enabled == f.enabled
    ensures r.kind.minStopTime == f.kind.minStopTime && r.kind.dwell == f.kind.dwell
  {
    f.(kind := f.kind.(threshold := threshold))
  }

  function SetMinStopTime(f: Filter, minStopTime: int): (r: Filter)
    requires f.kind.StopFilter?
    ensures r.kind.StopFilter? && r.kind.minStopTime == minStopTime && r.enabled == f.enabled
    ensures r.kind.threshold == f.kind.threshold && r.kind.dwell == f.kind.dwell
  {
    f.(kind := f.kind.(minStopTime := minStopTime))
  }

  /** `isStopped`: whether a stop is under way. */
  function IsStopped(f: Filter): bool
    requires f.kind.StopFilter?
  {
    f.kind.dwell.stopped
  }

  /**
   * `reset`: a no-op in the base class; the stop filter forgets a stop under
   * way and its position, keeping its parameters and its stop start.
   */
  function Reset(f: Filter): (r: Filter)
    ensures r.enabled == f.enabled && Name(r) == Name(f)
    ensures !f.kind.StopFilter? ==> r == f
    ensures f.kind.StopFilter? ==>
              && r.kind.StopFilter?
              && r.kind.threshold == f.kind.threshold && r.kind.minStopTime == f.kind.minStopTime
              && r.kind.dwell == Dwell(false, f.kind.dwell.stopStart, Unset)
  {
    match f.kind
    case StopFilter(threshold, minStopTime, dwell) =>
      f.(kind := StopFilter(threshold, minStopTime, Dwell(false, dwell.stopStart, Unset)))
    case _ => f
  }

  /** Whole seconds from `from` to `to`, truncated toward zero as `duration_cast` does. */
  function Seconds(from: int, to: int): (s: int)
    ensures to - from >= 0 ==> s >= 0 && s * 1000 <= to - from < s * 1000 + 1000
    ensures to - from < 0 ==> s <= 0 && s * 1000 - 1000 < to - from <= s * 1000
  {
    Numbers.TruncDiv(to - from, 1000)
  }

  datatype Outcome = Outcome(result: FilterResult, point: Point, filter: Filter)

  /**
   * `process` of each filter; disabled filters and invalid points pass.
   * Satellite: fewer satellites than the minimum is rejected. Speed: a speed
   * above the maximum is rejected. Jump: with a valid, positioned point at
   * the back of the history and a positive whole number of seconds between
   * the two, a distance per second above the maximum is rejected. Stop: see
   * `StopStep`.
   */
  function Process(f: Filter, point: Point, history: seq<Point>, distance: Distance,
                   hasPosition: HasPosition): (r: Outcome)
    ensures !f.enabled || !point.isValid ==> r == Outcome(Pass, point, f)
    ensures r.result == Stop || r.point != point ==> f.kind.StopFilter?
    ensures r.filter != f ==> f.kind.StopFilter?
    ensures r.filter.enabled == f.enabled && Name(r.filter) == Name(f)
    ensures r.point.isValid == point.isValid && r.point.timestamp == point.timestamp
  {
    if !f.enabled || !point.isValid then Outcome(Pass, point, f)
    else
      match f.kind
      case SatelliteFilter(min) =>
        Outcome(if point.satellites < min then Reject else Pass, point, f)
      case SpeedFilter(max) =>
        Outcome(if point.speed > max then Reject else Pass, point, f)
      case JumpFilter(max) =>
        Outcome(JumpVerdict(max, point, history, distance, hasPosition), point, f)
      case StopFilter(threshold, minStopTime, dwell) =>
        if !hasPosition(point) then Outcome(Pass, point, f)
        else
          var (result, out, next) := StopStep(threshold, minStopTime, dwell, point);
          Outcome(result, out, f.(kind := StopFilter(threshold, minStopTime, next)))
  }

  /** The jump filter's verdict on a valid point. */
  function JumpVerdict(max: real, point: Point, history: seq<Point>, distance: Distance,
                       hasPosition: HasPosition): FilterResult
  {
    if history == [] then Pass
    else
      var last := history[|history| - 1];
      if !last.isValid || !hasPosition(last) then Pass
      else
        var seconds := Seconds(last.timestamp, point.timestamp);
        if seconds <= 0 then Pass
        else if distance(point, last) / (seconds as real) > max then Reject
        else Pass
  }

  /**
   * The stop filter on a valid, positioned point. Slow and not yet stopped:
   * the stop starts here, and the point passes. Slow and stopped for at
   * least the minimum whole seconds: the point takes the stop position at
   * speed zero and the chain stops. Slow but not long enough: pass. Not
   * slow: the stop ends, and the point passes.
   */
  function StopStep(threshold: real, minStopTime: int, dwell: Dwell, point: Point): (r: (FilterResult, Point, Dwell))
    ensures point.speed >= threshold ==> r == (Pass, point, dwell.(stopped := false))
    ensures point.speed < threshold && !dwell.stopped ==> r == (Pass, point, Dwell(true, point.timestamp, point))
    ensures point.speed < threshold && dwell.stopped ==> r.2 == dwell
    ensures r.0 == Stop <==>
              point.speed < threshold && dwell.stopped && Seconds(dwell.stopStart, point.timestamp) >= minStopTime
    ensures r.0 == Stop ==>
              r.1 == point.(latitude := dwell.stopPosition.latitude, longitude := dwell.stopPosition.longitude, speed := 0.0)
    ensures r.0 != Stop ==> r.0 == Pass && r.1 == point
  {
    if point.speed < threshold then
      if !dwell.stopped then (Pass, point, Dwell(true, point.timestamp, point))
      else if Seconds(dwell.stopStart, point.timestamp) >= minStopTime then
        (Stop, point.(latitude := dwell.stopPosition.latitude, longitude := dwell.stopPosition.longitude, speed := 0.0), dwell)
      else (Pass, point, dwell)
    else (Pass, point, dwell.(stopped := false))
  }

  // ---------------------------------------------------------------------------
  // Properties of the individual filters

  /**
   * The satellite filter rejects a valid point exactly when it reports
   * fewer satellites than the minimum, zero included.
   */
  lemma {:induction false} SatelliteRejectsIff(min: int, point: Point, history: seq<Point>, d: Distance, hp: HasPosition)
    requires point.isValid
    ensures Process(Filter(SatelliteFilter(min), true), point, history, d, hp).result == Reject
            <==> point.satellites < min
  {
  }

  /** The speed filter rejects a valid point exactly when it is above the maximum; negative speeds pass. */
  lemma {:induction false} SpeedRejectsIff(max: real, point: Point, history: seq<Point>, d: Distance, hp: HasPosition)
    requires point.isValid
    ensures Process(Filter(SpeedFilter(max), true), point, history, d, hp).result == Reject <==> point.speed > max
  {
  }

  /**
   * Two points less than a second apart never make the jump filter reject,
   * however far apart they are: the elapsed time truncates to zero seconds.
   */
  lemma {:induction false} JumpIgnoresSubSecondGaps(max: real, point: Point, history: seq<Point>, d: Distance, hp: HasPosition)
    requires history != [] && point.timestamp - history[|history| - 1].timestamp < 1000
    ensures Process(Filter(JumpFilter(max), true), point, history, d, hp).result == Pass
  {
    var last := history[|history| - 1];
    assert Seconds(last.timestamp, point.timestamp) <= 0;
  }

  /**
   * The jump filter rejects only points that moved faster than the maximum:
   * a rejected point lies more than `max` times the elapsed whole seconds
   * away from the back of the history, and that back point was valid.
   */
  lemma {:induction false} JumpRejectsOnlyFast(max: real, point: Point, history: seq<Point>, d: Distance, hp: HasPosition)
    requires Process(Filter(JumpFilter(max), true), point, history, d, hp).result == Reject
    ensures history != [] && history[|history| - 1].isValid && hp(history[|history| - 1]) && point.isValid
    ensures var last := history[|history| - 1];
      var s := Seconds(last.timestamp, point.timestamp);
      s >= 1 && d(point, last) > max * (s as real)
  {
    var last := history[|history| - 1];
    var s := Seconds(last.timestamp, point.timestamp);
    var q := d(point, last) / (s as real);
    assert q > max;
    assert d(point, last) == q * (s as real);
  }

  /**
   * On a valid point the jump filter rejects exactly when the back of the
   * history is a valid point with a position, at least one whole second
   * earlier, and the point lies more than `max` times the elapsed seconds
   * away from it. An empty history, an invalid back point and a back point
   * without a position all let the point pass.
   */
  lemma {:induction false} JumpRejectsIff(max: real, point: Point, history: seq<Point>, d: Distance, hp: HasPosition)
    requires point.isValid
    ensures Process(Filter(JumpFilter(max), true), point, history, d, hp).result == Reject
            <==> && history != []
                 && history[|history| - 1].isValid && hp(history[|history| - 1])
                 && var s := Seconds(history[|history| - 1].timestamp, point.timestamp);
                    s >= 1 && d(point, history[|history| - 1]) > max * (s as real)
    ensures history == [] ==> Process(Filter(JumpFilter(max), true), point, history, d, hp).result == Pass
    ensures history != [] && (!history[|history| - 1].isValid || !hp(history[|history| - 1])) ==>
              Process(Filter(JumpFilter(max), true), point, history, d, hp).result == Pass
  {
    if history != [] {
      var last := history[|history| - 1];
      var s := Seconds(last.timestamp, point.timestamp);
      if last.isValid && hp(last) && s >= 1 {
        var q := d(point, last) / (s as real);
        assert d(point, last) == q * (s as real);
        if q > max {
          assert q * (s as real) > max * (s as real);
        } else {
          assert q * (s as real) <= max * (s as real);
        }
      }
    }
  }

  // ---------------------------------------------------------------------------
  // The stop filter over a run of points

  /** The points fed to one filter in turn, each with the same history. */
  datatype Run = Run(filter: Filter, results: seq<FilterResult>, points: seq<Point>)

  function ProcessRun(f: Filter, points: seq<Point>, history: seq<Point>, d: Distance, hp: HasPosition): (r: Run)
    ensures |r.results| == |points| && |r.points| == |points|
    decreases |points|
  {
    if points == [] then Run(f, [], [])
    else
      var one := Process(f, points[0], history, d, hp);
      var rest := ProcessRun(one.filter, points[1..], history, d, hp);
      Run(rest.filter, [one.result] + rest.results, [one.point] + rest.points)
  }

  /** Every point is valid, positioned and slower than `threshold`. */
  predicate Slow(points: seq<Point>, threshold: real, hp: HasPosition) {
    forall k :: 0 <= k < |points| ==> points[k].isValid && hp(points[k]) && points[k].speed < threshold
  }

  /**
   * Once a stop is under way, a run of slow points keeps it: each point
   * stops the chain, pinned to the stop position at speed zero, exactly when
   * at least the minimum whole seconds have passed since the stop began,
   * and passes unchanged otherwise.
   */
  lemma {:induction false} StoppedRun(threshold: real, minStopTime: int, dwell: Dwell, enabled: bool,
                                      points: seq<Point>, history: seq<Point>, d: Distance, hp: HasPosition)
    requires enabled && dwell.stopped && Slow(points, threshold, hp)
    ensures var r := ProcessRun(Filter(StopFilter(threshold, minStopTime, dwell), enabled), points, history, d, hp);
      && r.filter == Filter(StopFilter(threshold, minStopTime, dwell), enabled)
      && forall k :: 0 <= k < |points| ==>
           && (r.results[k] == Stop <==> Seconds(dwell.stopStart, points[k].timestamp) >= minStopTime)
           && r.points[k] == (if r.results[k] == Stop
                              then points[k].(latitude := dwell.stopPosition.latitude,
                                              longitude := dwell.stopPosition.longitude, speed := 0.0)
                              else points[k])
    decreases |points|
  {
    if points != [] {
      var f := Filter(StopFilter(threshold, minStopTime, dwell), enabled);
      assert Slow(points[1..], threshold, hp) by {
        forall k | 0 <= k < |points| - 1 ensures points[1..][k] == points[k + 1] { }
      }
      StoppedRun(threshold, minStopTime, dwell, enabled, points[1..], history, d, hp);
      var r := ProcessRun(f, points, history, d, hp);
      var rest := ProcessRun(f, points[1..], history, d, hp);
      assert r.results == [Process(f, points[0], history, d, hp).result] + rest.results;
      forall k | 1 <= k < |points|
        ensures r.results[k] == rest.results[k - 1] && r.points[k] == rest.points[k - 1]
      { }
    }
  }

  /**
   * A run of slow points into a stop filter that is not stopped: the first
   * point passes unchanged and starts the stop at its own time and place;
   * every later point stops the chain, pinned to the first point's position,
   * exactly when at least the minimum whole seconds have passed since the first.
   */
  lemma {:induction false} DwellRun(threshold: real, minStopTime: int, dwell: Dwell,
                                    points: seq<Point>, history: seq<Point>, d: Distance, hp: HasPosition)
    requires !dwell.stopped && points != [] && Slow(points, threshold, hp)
    ensures var r := ProcessRun(Filter(StopFilter(threshold, minStopTime, dwell), true), points, history, d, hp);
      && r.results[0] == Pass && r.points[0] == points[0]
      && r.filter == Filter(StopFilter(threshold, minStopTime, Dwell(true, points[0].timestamp, points[0])), true)
      && forall k :: 1 <= k < |points| ==>
           && (r.results[k] == Stop <==> Seconds(points[0].timestamp, points[k].timestamp) >= minStopTime)
           && (r.results[k] == Stop ==>
                 r.points[k].latitude == points[0].latitude && r.points[k].longitude == points[0].longitude
                 && r.points[k].speed == 0.0)
  {
    var started := Dwell(true, points[0].timestamp, points[0]);
    assert Slow(points[1..], threshold, hp) by {
      forall k | 0 <= k < |points| - 1 ensures points[1..][k] == points[k + 1] { }
    }
    StoppedRun(threshold, minStopTime, started, true, points[1..], history, d, hp);
    var r := ProcessRun(Filter(StopFilter(threshold, minStopTime, dwell), true), points, history, d, hp);
    var rest := ProcessRun(Filter(StopFilter(threshold, minStopTime, started), true), points[1..], history, d, hp);
    forall k | 1 <= k < |points|
      ensures r.results[k] == rest.results[k - 1] && r.points[k] == rest.points[k - 1]
    { }
  }

  /** A point at or above the threshold ends any stop under way, and passes unchanged. */
  lemma {:induction false} MovingEndsStop(threshold: real, minStopTime: int, dwell: Dwell, point: Point,
                                          history: seq<Point>, d: Distance, hp: HasPosition)
    requires point.isValid && hp(point) && point.speed >= threshold
    ensures var r := Process(Filter(StopFilter(threshold, minStopTime, dwell), true), point, history, d, hp);
      r.result == Pass && r.point == point
      && r.filter == Filter(StopFilter(threshold, minStopTime, dwell.(stopped := false)), true)
  {
  }
}

=== FILE: history.dfy ===
/**
 * The bounded history of accepted fixes (src/gps_history.cpp): a FIFO
 * deque with a capacity. Appending to a full history drops the oldest
 * entry; lowering the capacity drops entries from the front.
 */
module History {
  import opened Wrappers
  import opened Fix

  /** The capacity a history is built with when none is given. */
  const DefaultMaxSize: nat := 10

  datatype History = History(points: seq<Fix>, maxSize: nat)

  /** An empty history of the given capacity. */
  function New(maxSize: nat): (h: History)
    ensures h.points == [] && h.maxSize == maxSize
  {
    History([], maxSize)
  }

  /** The history holds no more entries than its capacity. */
  predicate Bounded(h: History) {
    |h.points| <= h.maxSize
  }

  /** The entries from index `from` on, as the front-most ones are dropped. */
  function DropFront(points: seq<Fix>, from: nat): (r: seq<Fix>)
    requires from <= |points|
    ensures |r| == |points| - from
    ensures forall k :: 0 <= k < |r| ==> r[k] == points[from + k]
  {
    points[from..]
  }

  /**
   * `addPoint`: the point goes to the back, and if the history is then over
   * capacity, one entry is dropped from the front.
   */
  function AddPoint(h: History, p: Fix): (r: History)
    ensures r.maxSize == h.maxSize
    ensures Bounded(h) ==> Bounded(r)
    ensures |r.points| > 0 ==> r.points[|r.points| - 1] == p
    ensures |h.points| < h.maxSize ==> r.points == h.points + [p]
    ensures |h.points| >= h.maxSize ==> r.points == DropFront(h.points + [p], 1)
  {
    var points := h.points + [p];
    if |points| > h.maxSize then h.(points := points[1..]) else h.(points := points)
  }

  /** The points appended one after another, oldest first. */
  function AddAll(h: History, ps: seq<Fix>): History
    decreases |ps|
  {
    if ps == [] then h else AddPoint(AddAll(h, ps[..|ps| - 1]), ps[|ps| - 1])
  }

  /** Appending two runs of points one after the other is appending their concatenation. */
  lemma {:induction false} AddAllConcat(h: History, a: seq<Fix>, b: seq<Fix>)
    ensures AddAll(AddAll(h, a), b) == AddAll(h, a + b)
    decreases |b|
  {
    if b == [] {
      assert a + b == a;
    } else {
      var init := b[..|b| - 1];
      AddAllConcat(h, a, init);
      assert (a + b)[..|a + b| - 1] == a + init;
    }
  }

  function Min(a: nat, b: nat): nat {
    if a < b then a else b
  }

  /**
   * Starting empty, after appending `ps` a history of capacity `c` holds the
   * last min(|ps|, c) of them, in the order they were appended.
   */
  lemma {:induction false} AddAllKeepsLast(c: nat, ps: seq<Fix>)
    ensures AddAll(New(c), ps).points == ps[|ps| - Min(|ps|, c)..]
    ensures AddAll(New(c), ps).maxSize == c
    decreases |ps|
  {
    if ps != [] {
      AddAllKeepsLast(c, ps[..|ps| - 1]);
      KeepLastStep(c, ps, AddAll(New(c), ps[..|ps| - 1]));
    }
  }

  /** Appending to a history that holds the last of all but one point holds the last of them all. */
  lemma {:induction false} KeepLastStep(c: nat, ps: seq<Fix>, h: History)
    requires ps != [] && h.maxSize == c
    requires var n := |ps| - 1; h.points == ps[..n][n - Min(n, c)..]
    ensures AddPoint(h, ps[|ps| - 1]).points == ps[|ps| - Min(|ps|, c)..]
    ensures AddPoint(h, ps[|ps| - 1]).maxSize == c
  {
    var n := |ps| - 1;
    var from := n - Min(n, c);
    assert h.points == ps[from..n];
    assert h.points + [ps[n]] == ps[from..];
    if n >= c {
      assert (h.points + [ps[n]])[1..] == ps[from + 1..];
    }
  }

  /**
   * `getLastValid`: the back-most entry that is valid, or None when no
   * entry is valid (in particular when the history is empty).
   */
  function LastValid(points: seq<Fix>): (r: Option<Fix>)
    ensures r.None? <==> forall k :: 0 <= k < |points| ==> !points[k].isValid
    ensures r.Some? ==> r.value.isValid
    ensures r.Some? ==>
      exists k :: 0 <= k < |points| && points[k] == r.value && (forall j :: k < j < |points| ==> !points[j].isValid)
  {
    match LastValidIndex(points)
    case None => None
    case Some(i) => Some(points[i])
  }

  /** Where the back-most valid entry stands. */
  function LastValidIndex(points: seq<Fix>): (r: Option<nat>)
    ensures r.None? ==> forall k :: 0 <= k < |points| ==> !points[k].isValid
    ensures r.Some? ==> r.value < |points| && points[r.value].isValid
    ensures r.Some? ==> forall j :: r.value < j < |points| ==> !points[j].isValid
    decreases |points|
  {
    if points == [] then None
    else if points[|points| - 1].isValid then Some(|points| - 1)
    else
      var init := points[..|points| - 1];
      assert forall k :: 0 <= k < |init| ==> init[k] == points[k];
      LastValidIndex(init)
  }

  function GetLastValid(h: History): Option<Fix> {
    LastValid(h.points)
  }

  /** Appending a valid point makes it the last valid entry, whenever there is room for any entry. */
  lemma {:induction false} AddValidIsLastValid(h: History, p: Fix)
    requires p.isValid && h.maxSize >= 1
    ensures GetLastValid(AddPoint(h, p)) == Some(p)
  {
    var r := AddPoint(h, p);
    assert |r.points| > 0;
  }

  /** Appending an invalid point leaves the last valid entry as it was, unless that entry is dropped. */
  lemma {:induction false} AddInvalidKeepsLastValid(h: History, p: Fix)
    requires !p.isValid && |h.points| < h.maxSize
    ensures GetLastValid(AddPoint(h, p)) == GetLastValid(h)
  {
    var points := h.points + [p];
    assert points[..|points| - 1] == h.points;
  }

  /**
   * `setMaxSize`: the new capacity, and entries dropped from the front
   * until the history fits; the survivors keep their order.
   */
  function SetMaxSize(h: History, maxSize: nat): (r: History)
    ensures r.maxSize == maxSize && Bounded(r)
    ensures |r.points| == Min(|h.points|, maxSize)
    ensures r.points == DropFront(h.points, |h.points| - |r.points|)
  {
    if |h.points| > maxSize then History(h.points[|h.points| - maxSize..], maxSize)
    else History(h.points, maxSize)
  }

  /** `clear`: no entries, same capacity. */
  function Clear(h: History): (r: History)
    ensures r.points == [] && r.maxSize == h.maxSize && Bounded(r)
  {
    h.(points := [])
  }

  function Size(h: History): nat {
    |h.points|
  }

  /** `empty` agrees with `size`. */
  function IsEmpty(h: History): (r: bool)
    ensures r <==> Size(h) == 0
  {
    h.points == []
  }

  function AllPoints(h: History): seq<Fix> {
    h.points
  }

  function GetMaxSize(h: History): nat {
    h.maxSize
  }
}

=== FILE: infra_filters.dfy ===
/**
 * The five filters of the infra generation (src/satellite_filter.cpp,
 * src/speed_filter.cpp, src/jump_filter.cpp, src/stop_filter.cpp,
 * src/smoothing_filter.cpp) behind one interface: given a fix and the
 * history of accepted fixes, a filter passes, rejects or stops the chain,
 * and may rewrite the fix. Every filter starts enabled; a disabled filter
 * passes everything untouched.
 */
module InfraFilters {
  import opened Wrappers
  import opened Fix
  import History
  import Smoothing

  /** A filter's verdict on one fix. */
  datatype FilterResult = Pass | Reject | Stop

  /** Constructor defaults. */
  const DefaultMinSatellites: int := 4
  const DefaultMaxSpeed: real := 300.0
  const DefaultMaxJump: real := 100.0
  const DefaultStopThreshold: real := 3.0

  /** The concrete filter and its parameters. */
  datatype Kind =
    | SatelliteFilter(minSatellites: int)
    | SpeedFilter(maxSpeed: real)
    | JumpFilter(maxJump: real)
    | StopFilter(threshold: real)
    | SmoothingFilter(smoother: Smoothing.Smoother)

  datatype Filter = Filter(kind: Kind, enabled: bool)

  /** A freshly constructed filter of the given kind: enabled. */
  function Make(kind: Kind): (f: Filter)
    ensures f.kind == kind && f.enabled
  {
    Filter(kind, true)
  }

  /** `getName`: the class name of the filter. */
  function Name(f: Filter): (name: string)
    ensures f.kind.SatelliteFilter? <==> name == "SatelliteFilter"
    ensures f.kind.SpeedFilter? <==> name == "SpeedFilter"
    ensures f.kind.JumpFilter? <==> name == "JumpFilter"
    ensures f.kind.StopFilter? <==> name == "StopFilter"
    ensures f.kind.SmoothingFilter? <==> name == "SmoothingFilter"
  {
    match f.kind
    case SatelliteFilter(_) => "SatelliteFilter"
    case SpeedFilter(_) => "SpeedFilter"
    case JumpFilter(_) => "JumpFilter"
    case StopFilter(_) => "StopFilter"
    case SmoothingFilter(_) => "SmoothingFilter"
  }

  /** `setEnabled`: only the flag changes. */
  function SetEnabled(f: Filter, enabled: bool): (r: Filter)
    ensures IsEnabled(r) == enabled && r.kind == f.kind
  {
    f.(enabled := enabled)
  }

  function IsEnabled(f: Filter): bool {
    f.enabled
  }

  /** `setMinSatellites`, `setMaxSpeed`, `setMaxJump`, `setThreshold`: one parameter changes. */
  function SetMinSatellites(f: Filter, min: int): (r: Filter)
    requires f.kind.SatelliteFilter?
    ensures r.kind.SatelliteFilter? && r.kind.minSatellites == min && r.enabled == f.enabled
  {
    f.(kind := SatelliteFilter(min))
  }

  function SetMaxSpeed(f: Filter, max: real): (r: Filter)
    requires f.kind.SpeedFilter?
    ensures r.kind.SpeedFilter? && r.kind.maxSpeed == max && r.enabled == f.enabled
  {
    f.(kind := SpeedFilter(max))
  }

  function SetMaxJump(f: Filter, max: real): (r: Filter)
    requires f.kind.JumpFilter?
    ensures r.kind.JumpFilter? && r.kind.maxJump == max && r.enabled == f.enabled
  {
    f.(kind := JumpFilter(max))
  }

  function SetThreshold(f: Filter, threshold: real): (r: Filter)
    requires f.kind.StopFilter?
    ensures r.kind.StopFilter? && r.kind.threshold == threshold && r.enabled == f.enabled
  {
    f.(kind := StopFilter(threshold))
  }

  /** `setCutoffFrequency` and `setSampleRate`: the remembered fixes are kept. */
  function SetCutoffFrequency(f: Filter, cutoff: real): (r: Filter)
    requires f.kind.SmoothingFilter?
    ensures r.kind.SmoothingFilter? && r.kind.smoother.cutoff == cutoff && r.enabled == f.enabled
    ensures r.kind.smoother.sampleRate == f.kind.smoother.sampleRate
    ensures r.kind.smoother.previous == f.kind.smoother.previous
  {
    f.(kind := SmoothingFilter(f.kind.smoother.(cutoff := cutoff)))
  }

  function SetSampleRate(f: Filter, rate: real): (r: Filter)
    requires f.kind.SmoothingFilter?
    ensures r.kind.SmoothingFilter? && r.kind.smoother.sampleRate == rate && r.enabled == f.enabled
    ensures r.kind.smoother.cutoff == f.kind.smoother.cutoff
    ensures r.kind.smoother.previous == f.kind.smoother.previous
  {
    f.(kind := SmoothingFilter(f.kind.smoother.(sampleRate := rate)))
  }

  /** The verdict, the fix as the filter left it, and the filter's new state. */
  datatype Outcome = Outcome(result: FilterResult, point: Fix, filter: Filter)

  /**
   * The smoothing filter can compute alpha whenever it needs it: it needs it
   * only when enabled and handed a valid fix.
   */
  predicate Ready(f: Filter, point: Fix, pi: real) {
    f.kind.SmoothingFilter? && f.enabled && point.isValid ==>
      Smoothing.Tuned(f.kind.smoother.cutoff, f.kind.smoother.sampleRate, pi)
  }

  /**
   * `process` of each filter. The satellite filter rejects an invalid fix
   * and a fix that reports some but fewer than the minimum satellites. The
   * speed filter rejects an invalid fix and a speed above the maximum or
   * below zero. The jump filter rejects an invalid fix and one farther than
   * the maximum from the last valid fix of the history. The stop filter
   * rejects an invalid fix; below the speed threshold it stops the chain,
   * pinning the fix to the last valid position at speed zero when there is
   * one. The smoothing filter always passes and low-pass filters the fix.
   */
  function Process(f: Filter, point: Fix, history: History.History, distance: Distance, pi: real): (r: Outcome)
    requires Ready(f, point, pi)
    ensures !f.enabled ==> r == Outcome(Pass, point, f)
    ensures r.result == Stop ==> f.kind.StopFilter?
    ensures r.point != point ==> f.kind.StopFilter? || f.kind.SmoothingFilter?
    ensures r.filter != f ==> f.kind.SmoothingFilter?
    ensures f.kind.SmoothingFilter? ==>
              && r.filter.kind.SmoothingFilter?
              && r.filter.kind.smoother.cutoff == f.kind.smoother.cutoff
              && r.filter.kind.smoother.sampleRate == f.kind.smoother.sampleRate
    ensures r.filter.enabled == f.enabled && Name(r.filter) == Name(f)
    ensures r.point.isValid == point.isValid && r.point.timestamp == point.timestamp
    ensures f.enabled && !point.isValid ==> (r.result == Reject <==> !f.kind.SmoothingFilter?)
  {
    if !f.enabled then Outcome(Pass, point, f)
    else
      match f.kind
      case SatelliteFilter(min) =>
        if !point.isValid then Outcome(Reject, point, f)
        else if point.satellites < min && point.satellites > 0 then Outcome(Reject, point, f)
        else Outcome(Pass, point, f)
      case SpeedFilter(max) =>
        if !point.isValid then Outcome(Reject, point, f)
        else if point.speed > max || point.speed < 0.0 then Outcome(Reject, point, f)
        else Outcome(Pass, point, f)
      case JumpFilter(max) =>
        if !point.isValid then Outcome(Reject, point, f)
        else (
          match History.GetLastValid(history)
          case None => Outcome(Pass, point, f)
          case Some(last) =>
            if distance(last, point) > max then Outcome(Reject, point, f)
            else Outcome(Pass, point, f))
      case StopFilter(threshold) =>
        if !point.isValid then Outcome(Reject, point, f)
        else if point.speed < threshold then (
          match History.GetLastValid(history)
          case None => Outcome(Stop, point, f)
          case Some(last) => Outcome(Stop, point.(latitude := last.latitude, longitude := last.longitude, speed := 0.0), f))
        else Outcome(Pass, point, f)
      case SmoothingFilter(s) =>
        var smoothed := Smoothing.Process(s, true, point, pi);
        Outcome(Pass, smoothed.point, f.(kind := SmoothingFilter(smoothed.smoother)))
  }

  // ---------------------------------------------------------------------------
  // Properties of the individual filters

  /**
   * The satellite filter passes a valid fix exactly when it reports no
   * satellites at all or at least the minimum; a count of zero is taken to
   * mean "not reported".
   */
  lemma {:induction false} SatellitePassesIff(min: int, enabled: bool, point: Fix, h: History.History, d: Distance, pi: real)
    requires point.isValid
    ensures var r := Process(Filter(SatelliteFilter(min), enabled), point, h, d, pi);
      r.result == Pass <==> !enabled || point.satellites <= 0 || point.satellites >= min
    ensures Process(Filter(SatelliteFilter(min), enabled), point, h, d, pi).result != Stop
  {
  }

  /** Raising the minimum never lets through a fix the lower minimum rejected. */
  lemma {:induction false} SatelliteMinimumMonotone(lo: int, hi: int, point: Fix, h: History.History, d: Distance, pi: real)
    requires lo <= hi
    requires Process(Filter(SatelliteFilter(lo), true), point, h, d, pi).result == Reject
    ensures Process(Filter(SatelliteFilter(hi), true), point, h, d, pi).result == Reject
  {
  }

  /** The speed filter passes a valid fix exactly when its speed lies in [0, max]. */
  lemma {:induction false} SpeedPassesIff(max: real, point: Fix, h: History.History, d: Distance, pi: real)
    requires point.isValid
    ensures Process(Filter(SpeedFilter(max), true), point, h, d, pi).result == Pass <==> 0.0 <= point.speed <= max
  {
  }

  /**
   * The jump filter passes any valid fix while the history holds no valid
   * entry; otherwise it passes exactly the fixes within the maximum
   * distance of the last valid one.
   */
  lemma {:induction false} JumpPassesIff(max: real, point: Fix, h: History.History, d: Distance, pi: real)
    requires point.isValid
    ensures var r := Process(Filter(JumpFilter(max), true), point, h, d, pi).result;
      match History.LastValid(h.points)
      case None => r == Pass
      case Some(last) => r == Pass <==> d(last, point) <= max
  {
  }

  /**
   * Below the threshold the stop filter always stops the chain; with a
   * valid fix in the history the fix takes that fix's position and speed
   * zero, everything else kept. At or above the threshold it passes.
   */
  lemma {:induction false} StopPinsToLastValid(threshold: real, point: Fix, h: History.History, d: Distance, pi: real)
    requires point.isValid
    ensures var r := Process(Filter(StopFilter(threshold), true), point, h, d, pi);
      (r.result == Stop <==> point.speed < threshold)
      && (point.speed >= threshold ==> r.point == point)
      && (point.speed < threshold && History.LastValid(h.points).Some? ==>
            var last := History.LastValid(h.points).value;
            r.point == point.(latitude := last.latitude, longitude := last.longitude, speed := 0.0))
      && (History.LastValid(h.points).None? ==> r.point == point)
  {
  }

  /**
   * The smoothing filter never rejects or stops, keeps at most five raw
   * fixes, and leaves the fix unchanged while it has seen no earlier valid fix.
   */
  lemma {:induction false} SmoothingOnlyRewrites(s: Smoothing.Smoother, enabled: bool, point: Fix, h: History.History, d: Distance, pi: real)
    requires Ready(Filter(SmoothingFilter(s), enabled), point, pi)
    requires |s.previous| <= Smoothing.MaxPrevious
    ensures var r := Process(Filter(SmoothingFilter(s), enabled), point, h, d, pi);
      r.result == Pass
      && r.filter.kind.SmoothingFilter?
      && |r.filter.kind.smoother.previous| <= Smoothing.MaxPrevious
      && (s.previous == [] ==> r.point == point)
  {
  }
}

=== FILE: json_scan.dfy ===
/**
 * The hand-written JSON scanners of the configuration loader
 * (src/json_config.cpp): `trim`, `extractValue`, `extractArray` and
 * `extractObject`. They are not a JSON parser: they search the text for
 * quotes, colons, commas and brackets, and give up — with an empty result,
 * or with the entries read so far — wherever the text does not have the
 * shape they expect.
 */
module JsonScan {
  import opened Wrappers
  import Text
  import Numbers

  // ---------------------------------------------------------------------------
  // trim

  /** What `trim` strips from both ends: white space and the double quote. */
  const TrimChars: string := " \t\n\r\""

  predicate AllIn(s: string, chars: string) {
    forall j :: 0 <= j < |s| ==> s[j] in chars
  }

  /** `r` stands at `i` in `s`, with only strippable characters before and after it. */
  predicate TrimmedAt(s: string, r: string, i: nat) {
    && i + |r| <= |s| && s[i..i + |r|] == r
    && AllIn(s[..i], TrimChars) && AllIn(s[i + |r|..], TrimChars)
  }

  /** Neither end of `r` is strippable. */
  predicate Tight(r: string) {
    r != [] ==> r[0] !in TrimChars && r[|r| - 1] !in TrimChars
  }

  /**
   * `trim`: the text from the first to the last character that is neither
   * white space nor a double quote; empty when there is no such character.
   */
  function Trim(s: string): (r: string)
    ensures Tight(r)
    ensures r == [] <==> AllIn(s, TrimChars)
    ensures exists i: nat :: TrimmedAt(s, r, i)
  {
    match Text.FindFirstNotOf(s, TrimChars, 0)
    case None =>
      assert TrimmedAt(s, [], 0);
      []
    case Some(first) =>
      var last := Text.FindLastNotOfBelow(s, TrimChars, |s|).value;
      var r := s[first..last + 1];
      assert TrimmedAt(s, r, first);
      r
  }

  /**
   * The characterisation above fixes the result: a non-empty tight text
   * with only strippable characters around it is what `trim` returns.
   */
  lemma {:induction false} TrimUnique(s: string, r: string, i: nat)
    requires TrimmedAt(s, r, i) && Tight(r) && r != []
    ensures Trim(s) == r
  {
    var t := Trim(s);
    assert s[i] == r[0];
    assert !AllIn(s, TrimChars);
    var k: nat :| TrimmedAt(s, t, k);
    assert s[k] == t[0];
    assert forall j :: 0 <= j < i ==> s[..i][j] == s[j];
    assert forall j :: 0 <= j < k ==> s[..k][j] == s[j];
    assert k == i;
    var e, f := i + |r|, k + |t|;
    assert s[e - 1] == r[|r| - 1] && s[f - 1] == t[|t| - 1];
    assert forall j :: e <= j < |s| ==> s[e..][j - e] == s[j];
    assert forall j :: f <= j < |s| ==> s[f..][j - f] == s[j];
    assert e == f;
  }

  /** A tight text is left as it is. */
  lemma {:induction false} TrimKeepsTight(s: string)
    requires Tight(s)
    ensures Trim(s) == s
  {
    if s != [] {
      assert TrimmedAt(s, s, 0);
      TrimUnique(s, s, 0);
    }
  }

  /** `trim` is idempotent. */
  lemma {:induction false} TrimIdempotent(s: string)
    ensures Trim(Trim(s)) == Trim(s)
  {
    TrimKeepsTight(Trim(s));
  }

  /**
   * `trim` takes the quotes off a quoted tight text: how the loader turns a
   * string value kept with its quotes into the string itself.
   */
  lemma {:induction false} TrimUnquotes(v: string)
    requires v != [] && Tight(v)
    ensures Trim(Quoted(v)) == v
  {
    var q := Quoted(v);
    assert q[1..1 + |v|] == v;
    assert q[..1] == "\"" && q[1 + |v|..] == "\"";
    TrimUnique(q, v, 1);
  }

  /** A character absent from the text is absent from its trimmed form. */
  lemma {:induction false} TrimFreeOf(s: string, c: char)
    requires c !in s
    ensures c !in Trim(s)
  {
    var t := Trim(s);
    var i: nat :| TrimmedAt(s, t, i);
    assert forall j :: 0 <= j < |t| ==> t[j] == s[i + j];
  }

  // ---------------------------------------------------------------------------
  // extractValue

  /** The text in double quotes; a key as `extractValue` searches for it. */
  function Quoted(s: string): string {
    "\"" + s + "\""
  }

  predicate IsOpener(c: char) {
    c == '{' || c == '['
  }

  /** The character that ends a value starting with `c`: a bracket for a bracket, else a quote. */
  function Closer(c: char): char {
    if c == '{' then '}' else if c == '[' then ']' else '"'
  }

  /** Does a value starting with `c` run to a closing character? */
  predicate Delimited(c: char) {
    c == '"' || IsOpener(c)
  }

  /** Only white space in s[from..to]. */
  predicate Blank(s: string, from: nat, to: nat) {
    to <= |s| && forall j :: from <= j < to ==> Text.IsSpace(s[j])
  }

  /** `s` opens with `open`, closes with `close`, and holds no `close` in between. */
  predicate Enclosed(s: string, open: char, close: char) {
    |s| >= 2 && s[0] == open && s[|s| - 1] == close && close !in s[1..|s| - 1]
  }

  /** The colon that follows the first `"key"` in the text, if there is one. */
  function KeyColon(json: string, key: string): (r: Option<nat>)
    ensures Text.FindSubFrom(json, Quoted(key), 0).None? ==> r.None?
    ensures r.Some? ==> r.value < |json| && json[r.value] == ':'
    ensures r.Some? ==>
      var k := Text.FindSubFrom(json, Quoted(key), 0);
      k.Some? && k.value + |Quoted(key)| <= r.value
    ensures r.None? && Text.FindSubFrom(json, Quoted(key), 0).Some? ==>
      var k := Text.FindSubFrom(json, Quoted(key), 0).value;
      forall j :: k + |Quoted(key)| <= j < |json| ==> json[j] != ':'
  {
    match Text.FindSubFrom(json, Quoted(key), 0)
    case None => None
    case Some(k) => Text.FindFrom(json, ':', k + |Quoted(key)|)
  }

  /**
   * Where the value for `key` starts: the first character after that colon
   * that is not white space. None when there is no colon or only white
   * space follows it.
   */
  function ValueStart(json: string, key: string): (r: Option<nat>)
    ensures KeyColon(json, key).None? ==> r.None?
    ensures KeyColon(json, key).Some? ==>
      var c := KeyColon(json, key).value;
      && (r.None? <==> Blank(json, c + 1, |json|))
      && (r.Some? ==> c < r.value < |json| && Blank(json, c + 1, r.value) && !Text.IsSpace(json[r.value]))
  {
    match KeyColon(json, key)
    case None => None
    case Some(c) =>
      var start := Numbers.SkipSpace(json, c + 1);
      if start < |json| then Some(start) else None
  }

  /**
   * The raw text of the value that starts at `start`, and the position just
   * after it: a quoted string through its closing quote, an object or array
   * through the first closing bracket of its kind (nesting is not tracked),
   * anything else up to the next comma or closing brace or the end of the
   * text. None for a string, object or array that is never closed.
   */
  function ReadValue(json: string, start: nat): (r: Option<(string, nat)>)
    requires start < |json|
    ensures r.Some? ==> start <= r.value.1 <= |json| && r.value.0 == json[start..r.value.1]
    ensures Delimited(json[start]) ==>
      && (r.None? <==> forall j :: start < j < |json| ==> json[j] != Closer(json[start]))
      && (r.Some? ==> Enclosed(r.value.0, json[start], Closer(json[start])))
    ensures !Delimited(json[start]) ==> r.Some? && ScalarSpan(json, start, r.value.1)
  {
    var c := json[start];
    if Delimited(c) then
      match Text.FindFrom(json, Closer(c), start + 1)
      case None => None
      case Some(end) =>
        assert forall j :: start < j < end ==> json[start..end + 1][j - start] == json[j];
        Some((json[start..end + 1], end + 1))
    else
      var end := match Text.FindFirstOf(json, ",}", start) case None => |json| case Some(e) => e;
      assert forall j :: 0 <= j < end - start ==> json[start..end][j] == json[start + j];
      Some((json[start..end], end))
  }

  /**
   * A bare value at `start` runs to `end`: the first comma or closing
   * brace at or after `start`, or the end of the text.
   */
  predicate ScalarSpan(json: string, start: nat, end: nat) {
    && start <= end <= |json|
    && (end < |json| ==> json[end] == ',' || json[end] == '}')
    && ',' !in json[start..end] && '}' !in json[start..end]
  }

  /** The value `extractValue` returns for a value starting at `start` whose raw text is `raw`. */
  function Cook(json: string, start: nat, raw: string): string
    requires start < |json|
  {
    if json[start] == '"' then (if |raw| >= 2 then raw[1..|raw| - 1] else "")
    else if IsOpener(json[start]) then raw
    else Trim(raw)
  }

  /**
   * `extractValue`: the value of the first `"key"` in the text, as a
   * string. A quoted value comes without its quotes, an object or array
   * with its brackets, anything else trimmed. The result is empty when the
   * key is missing, no colon follows it, only white space follows the
   * colon, or a string, object or array is never closed.
   */
  function ExtractValue(json: string, key: string): (r: string)
    ensures Text.FindSubFrom(json, Quoted(key), 0).None? ==> r == ""
    ensures KeyColon(json, key).None? ==> r == ""
    ensures ValueStart(json, key).None? ==> r == ""
  {
    match ValueStart(json, key)
    case None => ""
    case Some(start) =>
      match ReadValue(json, start)
      case None => ""
      case Some((raw, _)) => Cook(json, start, raw)
  }

  /** Once the value's start is found, the result has the shape of the value there. */
  lemma {:induction false} ExtractValueShape(json: string, key: string)
    ensures ValueStart(json, key).Some? ==> ValueShape(json, ValueStart(json, key).value, ExtractValue(json, key))
  {
    match ValueStart(json, key)
    case None =>
    case Some(start) =>
      match ReadValue(json, start)
      case None =>
      case Some((raw, end)) =>
        CookShape(json, start, raw, end);
  }

  /** The result is the cooked raw text read at the value's start. */
  lemma {:induction false} ExtractValueOf(json: string, key: string, start: nat, raw: string, end: nat)
    requires ValueStart(json, key) == Some(start) && start < |json|
    requires ReadValue(json, start) == Some((raw, end))
    ensures ExtractValue(json, key) == Cook(json, start, raw)
  {
  }

  /** The value read at `start`, cooked, has the shape `extractValue` promises. */
  lemma {:induction false} CookShape(json: string, start: nat, raw: string, end: nat)
    requires start < |json| && ReadValue(json, start) == Some((raw, end))
    ensures ValueShape(json, start, Cook(json, start, raw))
  {
    var c := json[start];
    var r := Cook(json, start, raw);
    if c == '"' {
      assert raw == Quoted(r);
      assert json[end - 1] == '"';
    } else if IsOpener(c) {
      assert json[end - 1] == Closer(c);
    } else {
      assert ScalarSpan(json, start, end);
    }
  }

  /**
   * What `extractValue` returns for the value starting at `v`: a quoted
   * value is the text strictly between its quotes, or empty when the
   * closing quote is missing; an object or array runs from its opener
   * through the first closer of the same kind, or is empty when there is
   * none; a bare value is the trimmed text up to the first comma or
   * closing brace, or to the end.
   */
  ghost predicate ValueShape(json: string, v: nat, r: string)
    requires v < |json|
  {
    var c := json[v];
    && (c == '"' ==>
          if exists j :: v < j < |json| && json[j] == '"' then
            v + |r| + 2 <= |json| && json[v..v + |r| + 2] == Quoted(r) && '"' !in r
          else r == "")
    && (IsOpener(c) ==>
          if exists j :: v < j < |json| && json[j] == Closer(c) then
            v + |r| <= |json| && json[v..v + |r|] == r && Enclosed(r, c, Closer(c))
          else r == "")
    && (!Delimited(c) ==>
          exists e: nat :: ScalarSpan(json, v, e) && r == Trim(json[v..e]))
  }

  // ---------------------------------------------------------------------------
  // Positions in a text built by concatenation

  /** A concatenation occurs where its parts occur one after the other. */
  lemma {:induction false} OccursSplit(s: string, x: string, y: string, i: nat)
    requires Text.OccursAt(s, x + y, i)
    ensures Text.OccursAt(s, x, i) && Text.OccursAt(s, y, i + |x|)
  {
    assert s[i..i + |x|] == s[i..i + |x + y|][..|x|];
    assert s[i + |x|..i + |x + y|] == s[i..i + |x + y|][|x|..];
  }

  /** Parts occurring one after the other are their concatenation occurring. */
  lemma {:induction false} OccursJoin(s: string, x: string, y: string, i: nat)
    requires Text.OccursAt(s, x, i) && Text.OccursAt(s, y, i + |x|)
    ensures Text.OccursAt(s, x + y, i)
  {
    assert s[i..i + |x + y|] == s[i..i + |x|] + s[i + |x|..i + |x| + |y|];
  }

  /** The characters of an occurrence. */
  lemma {:induction false} OccursChars(s: string, x: string, i: nat)
    requires Text.OccursAt(s, x, i)
    ensures forall j :: i <= j < i + |x| ==> s[j] == x[j - i]
  {
    assert forall j :: i <= j < i + |x| ==> s[i..i + |x|][j - i] == s[j];
  }

  /** An occurrence starts with the pattern's first character. */
  lemma {:induction false} OccursHead(s: string, x: string, i: nat)
    requires |x| > 0
    ensures Text.OccursAt(s, x, i) ==> i < |s| && s[i] == x[0]
  {
    if Text.OccursAt(s, x, i) {
      OccursChars(s, x, i);
    }
  }

  /** A part, a comma and the rest. */
  lemma {:induction false} CommaSplit(s: string, x: string, tail: string, i: nat)
    requires Text.OccursAt(s, x + ([','] + tail), i)
    ensures Text.OccursAt(s, x, i) && Text.OccursAt(s, tail, i + |x| + 1)
    ensures i + |x| < |s| && s[i + |x|] == ','
  {
    OccursSplit(s, x, [','] + tail, i);
    OccursSplit(s, [','], tail, i + |x|);
    OccursHead(s, [','], i + |x|);
  }

  /** A part followed by one character. */
  lemma {:induction false} LastSplit(s: string, x: string, c: char, i: nat)
    requires Text.OccursAt(s, x + [c], i)
    ensures Text.OccursAt(s, x, i) && i + |x| < |s| && s[i + |x|] == c
  {
    OccursSplit(s, x, [c], i);
    OccursHead(s, [c], i + |x|);
  }

  /** A text occurs at its start. */
  lemma {:induction false} OccursWhole(s: string)
    ensures Text.OccursAt(s, s, 0)
  {
    assert s[0..|s|] == s;
  }

  /**
   * Where the value starts when `"key":` stands at `k` with no double quote
   * before it and something other than white space right after the colon.
   */
  lemma {:induction false} ValueStartAt(json: string, key: string, k: nat)
    requires KeyFirstAt(json, key, k)
    requires k + |key| + 3 < |json| && !Text.IsSpace(json[k + |key| + 3])
    ensures ValueStart(json, key) == Some(k + |key| + 3)
  {
    var q := Quoted(key);
    OccursSplit(json, q, ":", k);
    OccursChars(json, ":", k + |q|);
    forall j | 0 <= j < k
      ensures !Text.OccursAt(json, q, j)
    {
      OccursHead(json, q, j);
    }
    Text.FindSubFromIs(json, q, 0, k);
    Text.FindFromIs(json, ':', k + |q|, k + |q|);
  }

  /** The layout of `"key":` written after a prefix and followed by the rest of the text. */
  lemma {:induction false} KeyLayout(prefix: string, key: string, rest: string)
    ensures var json := prefix + Quoted(key) + ":" + rest;
      && ('"' !in prefix ==> KeyFirstAt(json, key, |prefix|))
      && Text.OccursAt(json, rest, |prefix| + |key| + 3)
  {
    var json := prefix + Quoted(key) + ":" + rest;
    OccursWhole(json);
    OccursSplit(json, prefix + Quoted(key) + ":", rest, 0);
    OccursSplit(json, prefix, Quoted(key) + ":", 0);
    OccursChars(json, prefix, 0);
  }

  /** The characters of a quoted text. */
  lemma {:induction false} QuotedChars(v: string)
    ensures |Quoted(v)| == |v| + 2 && Quoted(v)[0] == '"' && Quoted(v)[|v| + 1] == '"'
    ensures forall j :: 1 <= j <= |v| ==> Quoted(v)[j] == v[j - 1]
    ensures Quoted(v)[1..|v| + 1] == v
  {
  }

  /** `"key":` stands at `k` with no double quote before it. */
  predicate KeyFirstAt(json: string, key: string, k: nat) {
    && (forall j :: 0 <= j < k && j < |json| ==> json[j] != '"')
    && Text.OccursAt(json, Quoted(key) + ":", k)
  }

  /** Where the quotes of a quoted text without inner quotes stand. */
  lemma {:induction false} QuotedAt(json: string, start: nat, value: string)
    requires '"' !in value && Text.OccursAt(json, Quoted(value), start)
    ensures start + |value| + 1 < |json| && json[start] == '"' && json[start + |value| + 1] == '"'
    ensures json[start + 1..start + |value| + 1] == value
    ensures Text.FindFrom(json, '"', start + 1) == Some(start + |value| + 1)
  {
    var end := start + 1 + |value|;
    OccursChars(json, Quoted(value), start);
    QuotedChars(value);
    Text.FindFromIs(json, '"', start + 1, end);
  }

  /** A quoted text without inner quotes is read as one string value. */
  lemma {:induction false} ReadQuoted(json: string, start: nat, value: string)
    requires '"' !in value && Text.OccursAt(json, Quoted(value), start)
    ensures start < |json| && json[start] == '"' && !Text.IsSpace(json[start])
    ensures ReadValue(json, start) == Some((Quoted(value), start + |value| + 2))
  {
    QuotedAt(json, start, value);
    assert json[start..start + |value| + 2] == Quoted(value);
  }

  /** A string value right after the first `"key":` is read without its quotes. */
  lemma {:induction false} StringValueAt(json: string, key: string, k: nat, value: string)
    requires KeyFirstAt(json, key, k) && '"' !in value
    requires Text.OccursAt(json, Quoted(value), k + |key| + 3)
    ensures ExtractValue(json, key) == value
  {
    var start := k + |key| + 3;
    ReadQuoted(json, start, value);
    ValueStartAt(json, key, k);
    ExtractValueOf(json, key, start, Quoted(value), start + |value| + 2);
    QuotedChars(value);
  }

  /** A string value written after its key is read back without its quotes. */
  lemma {:induction false} ExtractStringValue(prefix: string, key: string, value: string, tail: string)
    requires '"' !in prefix && '"' !in value
    ensures ExtractValue(prefix + Quoted(key) + ":" + (Quoted(value) + tail), key) == value
  {
    var json := prefix + Quoted(key) + ":" + (Quoted(value) + tail);
    KeyLayout(prefix, key, Quoted(value) + tail);
    OccursSplit(json, Quoted(value), tail, |prefix| + |key| + 3);
    StringValueAt(json, key, |prefix|, value);
  }

  /** A bare value runs from `start` to the first comma or closing brace, or to the end. */
  lemma {:induction false} ReadBare(json: string, start: nat, end: nat)
    requires start < end <= |json| && !Delimited(json[start])
    requires forall j :: start <= j < end ==> json[j] != ',' && json[j] != '}'
    requires end == |json| || json[end] == ',' || json[end] == '}'
    ensures ReadValue(json, start) == Some((json[start..end], end))
  {
    if end < |json| {
      Text.FindFirstOfIs(json, ",}", start, end);
    } else {
      assert Text.FindFirstOf(json, ",}", start).None?;
    }
  }

  /** A bare value right after the first `"key":` and before a comma, a `}` or the end is read as written. */
  lemma {:induction false} BareValueAt(json: string, key: string, k: nat, value: string)
    requires KeyFirstAt(json, key, k)
    requires value != [] && Tight(value) && !Text.IsSpace(value[0]) && !IsOpener(value[0])
    requires ',' !in value && '}' !in value
    requires Text.OccursAt(json, value, k + |key| + 3)
    requires var end := k + |key| + 3 + |value|; end == |json| || json[end] == ',' || json[end] == '}'
    ensures ExtractValue(json, key) == value
  {
    var start := k + |key| + 3;
    var end := start + |value|;
    OccursChars(json, value, start);
    ValueStartAt(json, key, k);
    ReadBare(json, start, end);
    ExtractValueOf(json, key, start, value, end);
    TrimKeepsTight(value);
  }

  /** A bare value written after its key is read back as written. */
  lemma {:induction false} ExtractBareValue(prefix: string, key: string, value: string, tail: string)
    requires '"' !in prefix
    requires value != [] && Tight(value) && !Text.IsSpace(value[0]) && !IsOpener(value[0])
    requires ',' !in value && '}' !in value
    requires tail == [] || tail[0] == ',' || tail[0] == '}'
    ensures ExtractValue(prefix + Quoted(key) + ":" + (value + tail), key) == value
  {
    var json := prefix + Quoted(key) + ":" + (value + tail);
    var end := |prefix| + |key| + 3 + |value|;
    KeyLayout(prefix, key, value + tail);
    OccursSplit(json, value, tail, |prefix| + |key| + 3);
    if tail != [] {
      OccursHead(json, tail, end);
    }
    BareValueAt(json, key, |prefix|, value);
  }

  // ---------------------------------------------------------------------------
  // extractArray

  /** How a character moves the brace count. */
  function Delta(c: char): int {
    if c == '{' then 1 else if c == '}' then -1 else 0
  }

  /** Opening minus closing braces in `s`. */
  function Depth(s: string): int {
    if s == [] then 0 else Delta(s[0]) + Depth(s[1..])
  }

  lemma {:induction false} DepthStep(a: string, p: nat, j: nat)
    requires p < j <= |a|
    ensures Depth(a[p..j]) == Delta(a[p]) + Depth(a[p + 1..j])
  {
    assert a[p..j][1..] == a[p + 1..j];
  }

  /** The brace-counting scan of an object element, `depth` braces open at `pos`. */
  function CloseObject(a: string, pos: nat, depth: int): (e: nat)
    requires pos <= |a|
    ensures pos <= e <= |a|
    decreases |a| - pos
  {
    if pos < |a| && depth > 0 then CloseObject(a, pos + 1, depth + Delta(a[pos])) else pos
  }

  /**
   * With braces open, the scan stops at the first point where the count is
   * back to zero, or at the end of the text.
   */
  lemma {:induction false} CloseObjectBalances(a: string, pos: nat, depth: int)
    requires pos <= |a| && depth > 0
    ensures var e := CloseObject(a, pos, depth);
      && (e == |a| || depth + Depth(a[pos..e]) == 0)
      && forall j :: pos <= j < e ==> depth + Depth(a[pos..j]) > 0
    decreases |a| - pos
  {
    if pos < |a| {
      var d := depth + Delta(a[pos]);
      var e := CloseObject(a, pos, depth);
      if d > 0 {
        CloseObjectBalances(a, pos + 1, d);
      }
      forall j | pos < j <= e
        ensures Depth(a[pos..j]) == Delta(a[pos]) + Depth(a[pos + 1..j])
      {
        DepthStep(a, pos, j);
      }
      assert a[pos..pos] == [];
    }
  }

  /** The first comma or `]` at or after `pos`, or the end of the text. */
  function ScalarEnd(a: string, pos: nat): (e: nat)
    requires pos <= |a|
    ensures pos <= e <= |a|
    ensures e < |a| ==> a[e] == ',' || a[e] == ']'
    ensures forall j :: pos <= j < e ==> a[j] != ',' && a[j] != ']'
  {
    match Text.FindFirstOf(a, ",]", pos)
    case None => |a|
    case Some(e) => e
  }

  /** Where the element starting at `p` ends: by brace counting for an object, else at a comma or `]`. */
  function ElementEnd(a: string, p: nat): (e: nat)
    requires p < |a| && a[p] != ']'
    ensures p <= e <= |a|
    ensures e == p ==> e < |a| && a[e] == ','
  {
    if a[p] == '{' then CloseObject(a, p + 1, 1) else ScalarEnd(a, p)
  }

  /**
   * An element as `extractArray` cuts it: an object element never has its
   * braces balanced before its end; any other element holds no comma or
   * `]` and does not start with white space.
   */
  predicate ElementShape(x: string) {
    if x != [] && x[0] == '{' then forall j :: 0 < j < |x| ==> Depth(x[..j]) > 0
    else ',' !in x && ']' !in x && (x != [] ==> !Text.IsSpace(x[0]))
  }

  lemma {:induction false} ElementFacts(a: string, p: nat)
    requires p < |a| && a[p] != ']' && !Text.IsSpace(a[p])
    ensures var e := ElementEnd(a, p);
      && ElementShape(a[p..e])
      && (a[p] == '{' ==> e == |a| || Depth(a[p..e]) == 0)
  {
    var e := ElementEnd(a, p);
    var x := a[p..e];
    if a[p] == '{' {
      CloseObjectBalances(a, p + 1, 1);
      forall j | 0 < j <= |x|
        ensures Depth(x[..j]) == 1 + Depth(a[p + 1..p + j])
      {
        assert x[..j] == a[p..p + j];
        DepthStep(a, p, p + j);
      }
    } else {
      assert forall j :: 0 <= j < |x| ==> x[j] == a[p + j];
    }
  }

  /**
   * The element the scan reads from `pos`, and where it goes on: white
   * space before the element is skipped and a comma after it consumed.
   * None at `]` or the end of the text. An object element is balanced
   * unless it runs to the end of the text.
   */
  function NextElement(a: string, pos: nat): (r: Option<(string, nat)>)
    ensures r.Some? ==> pos < r.value.1 <= |a| && ElementShape(r.value.0)
    ensures r.Some? && r.value.0 != [] && r.value.0[0] == '{' && r.value.1 < |a| ==> Depth(r.value.0) == 0
  {
    if pos >= |a| then None
    else
      var p := Numbers.SkipSpace(a, pos);
      if p >= |a| || a[p] == ']' then None
      else
        var e := ElementEnd(a, p);
        ElementFacts(a, p);
        Some((a[p..e], if e < |a| && a[e] == ',' then e + 1 else e))
  }

  /**
   * The elements of the array text `a` from `pos` on; the scan ends at `]`
   * or the end of the text.
   */
  function Elements(a: string, pos: nat): (r: seq<string>)
    ensures r != [] ==> pos < |a|
    decreases |a| - pos
  {
    match NextElement(a, pos)
    case None => []
    case Some((x, next)) => [x] + Elements(a, next)
  }

  /**
   * Every element has its shape, and every object element but possibly the
   * last has its braces balanced.
   */
  predicate Shaped(r: seq<string>) {
    && (forall k :: 0 <= k < |r| ==> ElementShape(r[k]))
    && (forall k :: 0 <= k < |r| - 1 && r[k] != [] && r[k][0] == '{' ==> Depth(r[k]) == 0)
  }

  lemma {:induction false} ElementsShape(a: string, pos: nat)
    ensures Shaped(Elements(a, pos))
    decreases |a| - pos
  {
    match NextElement(a, pos)
    case None =>
    case Some((x, next)) =>
      ElementsShape(a, next);
      var r := Elements(a, pos);
      assert r == [x] + Elements(a, next);
      forall k | 0 <= k < |r|
        ensures ElementShape(r[k])
        ensures k < |r| - 1 && r[k] != [] && r[k][0] == '{' ==> Depth(r[k]) == 0
      {
        if k > 0 {
          assert r[k] == Elements(a, next)[k - 1];
        }
      }
  }

  /** The elements of an array text: nothing unless it starts with `[`. */
  function ArrayItems(a: string): (r: seq<string>)
    ensures a == [] || a[0] != '[' ==> r == []
    ensures Shaped(r)
  {
    if a == [] || a[0] != '[' then []
    else
      ElementsShape(a, 1);
      Elements(a, 1)
  }

  /**
   * `extractArray`: the elements of the array that is the value of `key`,
   * each as raw text. Empty unless that value starts with `[`.
   */
  function ExtractArray(json: string, key: string): (r: seq<string>)
    ensures var a := ExtractValue(json, key); a == [] || a[0] != '[' ==> r == []
    ensures Shaped(r)
  {
    ArrayItems(ExtractValue(json, key))
  }

  /** An object with no braces inside it. */
  predicate FlatObject(x: string) {
    && |x| >= 2 && x[0] == '{' && x[|x| - 1] == '}'
    && forall j :: 0 < j < |x| - 1 ==> x[j] != '{' && x[j] != '}'
  }

  /** An element that the array scan reads back exactly as written. */
  predicate Item(x: string) {
    && x != [] && !Text.IsSpace(x[0]) && ']' !in x
    && if x[0] == '{' then FlatObject(x) else ',' !in x
  }

  /** The array text of the items: `[`, the items separated by commas, `]`. */
  function ArrayText(items: seq<string>): string {
    if items == [] then "[]" else "[" + Text.Join(items, ',') + "]"
  }

  /** `a[pos..]` split where `x` ends. */
  lemma {:induction false} SliceParts(a: string, pos: nat, x: string, rest: string)
    requires pos <= |a| && a[pos..] == x + rest
    ensures pos + |x| <= |a| && a[pos..pos + |x|] == x && a[pos + |x|..] == rest
  {
    assert a[pos..][..|x|] == x;
    assert a[pos..][|x|..] == rest;
  }

  /** A character in no part and not the separator is not in the joined text. */
  lemma {:induction false} JoinFreeOf(parts: seq<string>, sep: char, c: char)
    requires |parts| >= 1 && c != sep
    requires forall k :: 0 <= k < |parts| ==> c !in parts[k]
    ensures c !in Text.Join(parts, sep)
    decreases |parts|
  {
    if |parts| > 1 {
      JoinFreeOf(parts[1..], sep, c);
    }
  }

  /** The brace scan over an object with no inner braces ends just after its `}`. */
  lemma {:induction false} CloseFlat(a: string, q: nat, end: nat)
    requires q <= end < |a| && a[end] == '}'
    requires forall j :: q <= j < end ==> a[j] != '{' && a[j] != '}'
    ensures CloseObject(a, q, 1) == end + 1
    decreases end - q
  {
    if q < end {
      CloseFlat(a, q + 1, end);
    }
  }

  /** The first of the items written at `pos`, and the separator after it. */
  lemma {:induction false} ItemsLayout(a: string, pos: nat, items: seq<string>)
    requires |items| >= 1
    requires Text.OccursAt(a, Text.Join(items, ',') + "]", pos)
    ensures Text.OccursAt(a, items[0], pos) && pos + |items[0]| < |a|
    ensures |items| == 1 ==> a[pos + |items[0]|] == ']'
    ensures |items| > 1 ==>
      a[pos + |items[0]|] == ',' && Text.OccursAt(a, Text.Join(items[1..], ',') + "]", pos + |items[0]| + 1)
  {
    var x := items[0];
    if |items| == 1 {
      assert Text.Join(items, ',') + "]" == x + [']'];
      LastSplit(a, x, ']', pos);
    } else {
      var rest := Text.Join(items[1..], ',') + "]";
      assert Text.Join(items, ',') + "]" == x + ([','] + rest);
      CommaSplit(a, x, rest, pos);
    }
  }

  /** An item followed by a comma or `]` is cut exactly where it ends. */
  lemma {:induction false} ItemEnd(a: string, pos: nat, x: string)
    requires Item(x) && Text.OccursAt(a, x, pos)
    requires pos + |x| < |a| && (a[pos + |x|] == ',' || a[pos + |x|] == ']')
    ensures Numbers.SkipSpace(a, pos) == pos && a[pos] != ']'
    ensures ElementEnd(a, pos) == pos + |x| && a[pos..pos + |x|] == x
  {
    var e := pos + |x|;
    OccursChars(a, x, pos);
    if x[0] == '{' {
      CloseFlat(a, pos + 1, e - 1);
    } else {
      Text.FindFirstOfIs(a, ",]", pos, e);
    }
  }

  /** An item at `pos` followed by a comma or `]` is the next element read. */
  lemma {:induction false} NextItem(a: string, pos: nat, x: string)
    requires Item(x) && Text.OccursAt(a, x, pos)
    requires pos + |x| < |a| && (a[pos + |x|] == ',' || a[pos + |x|] == ']')
    ensures a[pos + |x|] == ',' ==> NextElement(a, pos) == Some((x, pos + |x| + 1))
    ensures a[pos + |x|] == ']' ==> NextElement(a, pos) == Some((x, pos + |x|))
  {
    ItemEnd(a, pos, x);
  }

  /** The scan stops at `]`. */
  lemma {:induction false} ElementsAtClose(a: string, pos: nat)
    requires pos < |a| && a[pos] == ']'
    ensures Elements(a, pos) == []
  {
    assert Numbers.SkipSpace(a, pos) == pos;
    assert NextElement(a, pos).None?;
  }

  /** The items stand at `pos` one after the other, a comma between two and a `]` after the last. */
  predicate ItemsFrom(a: string, pos: nat, items: seq<string>)
    decreases |items|
  {
    && |items| >= 1
    && Text.OccursAt(a, items[0], pos) && pos + |items[0]| < |a|
    && (|items| == 1 ==> a[pos + |items[0]|] == ']')
    && (|items| > 1 ==> a[pos + |items[0]|] == ',' && ItemsFrom(a, pos + |items[0]| + 1, items[1..]))
  }

  /** The joined items followed by `]` stand one after the other. */
  lemma {:induction false} JoinItemsFrom(a: string, pos: nat, items: seq<string>)
    requires |items| >= 1
    requires Text.OccursAt(a, Text.Join(items, ',') + "]", pos)
    ensures ItemsFrom(a, pos, items)
    decreases |items|
  {
    ItemsLayout(a, pos, items);
    if |items| > 1 {
      JoinItemsFrom(a, pos + |items[0]| + 1, items[1..]);
    }
  }

  /** Items standing one after the other are read back. */
  lemma {:induction false} ElementsOfItems(a: string, pos: nat, items: seq<string>)
    requires ItemsFrom(a, pos, items) == true && forall k :: 0 <= k < |items| ==> Item(items[k])
    ensures Elements(a, pos) == items
    decreases |items|, 1
  {
    if |items| == 1 {
      ElementsOfLastItem(a, pos, items[0]);
      assert items == [items[0]];
    } else {
      ElementsOfMoreItems(a, pos, items);
    }
  }

  /** A last item, then `]`, is read back alone. */
  lemma {:induction false} ElementsOfLastItem(a: string, pos: nat, x: string)
    requires Item(x) && Text.OccursAt(a, x, pos) && pos + |x| < |a| && a[pos + |x|] == ']'
    ensures Elements(a, pos) == [x]
  {
    NextItem(a, pos, x);
    ElementsAtClose(a, pos + |x|);
    assert Elements(a, pos) == [x] + Elements(a, pos + |x|);
  }

  /** Two or more items: the first, then the rest from after its comma. */
  lemma {:induction false} ElementsOfMoreItems(a: string, pos: nat, items: seq<string>)
    requires |items| > 1 && ItemsFrom(a, pos, items) == true && forall k :: 0 <= k < |items| ==> Item(items[k])
    ensures Elements(a, pos) == items
    decreases |items|, 0
  {
    var x := items[0];
    var next := pos + |x| + 1;
    ItemsFromTail(a, pos, items, next);
    ElementsOfItems(a, next, items[1..]);
    ElementsStep(a, pos, x, next);
    assert items == [x] + items[1..];
  }

  /** The items after the first stand after its comma. */
  lemma {:induction false} ItemsFromTail(a: string, pos: nat, items: seq<string>, next: nat)
    requires |items| > 1 && ItemsFrom(a, pos, items) == true && forall k :: 0 <= k < |items| ==> Item(items[k])
    requires next == pos + |items[0]| + 1
    ensures ItemsFrom(a, next, items[1..]) == true && forall k :: 0 <= k < |items[1..]| ==> Item(items[1..][k])
    ensures Item(items[0]) && Text.OccursAt(a, items[0], pos) && pos + |items[0]| < |a| && a[pos + |items[0]|] == ','
  {
    assert Item(items[0]);
  }

  /** An item followed by a comma is read first, the scan resuming after the comma. */
  lemma {:induction false} ElementsStep(a: string, pos: nat, x: string, next: nat)
    requires Item(x) && Text.OccursAt(a, x, pos) && pos + |x| < |a| && a[pos + |x|] == ','
    requires next == pos + |x| + 1
    ensures Elements(a, pos) == [x] + Elements(a, next)
  {
    NextItem(a, pos, x);
  }

  /** The array text of items: brackets around, no `]` inside. */
  lemma {:induction false} ArrayTextShape(items: seq<string>)
    requires forall k :: 0 <= k < |items| ==> Item(items[k])
    ensures var t := ArrayText(items);
      && |t| >= 2 && t[0] == '[' && t[|t| - 1] == ']'
      && (forall j :: 0 < j < |t| - 1 ==> t[j] != ']')
      && (items != [] ==> t == "[" + (Text.Join(items, ',') + "]"))
  {
    if items != [] {
      var body := Text.Join(items, ',');
      JoinFreeOf(items, ',', ']');
      assert forall j :: 0 < j < |body| + 1 ==> ArrayText(items)[j] == body[j - 1];
    }
  }

  /** An array value right after the first `"key":` is read through its first `]`. */
  lemma {:induction false} ArrayValueAt(json: string, key: string, k: nat, t: string)
    requires KeyFirstAt(json, key, k)
    requires |t| >= 2 && t[0] == '[' && t[|t| - 1] == ']' && forall j :: 0 < j < |t| - 1 ==> t[j] != ']'
    requires Text.OccursAt(json, t, k + |key| + 3)
    ensures ExtractValue(json, key) == t
  {
    var start := k + |key| + 3;
    var end := start + |t| - 1;
    OccursChars(json, t, start);
    ValueStartAt(json, key, k);
    Text.FindFromIs(json, ']', start + 1, end);
    assert json[start..end + 1] == t;
    assert ReadValue(json, start) == Some((t, end + 1));
  }

  /** The elements of the array text of items are the items. */
  lemma {:induction false} ArrayElements(items: seq<string>)
    requires forall k :: 0 <= k < |items| ==> Item(items[k])
    ensures ArrayItems(ArrayText(items)) == items
  {
    var t := ArrayText(items);
    if items == [] {
      assert Numbers.SkipSpace(t, 1) == 1;
    } else {
      ArrayTextShape(items);
      OccursWhole(t);
      OccursSplit(t, "[", Text.Join(items, ',') + "]", 0);
      JoinItemsFrom(t, 1, items);
      ElementsOfItems(t, 1, items);
    }
  }

  /** An array of items written after its key is read back item by item. */
  lemma {:induction false} ExtractArrayRoundTrip(prefix: string, key: string, items: seq<string>, tail: string)
    requires '"' !in prefix
    requires forall k :: 0 <= k < |items| ==> Item(items[k])
    ensures ExtractArray(prefix + Quoted(key) + ":" + (ArrayText(items) + tail), key) == items
  {
    var t := ArrayText(items);
    var json := prefix + Quoted(key) + ":" + (t + tail);
    KeyLayout(prefix, key, t + tail);
    OccursSplit(json, t, tail, |prefix| + |key| + 3);
    ArrayTextShape(items);
    ArrayValueAt(json, key, |prefix|, t);
    ArrayElements(items);
  }

  // ---------------------------------------------------------------------------
  // extractObject

  /** What the object scan skips between one entry and the next. */
  const EntryGap: string := " \t\n\r,"

  /** The key occurs in double quotes somewhere in the text. */
  ghost predicate KeyIn(json: string, key: string) {
    exists i: nat :: Text.OccursAt(json, Quoted(key), i)
  }

  /**
   * The raw text of a value as the object scan keeps it: a quoted string
   * with both its quotes, an object or array through its first closer,
   * anything else free of commas and closing braces.
   */
  predicate RawShape(v: string) {
    if v != [] && Delimited(v[0]) then Enclosed(v, v[0], Closer(v[0]))
    else ',' !in v && '}' !in v
  }

  /** Every key was read from the text between two quotes, every value has its raw shape. */
  ghost predicate Sound(json: string, m: map<string, string>) {
    forall k :: k in m ==> '"' !in k && KeyIn(json, k) && RawShape(m[k])
  }

  /** The next quoted key from `pos`: its text and where its closing quote stands. */
  function NextKey(json: string, pos: nat): (r: Option<(string, nat)>)
    ensures r.Some? ==> pos < r.value.1 < |json|
  {
    match Text.FindFrom(json, '"', pos)
    case None => None
    case Some(keyStart) =>
      match Text.FindFrom(json, '"', keyStart + 1)
      case None => None
      case Some(keyEnd) => Some((json[keyStart + 1..keyEnd], keyEnd))
  }

  /** A key read is free of double quotes and stands in quotes in the text. */
  lemma {:induction false} NextKeySound(json: string, pos: nat)
    ensures var r := NextKey(json, pos);
      r.Some? ==> '"' !in r.value.0 && KeyIn(json, r.value.0)
  {
    match Text.FindFrom(json, '"', pos)
    case None =>
    case Some(keyStart) =>
      match Text.FindFrom(json, '"', keyStart + 1)
      case None =>
      case Some(keyEnd) =>
        var key := json[keyStart + 1..keyEnd];
        assert json[keyStart..keyEnd + 1] == Quoted(key);
        assert Text.OccursAt(json, Quoted(key), keyStart);
  }

  /**
   * The value after the next colon from `from`, white space skipped: its
   * raw text and the position just after it.
   */
  function ValueAfterColon(json: string, from: nat): (r: Option<(string, nat)>)
    ensures r.Some? ==> from < r.value.1 <= |json|
  {
    match Text.FindFrom(json, ':', from)
    case None => None
    case Some(colon) =>
      var valueStart := Numbers.SkipSpace(json, colon + 1);
      if valueStart >= |json| then None else ReadValue(json, valueStart)
  }

  /** A value read after a colon has its raw shape. */
  lemma {:induction false} ValueAfterColonShape(json: string, from: nat)
    ensures var r := ValueAfterColon(json, from); r.Some? ==> RawShape(r.value.0)
  {
  }

  /**
   * One `"key": value` entry, searched for from `pos`: the key, the raw
   * value and the position just after the value. None where the scan gives
   * up: no further quote, an unclosed key, no colon, nothing after the
   * colon, or an unclosed value.
   */
  function ReadEntry(json: string, pos: nat): (r: Option<(string, string, nat)>)
    ensures r.Some? ==> pos < r.value.2 <= |json|
  {
    match NextKey(json, pos)
    case None => None
    case Some((key, keyEnd)) =>
      match ValueAfterColon(json, keyEnd)
      case None => None
      case Some((value, after)) => Some((key, value, after))
  }

  /** An entry read has a key free of double quotes that stands in quotes in the text, and a raw value. */
  lemma {:induction false} ReadEntrySound(json: string, pos: nat)
    ensures var r := ReadEntry(json, pos);
      r.Some? ==> '"' !in r.value.0 && KeyIn(json, r.value.0) && RawShape(r.value.1)
  {
    NextKeySound(json, pos);
    match NextKey(json, pos)
    case None =>
    case Some((key, keyEnd)) =>
      ValueAfterColonShape(json, keyEnd);
  }

  /**
   * The loop of `extractObject` from `pos` on, entries read so far in
   * `acc`: each entry read overwrites an earlier one of the same key, and
   * the next search starts after the value, past commas and white space.
   * The scan position strictly increases, which bounds the loop.
   */
  function Scan(json: string, pos: nat, acc: map<string, string>): (r: map<string, string>)
    ensures Sound(json, acc) ==> Sound(json, r)
    ensures acc.Keys <= r.Keys
    decreases |json| - pos
  {
    if pos >= |json| then acc
    else
      match ReadEntry(json, pos)
      case None => acc
      case Some((key, value, after)) =>
        ReadEntrySound(json, pos);
        var next := acc[key := value];
        match Text.FindFirstNotOf(json, EntryGap, after)
        case None => next
        case Some(p) => Scan(json, p, next)
  }

  /**
   * `extractObject`: the entries of the text as a map from key to raw
   * value. String values keep their quotes; callers strip them with `trim`.
   */
  function ExtractObject(json: string): (r: map<string, string>)
    ensures Sound(json, r)
  {
    Scan(json, 0, map[])
  }

  /** A key with a string value. */
  datatype Pair = Pair(key: string, value: string)

  /** `"key":"value"`. */
  function PairText(p: Pair): string {
    Quoted(p.key) + ":" + Quoted(p.value)
  }

  /** The pairs separated by commas. */
  function PairsText(pairs: seq<Pair>): string
    decreases |pairs|
  {
    if pairs == [] then ""
    else if |pairs| == 1 then PairText(pairs[0])
    else PairText(pairs[0]) + "," + PairsText(pairs[1..])
  }

  /** No key or value holds a double quote. */
  predicate Plain(pairs: seq<Pair>) {
    forall k :: 0 <= k < |pairs| ==> '"' !in pairs[k].key && '"' !in pairs[k].value
  }

  /**
   * The map the pairs denote, read in order on top of `acc`: a later pair
   * replaces an earlier one of the same key, and values keep their quotes.
   */
  function PairsMap(acc: map<string, string>, pairs: seq<Pair>): map<string, string>
    decreases |pairs|
  {
    if pairs == [] then acc else PairsMap(acc[pairs[0].key := Quoted(pairs[0].value)], pairs[1..])
  }

  /** Where the parts of a pair written at `q` stand. */
  lemma {:induction false} PairParts(json: string, p: Pair, q: nat)
    requires Text.OccursAt(json, PairText(p), q)
    ensures Text.OccursAt(json, Quoted(p.key), q)
    ensures Text.OccursAt(json, ":", q + |p.key| + 2)
    ensures Text.OccursAt(json, Quoted(p.value), q + |p.key| + 3)
    ensures |PairText(p)| == |p.key| + |p.value| + 5
  {
    OccursSplit(json, Quoted(p.key) + ":", Quoted(p.value), q);
    OccursSplit(json, Quoted(p.key), ":", q);
  }

  /** Reading the pair written at `q`. */
  lemma {:induction false} ReadPair(json: string, q: nat, p: Pair, after: nat)
    requires '"' !in p.key && '"' !in p.value
    requires Text.OccursAt(json, PairText(p), q) && after == q + |PairText(p)|
    ensures ReadEntry(json, q) == Some((p.key, Quoted(p.value), after))
  {
    var keyEnd := q + |p.key| + 1;
    PairParts(json, p, q);
    PairKey(json, q, p.key, keyEnd);
    PairValue(json, keyEnd, p.value, after);
    EntryOf(json, q, p.key, keyEnd, Quoted(p.value), after);
  }

  /** A scan step composed of its two halves. */
  lemma {:induction false} EntryOf(json: string, pos: nat, key: string, keyEnd: nat, value: string, after: nat)
    requires NextKey(json, pos) == Some((key, keyEnd))
    requires ValueAfterColon(json, keyEnd) == Some((value, after))
    ensures ReadEntry(json, pos) == Some((key, value, after))
  {
  }

  /** The key of a pair at `q`. */
  lemma {:induction false} PairKey(json: string, q: nat, key: string, keyEnd: nat)
    requires '"' !in key
    requires Text.OccursAt(json, Quoted(key), q) && keyEnd == q + |key| + 1
    ensures NextKey(json, q) == Some((key, keyEnd))
    ensures keyEnd < |json| && json[keyEnd] == '"'
  {
    QuotedAt(json, q, key);
    Text.FindFromIs(json, '"', q, q);
  }

  /** The value of a pair whose key closes at `keyEnd`. */
  lemma {:induction false} PairValue(json: string, keyEnd: nat, value: string, after: nat)
    requires '"' !in value
    requires keyEnd < |json| && json[keyEnd] == '"'
    requires Text.OccursAt(json, ":", keyEnd + 1) && Text.OccursAt(json, Quoted(value), keyEnd + 2)
    requires after == keyEnd + |value| + 4
    ensures ValueAfterColon(json, keyEnd) == Some((Quoted(value), after))
  {
    OccursHead(json, ":", keyEnd + 1);
    ReadQuoted(json, keyEnd + 2, value);
    Text.FindFromIs(json, ':', keyEnd, keyEnd + 1);
    assert Numbers.SkipSpace(json, keyEnd + 2) == keyEnd + 2;
  }

  /** One step of the scan: an entry read, then the search resumes after the gap. */
  lemma {:induction false} ScanStep(json: string, pos: nat, acc: map<string, string>, key: string, value: string, after: nat, next: nat)
    requires pos < |json| && ReadEntry(json, pos) == Some((key, value, after))
    requires Text.FindFirstNotOf(json, EntryGap, after) == Some(next)
    ensures Scan(json, pos, acc) == Scan(json, next, acc[key := value])
  {
  }

  /** With no double quote left the scan ends. */
  lemma {:induction false} ScanNoQuote(json: string, pos: nat, acc: map<string, string>)
    requires Text.FindFrom(json, '"', pos).None?
    ensures Scan(json, pos, acc) == acc
  {
    if pos < |json| {
      assert NextKey(json, pos).None?;
    }
  }

  /** Regrouping a text, a separator, a text and a tail. */
  lemma {:induction false} Regroup(x: string, c: char, y: string, z: string)
    ensures x + [c] + y + z == x + ([c] + (y + z))
  {
  }

  /** The text of some pairs starts with the quote of the first key. */
  lemma {:induction false} PairsTextHead(pairs: seq<Pair>)
    requires pairs != []
    ensures |PairsText(pairs)| > 0 && PairsText(pairs)[0] == '"'
  {
    assert PairText(pairs[0])[0] == '"';
  }

  /**
   * The pairs, free of double quotes, stand at `q` one after the other, a
   * comma between two, and a `}` after the last ends the text. The scan
   * lemmas take it as `PairsFrom(..) == true`, a single fact, so that the
   * verifier does not re-prove each of its parts at every call.
   */
  predicate PairsFrom(json: string, q: nat, pairs: seq<Pair>)
    decreases |pairs|
  {
    if pairs == [] then q + 1 == |json| && json[q] == '}'
    else
      var p := pairs[0];
      var after := q + |PairText(p)|;
      && '"' !in p.key && '"' !in p.value
      && Text.OccursAt(json, PairText(p), q) && after < |json|
      && if |pairs| == 1 then after + 1 == |json| && json[after] == '}'
         else && json[after] == ',' && after + 1 < |json| && json[after + 1] == '"'
              && PairsFrom(json, after + 1, pairs[1..])
  }

  /** The text of the pairs and a `}` ending the text lay the pairs out one after the other. */
  lemma {:induction false} PairsTextFrom(json: string, q: nat, pairs: seq<Pair>)
    requires Plain(pairs)
    requires Text.OccursAt(json, PairsText(pairs) + "}", q) && q + |PairsText(pairs)| + 1 == |json|
    ensures PairsFrom(json, q, pairs)
    decreases |pairs|
  {
    if pairs == [] {
      OccursHead(json, PairsText(pairs) + "}", q);
    } else if |pairs| == 1 {
      LastSplit(json, PairText(pairs[0]), '}', q);
    } else {
      var p := pairs[0];
      var rest := PairsText(pairs[1..]);
      assert PairsText(pairs) == PairText(p) + [','] + rest;
      Regroup(PairText(p), ',', rest, "}");
      PairsTextHead(pairs[1..]);
      CommaQuote(json, PairText(p), rest + "}", q);
      assert Plain(pairs[1..]);
      PairsTextFrom(json, q + |PairText(p)| + 1, pairs[1..]);
    }
  }

  /** A part, a comma and a rest that starts with a double quote. */
  lemma {:induction false} CommaQuote(json: string, x: string, rest: string, q: nat)
    requires Text.OccursAt(json, x + ([','] + rest), q) && |rest| > 0 && rest[0] == '"'
    ensures Text.OccursAt(json, x, q) && Text.OccursAt(json, rest, q + |x| + 1)
    ensures q + |x| + 1 < |json| && json[q + |x|] == ',' && json[q + |x| + 1] == '"'
  {
    CommaSplit(json, x, rest, q);
    OccursHead(json, rest, q + |x| + 1);
  }

  /** The gap after a value: a comma before the next key, or nothing before the closing brace. */
  lemma {:induction false} GapAt(json: string, after: nat)
    requires after < |json|
    ensures json[after] == '}' ==> Text.FindFirstNotOf(json, EntryGap, after) == Some(after)
    ensures json[after] == ',' && after + 1 < |json| && json[after + 1] == '"' ==>
              Text.FindFirstNotOf(json, EntryGap, after) == Some(after + 1)
  {
    if json[after] == '}' {
      Text.FindFirstNotOfIs(json, EntryGap, after, after);
    }
    if json[after] == ',' && after + 1 < |json| && json[after + 1] == '"' {
      Text.FindFirstNotOfIs(json, EntryGap, after, after + 1);
    }
  }

  /** The entry the scan reads at the first pair, and where it goes on. */
  lemma {:induction false} NextPair(json: string, q: nat, pairs: seq<Pair>, after: nat)
    requires pairs != [] && PairsFrom(json, q, pairs) == true
    requires after == q + |PairText(pairs[0])|
    ensures && q < |json|
      && ReadEntry(json, q) == Some((pairs[0].key, Quoted(pairs[0].value), after))
      && (|pairs| == 1 ==>
            Text.FindFirstNotOf(json, EntryGap, after) == Some(after) && Text.FindFrom(json, '"', after).None?)
      && (|pairs| > 1 ==> Text.FindFirstNotOf(json, EntryGap, after) == Some(after + 1))
  {
    ReadPair(json, q, pairs[0], after);
    GapAt(json, after);
  }

  /** The map of some pairs is that of the rest on top of the first. */
  lemma {:induction false} PairsMapCons(acc: map<string, string>, pairs: seq<Pair>)
    requires pairs != []
    ensures PairsMap(acc, pairs) == PairsMap(acc[pairs[0].key := Quoted(pairs[0].value)], pairs[1..])
    ensures |pairs| == 1 ==> PairsMap(acc, pairs) == acc[pairs[0].key := Quoted(pairs[0].value)]
  {
  }

  /** The pairs after the first are laid out after its comma. */
  lemma {:induction false} PairsFromTail(json: string, q: nat, pairs: seq<Pair>, after: nat)
    requires |pairs| > 1 && PairsFrom(json, q, pairs) == true
    requires after == q + |PairText(pairs[0])|
    ensures PairsFrom(json, after + 1, pairs[1..])
  {
  }

  /** The scan over no pairs, only the closing `}` left, reads nothing more. */
  lemma {:induction false} ScanNoPairs(json: string, q: nat, acc: map<string, string>)
    requires PairsFrom(json, q, []) == true
    ensures Scan(json, q, acc) == acc
  {
    assert Text.FindFrom(json, '"', q).None?;
    ScanNoQuote(json, q, acc);
  }

  /** The scan over a last pair laid out from `q` adds it and stops. */
  lemma {:induction false} ScanLastPair(json: string, q: nat, pairs: seq<Pair>, acc: map<string, string>)
    requires |pairs| == 1 && PairsFrom(json, q, pairs) == true
    ensures Scan(json, q, acc) == PairsMap(acc, pairs)
  {
    var p := pairs[0];
    var after := q + |PairText(p)|;
    NextPair(json, q, pairs, after);
    PairsMapCons(acc, pairs);
    ScanStep(json, q, acc, p.key, Quoted(p.value), after, after);
    ScanNoQuote(json, after, acc[p.key := Quoted(p.value)]);
  }

  /** The scan over pairs laid out from `q` reads the first and resumes at the second. */
  lemma {:induction false} ScanNextPair(json: string, q: nat, pairs: seq<Pair>, acc: map<string, string>, after: nat, next: map<string, string>)
    requires |pairs| > 1 && PairsFrom(json, q, pairs) == true
    requires after == q + |PairText(pairs[0])| && next == acc[pairs[0].key := Quoted(pairs[0].value)]
    ensures Scan(json, q, acc) == Scan(json, after + 1, next)
    ensures PairsMap(acc, pairs) == PairsMap(next, pairs[1..])
    ensures PairsFrom(json, after + 1, pairs[1..])
  {
    var p := pairs[0];
    NextPair(json, q, pairs, after);
    PairsMapCons(acc, pairs);
    ScanStep(json, q, acc, p.key, Quoted(p.value), after, after + 1);
    PairsFromTail(json, q, pairs, after);
  }

  /** The scan over pairs laid out from `q` reads the map they denote. */
  lemma {:induction false} ScanPairs(json: string, q: nat, pairs: seq<Pair>, acc: map<string, string>)
    requires PairsFrom(json, q, pairs) == true
    ensures Scan(json, q, acc) == PairsMap(acc, pairs)
    decreases |pairs|, 1
  {
    if pairs == [] {
      ScanNoPairs(json, q, acc);
    } else if |pairs| == 1 {
      ScanLastPair(json, q, pairs, acc);
    } else {
      ScanMorePairs(json, q, pairs, acc);
    }
  }

  /** The scan over two or more pairs: the first, then the rest from after its comma. */
  lemma {:induction false} ScanMorePairs(json: string, q: nat, pairs: seq<Pair>, acc: map<string, string>)
    requires |pairs| > 1 && PairsFrom(json, q, pairs) == true
    ensures Scan(json, q, acc) == PairsMap(acc, pairs)
    decreases |pairs|, 0
  {
    var after := q + |PairText(pairs[0])|;
    var next := acc[pairs[0].key := Quoted(pairs[0].value)];
    PairsFromTail(json, q, pairs, after);
    ScanPairs(json, after + 1, pairs[1..], next);
    ScanNextPair(json, q, pairs, acc, after, next);
  }

  /** A character other than a double quote before the next key does not change the key read. */
  lemma {:induction false} NextKeySkip(json: string, pos: nat)
    requires pos < |json| && json[pos] != '"'
    ensures NextKey(json, pos) == NextKey(json, pos + 1)
  {
    assert Text.FindFrom(json, '"', pos) == Text.FindFrom(json, '"', pos + 1);
  }

  /** A character other than a double quote before the next key does not change the entry read. */
  lemma {:induction false} ReadEntrySkip(json: string, pos: nat)
    requires pos < |json| && json[pos] != '"'
    ensures ReadEntry(json, pos) == ReadEntry(json, pos + 1)
  {
    NextKeySkip(json, pos);
  }

  /** A character other than a double quote before the first key does not change the scan. */
  lemma {:induction false} ScanSkip(json: string, pos: nat, acc: map<string, string>)
    requires pos + 1 < |json| && json[pos] != '"'
    ensures Scan(json, pos, acc) == Scan(json, pos + 1, acc)
  {
    ReadEntrySkip(json, pos);
    match ReadEntry(json, pos)
    case None =>
      ScanNoEntry(json, pos, acc);
      ScanNoEntry(json, pos + 1, acc);
    case Some((key, value, after)) =>
      match Text.FindFirstNotOf(json, EntryGap, after)
      case None =>
        ScanLastEntry(json, pos, acc, key, value, after);
        ScanLastEntry(json, pos + 1, acc, key, value, after);
      case Some(p) =>
        ScanStep(json, pos, acc, key, value, after, p);
        ScanStep(json, pos + 1, acc, key, value, after, p);
  }

  /** Where no entry can be read the scan ends. */
  lemma {:induction false} ScanNoEntry(json: string, pos: nat, acc: map<string, string>)
    requires pos < |json| && ReadEntry(json, pos).None?
    ensures Scan(json, pos, acc) == acc
  {
  }

  /** An entry with nothing but gap characters after it is the last one read. */
  lemma {:induction false} ScanLastEntry(json: string, pos: nat, acc: map<string, string>, key: string, value: string, after: nat)
    requires pos < |json| && ReadEntry(json, pos) == Some((key, value, after))
    requires Text.FindFirstNotOf(json, EntryGap, after).None?
    ensures Scan(json, pos, acc) == acc[key := value]
  {
  }

  /** The object text of string pairs lays the pairs out after its `{`. */
  lemma {:induction false} ObjectLayout(pairs: seq<Pair>, json: string)
    requires Plain(pairs) && json == "{" + PairsText(pairs) + "}"
    ensures 1 < |json| && json[0] == '{' && PairsFrom(json, 1, pairs)
  {
    assert json == "{" + (PairsText(pairs) + "}");
    OccursWhole(json);
    OccursSplit(json, "{", PairsText(pairs) + "}", 0);
    PairsTextFrom(json, 1, pairs);
  }

  /** An object of string pairs is read back as the map the pairs denote. */
  lemma {:induction false} ExtractObjectOfPairs(pairs: seq<Pair>)
    requires Plain(pairs)
    ensures ExtractObject("{" + PairsText(pairs) + "}") == PairsMap(map[], pairs)
  {
    var json := "{" + PairsText(pairs) + "}";
    ObjectLayout(pairs, json);
    ScanSkip(json, 0, map[]);
    ScanPairs(json, 1, pairs, map[]);
    assert ExtractObject(json) == Scan(json, 0, map[]);
  }

  /** A key that no pair names keeps its value. */
  lemma {:induction false} PairsMapUntouched(acc: map<string, string>, pairs: seq<Pair>, k: string)
    requires forall j :: 0 <= j < |pairs| ==> pairs[j].key != k
    ensures k in PairsMap(acc, pairs) <==> k in acc
    ensures k in acc ==> PairsMap(acc, pairs)[k] == acc[k]
    decreases |pairs|
  {
    if pairs != [] {
      PairsMapUntouched(acc[pairs[0].key := Quoted(pairs[0].value)], pairs[1..], k);
    }
  }

  /** The value kept for a key is that of its last pair, quoted. */
  lemma {:induction false} PairsMapLastWins(acc: map<string, string>, pairs: seq<Pair>, i: nat)
    requires i < |pairs|
    requires forall j :: i < j < |pairs| ==> pairs[j].key != pairs[i].key
    ensures pairs[i].key in PairsMap(acc, pairs)
    ensures PairsMap(acc, pairs)[pairs[i].key] == Quoted(pairs[i].value)
    decreases |pairs|
  {
    var next := acc[pairs[0].key := Quoted(pairs[0].value)];
    if i == 0 {
      PairsMapUntouched(next, pairs[1..], pairs[0].key);
    } else {
      PairsMapLastWins(next, pairs[1..], i - 1);
    }
  }
}

=== FILE: legacy_nmea.dfy ===
/**
 * The earlier-generation NMEA 0183 parser (src/filters/nmea_parser.cpp).
 * A line must start with '$'; one trailing LF and then one trailing CR are
 * removed; the checksum must read as hexadecimal and match; the text
 * between '$' and '*' is cut at commas the way std::getline does, which
 * drops a trailing empty field. RMC and GGA sentences are remembered, and
 * a point is produced only when the other kind is already stored with an
 * equal time point: the RMC record with the GGA's altitude, satellite
 * count and HDOP laid over it.
 *
 * Time points come from a wall-clock conversion of the time and date texts;
 * it is the parameter `clock`. A std::stod, std::stoi or substr that throws
 * is reported as `Threw` with the parser unchanged.
 */
module LegacyNmea {
  import opened Wrappers
  import Text
  import Numbers
  import Checksum
  import Units
  import opened LegacyPoint

  /** The time point `parseTime(time, date)` gives for a time and a date text. */
  type Clock = (string, string) -> int

  datatype Parser = Parser(lastRmc: Option<Point>, lastGga: Option<Point>, reportsErrors: bool)

  /** A new parser: nothing stored and no error callback. */
  const Initial: Parser := Parser(None, None, false)

  datatype Outcome = Emitted(point: Point) | Nothing | Threw

  /** What one call of `parse` returns, the parser after it, and the texts sent to the error callback. */
  datatype Parsed = Parsed(parser: Parser, outcome: Outcome, errors: seq<string>)

  /** Whether an error callback is installed; the messages of `parse` go to it. */
  function SetErrorCallback(p: Parser, installed: bool): (q: Parser)
    ensures q.reportsErrors == installed
    ensures q.lastRmc == p.lastRmc && q.lastGga == p.lastGga
  {
    p.(reportsErrors := installed)
  }

  /** No stored RMC and GGA with equal time points: such a pair would have been merged. */
  predicate NoPendingMatch(p: Parser) {
    !(p.lastRmc.Some? && p.lastGga.Some? && p.lastRmc.value.timestamp == p.lastGga.value.timestamp)
  }

  // ---------------------------------------------------------------------------
  // Checksum

  /**
   * The checksum test: false without a '*' followed by two characters, and
   * false when those two characters do not read as hexadecimal. Otherwise
   * the bytes at indices 1 up to the '*' are exclusive-ored and compared
   * with the low byte of the value read.
   */
  function ValidateChecksum(line: string): (ok: bool)
    ensures Text.Find(line, '*').None? ==> !ok
    ensures ok ==> Text.Find(line, '*').value + 2 < |line|
    ensures ok <==>
      Text.Find(line, '*').Some? && Text.Find(line, '*').value + 2 < |line|
      && Checksum.ReadHexPair(line[Text.Find(line, '*').value + 1], line[Text.Find(line, '*').value + 2]).Some?
      && Checksum.XorAll(SummedBytes(line, Text.Find(line, '*').value))
         == Checksum.LowByte(Checksum.ReadHexPair(line[Text.Find(line, '*').value + 1],
                                                  line[Text.Find(line, '*').value + 2]).value)
  {
    match Text.Find(line, '*')
    case None => false
    case Some(star) =>
      if star + 2 >= |line| then false
      else
        match Checksum.ReadHexPair(line[star + 1], line[star + 2])
        case None => false
        case Some(v) => Checksum.XorAll(SummedBytes(line, star)) == Checksum.LowByte(v)
  }

  /** The bytes at indices 1 up to but excluding the '*'; none when the '*' is first. */
  function SummedBytes(line: string, star: nat): (data: string)
    requires star < |line|
    ensures star > 0 ==> data == line[1..star]
  {
    if star == 0 then [] else line[1..star]
  }

  /** The character before the summed bytes, normally the '$', does not enter the test. */
  lemma {:induction false} LeadCharNotSummed(line: string, c: char)
    requires |line| >= 1 && line[0] != '*' && c != '*'
    ensures ValidateChecksum(line[0 := c]) == ValidateChecksum(line)
  {
    var changed := line[0 := c];
    if '*' in line {
      var star := Text.Find(line, '*').value;
      assert changed[..star] == line[..star][0 := c];
      assert '*' !in changed[..star];
      Text.FindIs(changed, '*', star);
      assert changed[1..star] == line[1..star];
    } else {
      assert forall k :: 0 <= k < |changed| ==> changed[k] != '*';
    }
  }

  /** A checksum text that does not read as hexadecimal fails the test, whatever the bytes. */
  lemma {:induction false} UnreadableChecksumFails(line: string, star: nat)
    requires Text.Find(line, '*') == Some(star) && star + 2 < |line|
    requires !Checksum.IsHexDigit(line[star + 1]) && !Checksum.IsHexDigit(line[star + 2])
    ensures !ValidateChecksum(line)
  {
  }

  /** Every framed sentence whose body has no '*' passes the checksum test. */
  lemma {:induction false} FrameValidates(body: string)
    requires '*' !in body
    ensures ValidateChecksum(Checksum.Frame(body))
  {
    var line := Checksum.Frame(body);
    var star := |body| + 1;
    Checksum.FrameStar(body);
    assert SummedBytes(line, star) == body;
    var b := Checksum.XorAll(body);
    Checksum.HexByteRoundTrip(b);
    assert line[star + 1] == Checksum.HexByte(b)[0];
    assert line[star + 2] == Checksum.HexByte(b)[1];
  }

  /**
   * Changing one summed byte of a sentence that passes the checksum test,
   * to a character other than '*' carrying a different byte, makes the
   * test fail.
   */
  lemma {:induction false} ChecksumDetectsOneChange(line: string, i: nat, c: char)
    requires ValidateChecksum(line)
    requires 1 <= i < Text.Find(line, '*').value
    requires c != '*' && Checksum.ByteOf(c) != Checksum.ByteOf(line[i])
    ensures !ValidateChecksum(line[i := c])
  {
    var star := Text.Find(line, '*').value;
    var changed := line[i := c];
    assert changed[..star] == line[..star][i := c];
    Text.FindIs(changed, '*', star);
    var data := line[1..star];
    assert changed[1..star] == data[i - 1 := c];
    Checksum.XorAllDetectsOneChange(data, i - 1, c);
  }

  // ---------------------------------------------------------------------------
  // Line clean-up and fields

  /** The line with one trailing LF and then one trailing CR removed. */
  function CleanLine(line: string): (clean: string)
    ensures |clean| <= |line| && clean == line[..|clean|] && |line| - 2 <= |clean|
    ensures |line| > 0 && line[0] == '$' ==> |clean| > 0 && clean[0] == '$'
  {
    var noLf := if |line| > 0 && line[|line| - 1] == '\n' then line[..|line| - 1] else line;
    if |noLf| > 0 && noLf[|noLf| - 1] == '\r' then noLf[..|noLf| - 1] else noLf
  }

  /** CR LF, a lone LF and a lone CR at the end are all removed; nothing else is. */
  lemma {:induction false} CleanLineEndings(s: string)
    requires s == [] || (s[|s| - 1] != '\n' && s[|s| - 1] != '\r')
    ensures CleanLine(s) == s
    ensures CleanLine(s + "\r\n") == s
    ensures CleanLine(s + "\n") == s
    ensures CleanLine(s + "\r") == s
  {
    assert (s + "\r\n")[..|s| + 1] == s + "\r";
    assert (s + "\r")[..|s|] == s;
    assert (s + "\n")[..|s|] == s;
  }

  /**
   * The fields std::getline reads from `data` with ',' as delimiter: the
   * comma-separated pieces, except that a last piece that is empty is not
   * read. Empty data has no fields.
   */
  function Fields(data: string): (fields: seq<string>)
    ensures Text.FreeOf(fields, ',')
    ensures fields == [] <==> data == []
  {
    var parts := Text.SplitAll(data, ',');
    Text.SplitAllJoin(data, ',');
    if parts[|parts| - 1] == [] then parts[..|parts| - 1] else parts
  }

  /** Fields written with commas between them are read back, except an empty last one. */
  lemma {:induction false} FieldsOfJoin(parts: seq<string>)
    requires |parts| >= 1 && Text.FreeOf(parts, ',')
    ensures parts[|parts| - 1] != [] ==> Fields(Text.Join(parts, ',')) == parts
    ensures parts[|parts| - 1] == [] ==> Fields(Text.Join(parts, ',')) == parts[..|parts| - 1]
  {
    Text.JoinSplitAll(parts, ',');
  }

  // ---------------------------------------------------------------------------
  // Sentences

  /**
   * An NMEA angle text and hemisphere to signed decimal degrees; an empty
   * or unreadable text gives 0.
   */
  function ToDegrees(coord: string, hemisphere: char): (deg: real)
    ensures Numbers.ParseReal(coord).None? ==> deg == 0.0
    ensures Numbers.ParseReal(coord).Some? ==> deg == Units.ConvertCoordinate(Numbers.ParseReal(coord).value, hemisphere)
  {
    if coord == [] then 0.0
    else
      match Numbers.ParseReal(coord)
      case None => 0.0
      case Some(v) => Units.ConvertCoordinate(v, hemisphere)
  }

  /** An angle text reading as the NMEA notation of `deg` converts back to `deg`, signed by hemisphere. */
  lemma {:induction false} ToDegreesOfEncoded(coord: string, deg: real, hemisphere: char)
    requires 0.0 <= deg && Numbers.ParseReal(coord) == Some(Units.EncodeCoordinate(deg))
    ensures ToDegrees(coord, hemisphere) == if Units.IsNegativeHemisphere(hemisphere) then -deg else deg
  {
    Units.ConvertEncodeRoundTrip(deg, hemisphere);
  }

  /** A position field pair: set only when both the angle and the hemisphere are present. */
  function Angle(coord: string, hemisphere: string): real {
    if |coord| > 0 && |hemisphere| > 0 then ToDegrees(coord, hemisphere[0]) else 0.0
  }

  /** A decimal angle with a hemisphere letter converts as its value. */
  lemma {:induction false} AngleOfDecimal(d: Numbers.Decimal, hemisphere: string)
    requires d.WellFormed() && hemisphere != ""
    ensures Angle(d.Written(), hemisphere) == Units.ConvertCoordinate(d.Value(), hemisphere[0])
  {
    Numbers.ParseDecimal(d);
  }

  /** An optional real field: empty keeps the default, otherwise std::stod, None where it throws. */
  function RealOr(text: string, default: real): (r: Option<real>)
    ensures text == [] ==> r == Some(default)
  {
    if text == [] then Some(default) else Numbers.ParseReal(text)
  }

  /** An optional integer field: empty keeps 0, otherwise std::stoi, None where it throws. */
  function IntOr(text: string): (r: Option<int>)
    ensures text == [] ==> r == Some(0)
  {
    if text == [] then Some(0) else Numbers.ParseInt(text)
  }

  /**
   * The point an RMC sentence describes, before any merge; None where a
   * numeric field throws. Position, speed and course are read only under
   * status "A".
   */
  function RmcRecord(fields: seq<string>, clock: Clock): (r: Option<Point>)
    requires |fields| >= 12
    ensures fields[2] != "A" ==> r == Some(Unset.(timestamp := clock(fields[1], fields[9])))
    ensures r.Some? ==> r.value.isValid == (fields[2] == "A") && r.value.timestamp == clock(fields[1], fields[9])
    ensures r.Some? ==> r.value.altitude == 0.0 && r.value.satellites == 0 && r.value.hdop == 0.0
    ensures fields[2] == "A" ==> (r.None? <==> RealOr(fields[7], 0.0).None? || RealOr(fields[8], 0.0).None?)
    ensures r.Some? && fields[2] == "A" ==>
      r.value.latitude == Angle(fields[3], fields[4]) && r.value.longitude == Angle(fields[5], fields[6])
      && r.value.speed == Units.KnotsToKmh(RealOr(fields[7], 0.0).value)
      && r.value.course == RealOr(fields[8], 0.0).value
  {
    var base := Unset.(timestamp := clock(fields[1], fields[9]), isValid := fields[2] == "A");
    if fields[2] != "A" then Some(base)
    else
      match (RealOr(fields[7], 0.0), RealOr(fields[8], 0.0))
      case (Some(knots), Some(course)) =>
        Some(base.(latitude := Angle(fields[3], fields[4]), longitude := Angle(fields[5], fields[6]),
                   speed := Units.KnotsToKmh(knots), course := course))
      case _ => None
  }

  /**
   * The point a GGA sentence describes, before any merge; None where a
   * numeric field throws. Valid exactly for fix quality "1" or "2".
   */
  function GgaRecord(fields: seq<string>, clock: Clock): (r: Option<Point>)
    requires |fields| >= 15
    ensures r.Some? ==> r.value.isValid == (fields[6] == "1" || fields[6] == "2")
    ensures r.Some? ==> r.value.timestamp == clock(fields[1], "")
    ensures r.Some? ==> r.value.speed == 0.0 && r.value.course == 0.0
    ensures r.None? <==> IntOr(fields[7]).None? || RealOr(fields[8], 0.0).None? || RealOr(fields[9], 0.0).None?
    ensures r.Some? ==> r.value.latitude == Angle(fields[2], fields[3]) && r.value.longitude == Angle(fields[4], fields[5])
    ensures r.Some? ==> IntOr(fields[7]) == Some(r.value.satellites)
    ensures r.Some? ==> RealOr(fields[8], 0.0) == Some(r.value.hdop) && RealOr(fields[9], 0.0) == Some(r.value.altitude)
  {
    match (IntOr(fields[7]), RealOr(fields[8], 0.0), RealOr(fields[9], 0.0))
    case (Some(satellites), Some(hdop), Some(altitude)) =>
      Some(Unset.(latitude := Angle(fields[2], fields[3]), longitude := Angle(fields[4], fields[5]),
                  altitude := altitude, satellites := satellites, hdop := hdop,
                  timestamp := clock(fields[1], ""), isValid := fields[6] == "1" || fields[6] == "2"))
    case _ => None
  }

  /**
   * An active RMC whose position, speed and course are written as decimal
   * numerals describes exactly those values, speed converted to km/h.
   */
  lemma {:induction false} RmcRecordOfWrittenFields(fields: seq<string>, clock: Clock,
      lat: Numbers.Decimal, lon: Numbers.Decimal, speed: Numbers.Decimal, course: Numbers.Decimal)
    requires |fields| >= 12 && fields[2] == "A"
    requires lat.WellFormed() && lon.WellFormed() && speed.WellFormed() && course.WellFormed()
    requires fields[3] == lat.Written() && fields[4] != "" && fields[5] == lon.Written() && fields[6] != ""
    requires fields[7] == speed.Written() && fields[8] == course.Written()
    ensures RmcRecord(fields, clock) == Some(Point(
      Units.ConvertCoordinate(lat.Value(), fields[4][0]), Units.ConvertCoordinate(lon.Value(), fields[6][0]),
      Units.KnotsToKmh(speed.Value()), course.Value(), 0.0, 0, 0.0, clock(fields[1], fields[9]), true))
  {
    AngleOfDecimal(lat, fields[4]);
    AngleOfDecimal(lon, fields[6]);
    Numbers.ParseDecimal(speed);
    Numbers.ParseDecimal(course);
  }

  /**
   * A GGA whose position, HDOP and altitude are written as decimal numerals
   * and whose satellite count is an integer written in decimal describes
   * exactly those values.
   */
  lemma {:induction false} GgaRecordOfWrittenFields(fields: seq<string>, clock: Clock,
      lat: Numbers.Decimal, lon: Numbers.Decimal, satellites: int, hdop: Numbers.Decimal, altitude: Numbers.Decimal)
    requires |fields| >= 15
    requires lat.WellFormed() && lon.WellFormed() && hdop.WellFormed() && altitude.WellFormed()
    requires Numbers.MinInt32 <= satellites <= Numbers.MaxInt32
    requires fields[2] == lat.Written() && fields[3] != "" && fields[4] == lon.Written() && fields[5] != ""
    requires fields[7] == Numbers.IntToDecimal(satellites)
    requires fields[8] == hdop.Written() && fields[9] == altitude.Written()
    ensures GgaRecord(fields, clock) == Some(Point(
      Units.ConvertCoordinate(lat.Value(), fields[3][0]), Units.ConvertCoordinate(lon.Value(), fields[5][0]),
      0.0, 0.0, altitude.Value(), satellites, hdop.Value(), clock(fields[1], ""),
      fields[6] == "1" || fields[6] == "2"))
  {
    AngleOfDecimal(lat, fields[3]);
    AngleOfDecimal(lon, fields[5]);
    Numbers.IntToDecimalRoundTrip(satellites);
    Numbers.ParseDecimal(hdop);
    Numbers.ParseDecimal(altitude);
  }

  /** The RMC record with the GGA's altitude, satellites and HDOP laid over it. */
  function Overlay(rmc: Point, gga: Point): Point {
    rmc.(altitude := gga.altitude, satellites := gga.satellites, hdop := gga.hdop)
  }

  /**
   * An RMC sentence: with fewer than 12 fields, nothing. Otherwise it
   * becomes the stored RMC, unless the stored GGA has the same time point:
   * then both are merged, the result returned and both slots cleared.
   */
  function ParseRmc(p: Parser, fields: seq<string>, clock: Clock): (r: Parsed)
    ensures |fields| < 12 ==> r == Parsed(p, Nothing, [])
    ensures r.errors == [] && r.parser.reportsErrors == p.reportsErrors
    ensures r.outcome.Threw? ==> r.parser == p
    ensures |fields| >= 12 && fields[2] != "A" ==> !r.outcome.Threw?
    ensures r.outcome.Emitted? ==>
      |fields| >= 12 && p.lastGga.Some?
      && r.outcome.point.timestamp == clock(fields[1], fields[9]) == p.lastGga.value.timestamp
      && r.outcome.point.isValid == (fields[2] == "A")
      && r.outcome.point.altitude == p.lastGga.value.altitude
      && r.outcome.point.satellites == p.lastGga.value.satellites
      && r.outcome.point.hdop == p.lastGga.value.hdop
      && RmcRecord(fields, clock).Some?
      && r.outcome.point == RmcRecord(fields, clock).value.(
           altitude := p.lastGga.value.altitude, satellites := p.lastGga.value.satellites,
           hdop := p.lastGga.value.hdop)
      && r.parser.lastRmc.None? && r.parser.lastGga.None?
    ensures |fields| >= 12 ==>
      (r.outcome.Threw? <==> RmcRecord(fields, clock).None?)
      && (r.outcome.Emitted? <==>
            (RmcRecord(fields, clock).Some? && p.lastGga.Some?
             && p.lastGga.value.timestamp == RmcRecord(fields, clock).value.timestamp))
    ensures r.outcome.Emitted? && fields[2] != "A" ==>
      r.outcome.point.latitude == 0.0 && r.outcome.point.longitude == 0.0
      && r.outcome.point.speed == 0.0 && r.outcome.point.course == 0.0
    ensures r.outcome.Nothing? && |fields| >= 12 ==>
      r.parser.lastGga == p.lastGga && r.parser.lastRmc.Some?
      && r.parser.lastRmc.value.timestamp == clock(fields[1], fields[9])
      && r.parser.lastRmc == RmcRecord(fields, clock)
      && NoPendingMatch(r.parser)
  {
    if |fields| < 12 then Parsed(p, Nothing, [])
    else
      match RmcRecord(fields, clock)
      case None => Parsed(p, Threw, [])
      case Some(rmc) =>
        if p.lastGga.Some? && p.lastGga.value.timestamp == rmc.timestamp then
          Parsed(p.(lastRmc := None, lastGga := None), Emitted(Overlay(rmc, p.lastGga.value)), [])
        else
          Parsed(p.(lastRmc := Some(rmc)), Nothing, [])
  }

  /**
   * A GGA sentence: with fewer than 15 fields, nothing. Otherwise it
   * becomes the stored GGA, unless the stored RMC has the same time point:
   * then the stored RMC, with this GGA's altitude, satellites and HDOP, is
   * returned and both slots are cleared. The GGA's fix quality does not
   * enter the result.
   */
  function ParseGga(p: Parser, fields: seq<string>, clock: Clock): (r: Parsed)
    ensures |fields| < 15 ==> r == Parsed(p, Nothing, [])
    ensures r.errors == [] && r.parser.reportsErrors == p.reportsErrors
    ensures r.outcome.Threw? ==> r.parser == p
    ensures r.outcome.Emitted? ==>
      |fields| >= 15 && p.lastRmc.Some?
      && r.outcome.point.timestamp == clock(fields[1], "") == p.lastRmc.value.timestamp
      && r.outcome.point.isValid == p.lastRmc.value.isValid
      && r.outcome.point.latitude == p.lastRmc.value.latitude
      && r.outcome.point.longitude == p.lastRmc.value.longitude
      && r.outcome.point.speed == p.lastRmc.value.speed
      && r.outcome.point.course == p.lastRmc.value.course
      && GgaRecord(fields, clock).Some?
      && r.outcome.point == p.lastRmc.value.(
           altitude := GgaRecord(fields, clock).value.altitude,
           satellites := GgaRecord(fields, clock).value.satellites,
           hdop := GgaRecord(fields, clock).value.hdop)
      && r.parser.lastRmc.None? && r.parser.lastGga.None?
    ensures |fields| >= 15 ==>
      (r.outcome.Threw? <==> GgaRecord(fields, clock).None?)
      && (r.outcome.Emitted? <==>
            (GgaRecord(fields, clock).Some? && p.lastRmc.Some?
             && p.lastRmc.value.timestamp == GgaRecord(fields, clock).value.timestamp))
    ensures r.outcome.Nothing? && |fields| >= 15 ==>
      r.parser.lastRmc == p.lastRmc && r.parser.lastGga.Some?
      && r.parser.lastGga.value.timestamp == clock(fields[1], "")
      && r.parser.lastGga.value.isValid == (fields[6] == "1" || fields[6] == "2")
      && r.parser.lastGga == GgaRecord(fields, clock)
      && NoPendingMatch(r.parser)
  {
    if |fields| < 15 then Parsed(p, Nothing, [])
    else
      match GgaRecord(fields, clock)
      case None => Parsed(p, Threw, [])
      case Some(gga) =>
        if p.lastRmc.Some? && p.lastRmc.value.timestamp == gga.timestamp then
          Parsed(p.(lastRmc := None, lastGga := None), Emitted(Overlay(p.lastRmc.value, gga)), [])
        else
          Parsed(p.(lastGga := Some(gga)), Nothing, [])
  }

  /**
   * The fields of a checked sentence, dispatched on the first field minus
   * its two-character talker. A first field shorter than two characters
   * makes substr throw.
   */
  function Dispatch(p: Parser, fields: seq<string>, clock: Clock): (r: Parsed)
    ensures r.errors == [] && r.parser.reportsErrors == p.reportsErrors
    ensures fields == [] ==> r == Parsed(p, Nothing, [])
    ensures fields != [] && |fields[0]| >= 2 && fields[0][2..] != "RMC" && fields[0][2..] != "GGA" ==>
      r == Parsed(p, Nothing, [])
    ensures fields != [] && |fields[0]| < 2 ==> r == Parsed(p, Threw, [])
  {
    if fields == [] then Parsed(p, Nothing, [])
    else if |fields[0]| < 2 then Parsed(p, Threw, [])
    else if fields[0][2..] == "RMC" then ParseRmc(p, fields, clock)
    else if fields[0][2..] == "GGA" then ParseGga(p, fields, clock)
    else Parsed(p, Nothing, [])
  }

  /**
   * One line. Without a leading '$', nothing. After the line endings are
   * removed, a failed checksum test sends "Invalid checksum: " and the
   * original line to the error callback, if one is installed, and gives
   * nothing. Otherwise the text between '$' and '*' is split into fields and
   * dispatched.
   */
  function Parse(p: Parser, line: string, clock: Clock): (r: Parsed)
    ensures line == [] || line[0] != '$' ==> r == Parsed(p, Nothing, [])
    ensures line != [] && line[0] == '$' && !ValidateChecksum(CleanLine(line)) ==>
      r == Parsed(p, Nothing, if p.reportsErrors then ["Invalid checksum: " + line] else [])
    ensures r.errors != [] ==> r.outcome.Nothing? && r.parser == p
    ensures r.parser.reportsErrors == p.reportsErrors
    ensures r.outcome.Threw? ==> r.parser == p
    ensures r.outcome.Emitted? ==> r.parser.lastRmc.None? && r.parser.lastGga.None?
    ensures NoPendingMatch(p) ==> NoPendingMatch(r.parser)
  {
    if line == [] || line[0] != '$' then Parsed(p, Nothing, [])
    else
      var clean := CleanLine(line);
      if !ValidateChecksum(clean) then
        Parsed(p, Nothing, if p.reportsErrors then ["Invalid checksum: " + line] else [])
      else
        var star := Text.Find(clean, '*').value;
        Dispatch(p, Fields(clean[1..star]), clock)
  }

  /** A framed sentence, with or without CR LF, reaches the dispatch with its body's fields. */
  lemma {:induction false} ParseFramed(p: Parser, body: string, clock: Clock)
    requires '*' !in body
    ensures Parse(p, Checksum.Frame(body), clock) == Dispatch(p, Fields(body), clock)
    ensures Parse(p, Checksum.Frame(body) + "\r\n", clock) == Dispatch(p, Fields(body), clock)
  {
    var line := Checksum.Frame(body);
    var hex := Checksum.HexByte(Checksum.XorAll(body));
    assert line[|line| - 1] == hex[1];
    CleanLineEndings(line);
    FrameValidates(body);
    Checksum.FrameStar(body);
    assert line[1..|body| + 1] == body;
    assert (line + "\r\n")[0] == '$';
  }

  /**
   * A GGA sentence whose last (fifteenth) field is empty, as it is whenever
   * no differential station is named, reaches the parser with only 14
   * fields and is ignored: nothing is returned or stored.
   */
  lemma {:induction false} GgaWithEmptyLastFieldIgnored(p: Parser, parts: seq<string>, clock: Clock)
    requires |parts| == 15 && Text.FreeOf(parts, ',') && parts[14] == []
    requires |parts[0]| >= 2 && parts[0][2..] == "GGA"
    requires '*' !in Text.Join(parts, ',')
    ensures Parse(p, Checksum.Frame(Text.Join(parts, ',')), clock) == Parsed(p, Nothing, [])
  {
    ParseFramed(p, Text.Join(parts, ','), clock);
    FieldsOfJoin(parts);
    assert parts[..14][0] == parts[0];
  }

  /**
   * An RMC and then a GGA with an equal time point, from a parser holding
   * no GGA: the RMC is stored, and the GGA yields the merged point, whose
   * validity is the RMC's status alone.
   */
  lemma {:induction false} RmcThenGgaMerges(p: Parser, rmc: seq<string>, gga: seq<string>, clock: Clock)
    requires p.lastGga.None? && |rmc| >= 12 && |gga| >= 15
    requires RmcRecord(rmc, clock).Some? && GgaRecord(gga, clock).Some?
    requires clock(rmc[1], rmc[9]) == clock(gga[1], "")
    ensures ParseRmc(p, rmc, clock).outcome == Nothing
    ensures var r := ParseGga(ParseRmc(p, rmc, clock).parser, gga, clock);
      r.outcome == Emitted(Overlay(RmcRecord(rmc, clock).value, GgaRecord(gga, clock).value))
      && r.outcome.point.isValid == (rmc[2] == "A")
      && r.parser == p.(lastRmc := None)
  {
  }

  /**
   * A GGA and then an RMC with an equal time point, from a parser holding
   * no RMC: the merged point again carries the RMC's validity, whatever
   * the GGA's fix quality.
   */
  lemma {:induction false} GgaThenRmcMerges(p: Parser, gga: seq<string>, rmc: seq<string>, clock: Clock)
    requires p.lastRmc.None? && |rmc| >= 12 && |gga| >= 15
    requires RmcRecord(rmc, clock).Some? && GgaRecord(gga, clock).Some?
    requires clock(rmc[1], rmc[9]) == clock(gga[1], "")
    ensures ParseGga(p, gga, clock).outcome == Nothing
    ensures var r := ParseRmc(ParseGga(p, gga, clock).parser, rmc, clock);
      r.outcome == Emitted(Overlay(RmcRecord(rmc, clock).value, GgaRecord(gga, clock).value))
      && r.outcome.point.isValid == (rmc[2] == "A")
      && r.parser == p.(lastGga := None)
  {
  }

  // ---------------------------------------------------------------------------
  // Streams

  /** What `parseStream` sends out, in order. */
  datatype Event =
    | Delivered(point: Point)        // to the point callback
    | ParserError(message: string)   // to the parser's own error callback
    | StreamError(message: string)   // to the error callback given to parseStream

  /** What `parseStream` leaves behind: the parser, the events, and whether an exception escaped. */
  datatype Streamed = Streamed(parser: Parser, events: seq<Event>, threw: bool)

  /** Empty lines and lines starting with '#' are skipped. */
  predicate Skipped(line: string) {
    line == [] || line[0] == '#'
  }

  /** Number of lines that are not skipped. */
  function Significant(lines: seq<string>): (n: nat)
    ensures n <= |lines|
  {
    if lines == [] then 0 else (if Skipped(lines[0]) then 0 else 1) + Significant(lines[1..])
  }

  /** Number of events that answer a line: a delivered point or a stream error. */
  function Answers(events: seq<Event>): (n: nat)
    ensures n <= |events|
  {
    if events == [] then 0
    else (if events[0].ParserError? then 0 else 1) + Answers(events[1..])
  }

  lemma {:induction false} AnswersConcat(a: seq<Event>, b: seq<Event>)
    ensures Answers(a + b) == Answers(a) + Answers(b)
  {
    if a != [] {
      assert (a + b)[1..] == a[1..] + b;
      AnswersConcat(a[1..], b);
    } else {
      assert a + b == b;
    }
  }

  /**
   * The lines of a stream, one after another: skipped lines do nothing; a
   * line that yields a point delivers it; any other line reports
   * "Failed to parse: " and the line when `reports` says an error callback
   * was given. An exception escaping `parse` ends the stream.
   */
  function ParseStream(p: Parser, lines: seq<string>, clock: Clock, reports: bool): (r: Streamed)
    ensures r.parser.reportsErrors == p.reportsErrors
    ensures NoPendingMatch(p) ==> NoPendingMatch(r.parser)
    ensures reports && !r.threw ==> Answers(r.events) == Significant(lines)
    ensures Answers(r.events) <= Significant(lines)
    decreases |lines|
  {
    if lines == [] then Streamed(p, [], false)
    else if Skipped(lines[0]) then ParseStream(p, lines[1..], clock, reports)
    else
      var one := Parse(p, lines[0], clock);
      if one.outcome.Threw? then Streamed(p, [], true)
      else
        var errors := ErrorEvents(one.errors);
        var answer := Answer(one.outcome, lines[0], reports);
        var rest := ParseStream(one.parser, lines[1..], clock, reports);
        AnswersOfLine(errors, answer, rest.events);
        Streamed(rest.parser, errors + answer + rest.events, rest.threw)
  }

  /** The messages `parse` sent to its own error callback, in order. */
  function ErrorEvents(errors: seq<string>): (r: seq<Event>)
    ensures |r| == |errors|
    ensures forall k :: 0 <= k < |r| ==> r[k] == ParserError(errors[k])
  {
    seq(|errors|, k requires 0 <= k < |errors| => ParserError(errors[k]))
  }

  /** What `parseStream` sends for a line `parse` did not throw on. */
  function Answer(outcome: Outcome, line: string, reports: bool): (r: seq<Event>)
    ensures |r| <= 1 && (r != [] ==> !r[0].ParserError?)
  {
    if outcome.Emitted? then [Delivered(outcome.point)]
    else if reports then [StreamError("Failed to parse: " + line)]
    else []
  }

  /** One line that is not skipped, in terms of what `parse` made of it. */
  lemma {:induction false} StreamStep(p: Parser, lines: seq<string>, clock: Clock, reports: bool, one: Parsed)
    requires lines != [] && !Skipped(lines[0]) && one == Parse(p, lines[0], clock)
    ensures one.outcome.Threw? ==> ParseStream(p, lines, clock, reports) == Streamed(p, [], true)
    ensures !one.outcome.Threw? ==>
      var rest := ParseStream(one.parser, lines[1..], clock, reports);
      ParseStream(p, lines, clock, reports)
        == Streamed(rest.parser, ErrorEvents(one.errors) + Answer(one.outcome, lines[0], reports) + rest.events, rest.threw)
  {
  }

  /**
   * A line that `parse` turns into a point: the point is delivered, and
   * nothing else is sent.
   */
  lemma {:induction false} StreamDeliversPoint(p: Parser, line: string, clock: Clock, reports: bool, point: Point)
    requires Parse(p, line, clock).outcome == Emitted(point)
    ensures ParseStream(p, [line], clock, reports)
         == Streamed(Parse(p, line, clock).parser, [Delivered(point)], false)
  {
    var one := Parse(p, line, clock);
    StreamStep(p, [line], clock, reports, one);
    assert [line][1..] == [];
    assert one.errors == [];
  }

  /**
   * A line that `parse` rejects without throwing: the messages of `parse`
   * come first, then "Failed to parse: " and the line, when an error
   * callback was given.
   */
  lemma {:induction false} StreamReportsFailure(p: Parser, line: string, clock: Clock, reports: bool)
    requires !Skipped(line) && Parse(p, line, clock).outcome == Nothing
    ensures ParseStream(p, [line], clock, reports).events
         == ErrorEvents(Parse(p, line, clock).errors)
            + (if reports then [StreamError("Failed to parse: " + line)] else [])
    ensures ParseStream(p, [line], clock, reports).parser == Parse(p, line, clock).parser
  {
    var one := Parse(p, line, clock);
    StreamStep(p, [line], clock, reports, one);
    assert [line][1..] == [];
    var e := ErrorEvents(one.errors);
    assert e + Answer(Nothing, line, reports) + [] == e + Answer(Nothing, line, reports);
  }

  /** A skipped line is passed over. */
  lemma {:induction false} StreamSkip(p: Parser, lines: seq<string>, clock: Clock, reports: bool)
    requires lines != [] && Skipped(lines[0])
    ensures ParseStream(p, lines, clock, reports) == ParseStream(p, lines[1..], clock, reports)
  {
  }

  /**
   * Lines are handled in order: unless an exception escapes the first
   * part, a stream is its first part's events followed by the second
   * part's, from the parser the first part leaves.
   */
  lemma {:induction false} ParseStreamConcat(p: Parser, a: seq<string>, b: seq<string>, clock: Clock, reports: bool)
    requires !ParseStream(p, a, clock, reports).threw
    ensures var first := ParseStream(p, a, clock, reports);
      var second := ParseStream(first.parser, b, clock, reports);
      ParseStream(p, a + b, clock, reports) == Streamed(second.parser, first.events + second.events, second.threw)
    decreases |a|, 1
  {
    if a == [] {
      assert a + b == b;
    } else if Skipped(a[0]) {
      ConcatSkipped(p, a, b, clock, reports);
    } else {
      ConcatLine(p, a, b, clock, reports);
    }
  }

  lemma {:induction false} ConcatSkipped(p: Parser, a: seq<string>, b: seq<string>, clock: Clock, reports: bool)
    requires a != [] && Skipped(a[0]) && !ParseStream(p, a, clock, reports).threw
    ensures var first := ParseStream(p, a, clock, reports);
      var second := ParseStream(first.parser, b, clock, reports);
      ParseStream(p, a + b, clock, reports) == Streamed(second.parser, first.events + second.events, second.threw)
    decreases |a|, 0
  {
    SkipStep(p, a, b, clock, reports);
    ParseStreamConcat(p, a[1..], b, clock, reports);
  }

  /** A skipped first line is skipped in the stream and in its extension. */
  lemma {:induction false} SkipStep(p: Parser, a: seq<string>, b: seq<string>, clock: Clock, reports: bool)
    requires a != [] && Skipped(a[0])
    ensures ParseStream(p, a, clock, reports) == ParseStream(p, a[1..], clock, reports)
    ensures ParseStream(p, a + b, clock, reports) == ParseStream(p, a[1..] + b, clock, reports)
  {
    StreamSkip(p, a, clock, reports);
    assert (a + b)[0] == a[0] && (a + b)[1..] == a[1..] + b;
    StreamSkip(p, a + b, clock, reports);
  }

  lemma {:induction false} ConcatLine(p: Parser, a: seq<string>, b: seq<string>, clock: Clock, reports: bool)
    requires a != [] && !Skipped(a[0]) && !ParseStream(p, a, clock, reports).threw
    ensures var first := ParseStream(p, a, clock, reports);
      var second := ParseStream(first.parser, b, clock, reports);
      ParseStream(p, a + b, clock, reports) == Streamed(second.parser, first.events + second.events, second.threw)
    decreases |a|, 0
  {
    var q, head := LineStep(p, a, b, clock, reports);
    ParseStreamConcat(q, a[1..], b, clock, reports);
    var rest := ParseStream(q, a[1..], clock, reports);
    var second := ParseStream(rest.parser, b, clock, reports);
    var first := ParseStream(p, a, clock, reports);
    AssembleConcat(first, ParseStream(first.parser, b, clock, reports), ParseStream(p, a + b, clock, reports), head, rest, second, ParseStream(q, a[1..] + b, clock, reports));
  }

  /** The first line of a stream, shared by the stream and its extension. */
  lemma {:induction false} LineStep(p: Parser, a: seq<string>, b: seq<string>, clock: Clock, reports: bool) returns (q: Parser, head: seq<Event>)
    requires a != [] && !Skipped(a[0]) && !ParseStream(p, a, clock, reports).threw
    ensures var rest := ParseStream(q, a[1..], clock, reports);
      ParseStream(p, a, clock, reports) == Streamed(rest.parser, head + rest.events, rest.threw)
    ensures var rest := ParseStream(q, a[1..] + b, clock, reports);
      ParseStream(p, a + b, clock, reports) == Streamed(rest.parser, head + rest.events, rest.threw)
  {
    var one := Parse(p, a[0], clock);
    LineHead(p, a, clock, reports, one);
    LineHeadExtended(p, a, b, clock, reports, one);
    q := one.parser;
    head := ErrorEvents(one.errors) + Answer(one.outcome, a[0], reports);
  }

  lemma {:induction false} LineHead(p: Parser, a: seq<string>, clock: Clock, reports: bool, one: Parsed)
    requires a != [] && !Skipped(a[0]) && one == Parse(p, a[0], clock)
    requires !ParseStream(p, a, clock, reports).threw
    ensures !one.outcome.Threw?
    ensures var rest := ParseStream(one.parser, a[1..], clock, reports);
      ParseStream(p, a, clock, reports)
        == Streamed(rest.parser, ErrorEvents(one.errors) + Answer(one.outcome, a[0], reports) + rest.events, rest.threw)
  {
    StreamStep(p, a, clock, reports, one);
  }

  lemma {:induction false} LineHeadExtended(p: Parser, a: seq<string>, b: seq<string>, clock: Clock, reports: bool,
                                            one: Parsed)
    requires a != [] && !Skipped(a[0]) && one == Parse(p, a[0], clock) && !one.outcome.Threw?
    ensures var rest := ParseStream(one.parser, a[1..] + b, clock, reports);
      ParseStream(p, a + b, clock, reports)
        == Streamed(rest.parser, ErrorEvents(one.errors) + Answer(one.outcome, a[0], reports) + rest.events, rest.threw)
  {
    var ab := a + b;
    assert ab[0] == a[0] && ab[1..] == a[1..] + b;
    StreamStep(p, ab, clock, reports, one);
  }

  /** Regroups the events of one line, the rest of the first part and the second part. */
  lemma AssembleConcat(first: Streamed, next: Streamed, whole: Streamed, head: seq<Event>, rest: Streamed, second: Streamed, restAb: Streamed)
    requires first == Streamed(rest.parser, head + rest.events, rest.threw)
    requires whole == Streamed(restAb.parser, head + restAb.events, restAb.threw)
    requires restAb == Streamed(second.parser, rest.events + second.events, second.threw)
    requires next == second
    ensures whole == Streamed(next.parser, first.events + next.events, next.threw)
  {
    assert head + (rest.events + second.events) == (head + rest.events) + second.events;
  }

  lemma {:induction false} AnswersOfLine(errors: seq<Event>, answer: seq<Event>, rest: seq<Event>)
    requires forall k :: 0 <= k < |errors| ==> errors[k].ParserError?
    requires |answer| <= 1 && (answer != [] ==> !answer[0].ParserError?)
    ensures Answers(errors + answer + rest) == |answer| + Answers(rest)
  {
    AnswersConcat(errors + answer, rest);
    AnswersConcat(errors, answer);
    NoAnswers(errors);
    if answer != [] {
      assert answer[1..] == [];
    }
  }

  lemma {:induction false} NoAnswers(events: seq<Event>)
    requires forall k :: 0 <= k < |events| ==> events[k].ParserError?
    ensures Answers(events) == 0
  {
    if events != [] {
      NoAnswers(events[1..]);
    }
  }

  /** A stream of skipped lines changes nothing and sends nothing. */
  lemma {:induction false} SkippedLinesIgnored(p: Parser, lines: seq<string>, clock: Clock, reports: bool)
    requires forall k :: 0 <= k < |lines| ==> Skipped(lines[k])
    ensures ParseStream(p, lines, clock, reports) == Streamed(p, [], false)
  {
    if lines != [] {
      SkippedLinesIgnored(p, lines[1..], clock, reports);
    }
  }
}

=== FILE: legacy_point.dfy ===
/**
 * The GPS point of the earlier generation (the `GpsPoint` class of
 * include/gps_point.h), used by its NMEA parser and by the gps:: filters.
 * Doubles are exact reals; the `system_clock` time point is an integer
 * number of milliseconds, which may be negative.
 */
module LegacyPoint {

  datatype Point = Point(
    latitude: real,
    longitude: real,
    speed: real,
    course: real,
    altitude: real,
    satellites: int,
    hdop: real,
    timestamp: int,
    isValid: bool)

  /** A default-constructed point: all zero and not valid. */
  const Unset: Point := Point(0.0, 0.0, 0.0, 0.0, 0.0, 0, 0.0, 0, false)

  /** Distance in metres between two points, as the gps:: jump filter uses it. */
  type Distance = (Point, Point) -> real
}

=== FILE: nmea.dfy ===
/**
 * The current-generation NMEA 0183 decoder and RMC/GGA correlator
 * (src/nmea_parser.cpp). A line is checked against its checksum, split
 * into comma-separated fields, and decoded as RMC, GGA or GSV by the
 * three letters after the talker. The decoder remembers the last RMC and
 * the last GGA; when both are present with exactly the same time of day
 * they are merged into one fix and forgotten.
 *
 * std::stoi and std::stod may throw on a malformed numeric field. Such a
 * throw leaves the correlator unchanged and is reported as `Threw`.
 */
module Nmea {
  import opened Wrappers
  import Text
  import Numbers
  import Checksum
  import Units
  import opened Fix

  // ---------------------------------------------------------------------------
  // Checksum

  /**
   * The checksum test of a sentence. False without a '*' followed by two
   * characters. Otherwise the bytes from index 1 up to the '*' are
   * exclusive-ored and compared with the two characters after the '*' read
   * in base 16; a text that does not read as hexadecimal counts as 0.
   */
  function ValidateChecksum(line: string): (ok: bool)
    ensures Text.Find(line, '*').None? ==> !ok
    ensures ok ==> Text.Find(line, '*').value + 2 < |line|
    ensures ok <==>
      Text.Find(line, '*').Some? && Text.Find(line, '*').value + 2 < |line|
      && Checksum.XorAll(ChecksumData(line, Text.Find(line, '*').value))
         == ExpectedChecksum(line[Text.Find(line, '*').value + 1], line[Text.Find(line, '*').value + 2])
  {
    match Text.Find(line, '*')
    case None => false
    case Some(star) =>
      if star + 2 >= |line| then false
      else Checksum.XorAll(ChecksumData(line, star)) == ExpectedChecksum(line[star + 1], line[star + 2])
  }

  /**
   * The summed bytes: `line.substr(1, star - 1)`. With the '*' at index 0
   * the length wraps to the largest size_t, so the whole rest is summed.
   */
  function ChecksumData(line: string, star: nat): (data: string)
    requires star < |line|
    ensures star > 0 ==> data == line[1..star]
  {
    if star == 0 then line[1..] else line[1..star]
  }

  /** The expected byte written after '*'; unreadable text leaves 0. */
  function ExpectedChecksum(c1: char, c2: char): (b: bv8)
    ensures Checksum.ReadHexPair(c1, c2).None? ==> b == 0
    ensures Checksum.ReadHexPair(c1, c2).Some? ==> b == Checksum.LowByte(Checksum.ReadHexPair(c1, c2).value)
  {
    match Checksum.ReadHexPair(c1, c2)
    case None => 0
    case Some(v) => Checksum.LowByte(v)
  }

  /** The checksum text written for a byte is expected to be that byte. */
  lemma {:induction false} ExpectedChecksumOfHexByte(b: bv8)
    ensures ExpectedChecksum(Checksum.HexByte(b)[0], Checksum.HexByte(b)[1]) == b
  {
    Checksum.HexByteRoundTrip(b);
  }

  /**
   * With the '*' first, the length `star - 1` wraps around: the whole rest
   * of the line is summed, the two checksum characters included.
   */
  lemma {:induction false} StarFirstSumsRest(line: string)
    requires |line| >= 3 && line[0] == '*'
    ensures ValidateChecksum(line) <==> Checksum.XorAll(line[1..]) == ExpectedChecksum(line[1], line[2])
  {
    Text.FindIs(line, '*', 0);
  }

  /** The character before the summed bytes, normally the '$', does not enter the test. */
  lemma {:induction false} LeadCharNotSummed(line: string, c: char)
    requires |line| >= 1 && line[0] != '*' && c != '*'
    ensures ValidateChecksum(line[0 := c]) == ValidateChecksum(line)
  {
    var changed := line[0 := c];
    assert changed[1..] == line[1..];
    if '*' in line {
      var star := Text.Find(line, '*').value;
      assert changed[..star] == line[..star][0 := c];
      assert '*' !in changed[..star];
      Text.FindIs(changed, '*', star);
      assert changed[1..star] == line[1..star];
    } else {
      assert forall k :: 0 <= k < |changed| ==> changed[k] != '*';
    }
  }

  /** Every framed sentence whose body has no '*' passes the checksum test. */
  lemma {:induction false} FrameValidates(body: string)
    requires '*' !in body
    ensures ValidateChecksum(Checksum.Frame(body))
  {
    var line := Checksum.Frame(body);
    var star := |body| + 1;
    Checksum.FrameStar(body);
    assert ChecksumData(line, star) == body;
    var b := Checksum.XorAll(body);
    Checksum.HexByteRoundTrip(b);
    assert line[star + 1] == Checksum.HexByte(b)[0];
    assert line[star + 2] == Checksum.HexByte(b)[1];
  }

  /**
   * Changing one summed byte of a sentence that passes the checksum test,
   * to a character other than '*' carrying a different byte, makes the
   * test fail.
   */
  lemma {:induction false} ChecksumDetectsOneChange(line: string, i: nat, c: char)
    requires ValidateChecksum(line)
    requires 1 <= i < Text.Find(line, '*').value
    requires c != '*' && Checksum.ByteOf(c) != Checksum.ByteOf(line[i])
    ensures !ValidateChecksum(line[i := c])
  {
    var star := Text.Find(line, '*').value;
    var changed := line[i := c];
    assert changed[..star] == line[..star][i := c];
    assert '*' !in changed[..star];
    Text.FindIs(changed, '*', star);
    var data := line[1..star];
    assert changed[1..star] == data[i - 1 := c];
    Checksum.XorAllDetectsOneChange(data, i - 1, c);
  }

  // ---------------------------------------------------------------------------
  // Fields

  /** Milliseconds since midnight of an "hhmmss[.ff]" time; None where std::stoi throws. */
  function ParseTimeToMs(t: string): (r: Option<nat>)
    ensures |t| < 6 ==> r == Some(0)
    ensures r.Some? ==> r.value < TwoTo64
    ensures |t| >= 6 ==> (r.None? <==>
      Numbers.ParseInt(t[0..2]).None? || Numbers.ParseInt(t[2..4]).None? || Numbers.ParseInt(t[4..6]).None?
      || FractionMs(t).None?)
  {
    if |t| < 6 then Some(0)
    else
      match (ClockMs(t), FractionMs(t))
      case (Some(c), Some(ms)) => Some((c + ms) % TwoTo64)
      case _ => None
  }

  /** The "hhmmss" prefix in milliseconds; None where std::stoi throws on a pair. */
  function ClockMs(t: string): Option<int>
    requires |t| >= 6
  {
    match (Numbers.ParseInt(t[0..2]), Numbers.ParseInt(t[2..4]), Numbers.ParseInt(t[4..6]))
    case (Some(h), Some(m), Some(s)) => Some(DayMs(h, m, s))
    case _ => None
  }

  /**
   * The sub-second part: only for strings longer than 7 that hold a '.'
   * with something after it, the number after the first '.' times 10.
   * None where std::stoi throws on it.
   */
  function FractionMs(t: string): (r: Option<int>)
    ensures r.None? <==>
      |t| > 7 && Text.Find(t, '.').Some? && Text.Find(t, '.').value + 1 < |t|
      && Numbers.ParseInt(t[Text.Find(t, '.').value + 1..]).None?
  {
    if |t| > 7 then
      match Text.Find(t, '.')
      case Some(dot) =>
        if dot + 1 < |t| then
          match Numbers.ParseInt(t[dot + 1..])
          case Some(f) => Some(f * 10)
          case None => None
        else Some(0)
      case None => Some(0)
    else Some(0)
  }

  /** Time of day in milliseconds from hours, minutes and seconds. */
  function DayMs(h: int, m: int, s: int): int {
    (h * 3600 + m * 60 + s) * 1000
  }

  /** Six digits "hhmmss" read as hours, minutes and seconds, in milliseconds. */
  lemma {:induction false} ParseTimeToMsOfDigits(t: string)
    requires |t| == 6 && Numbers.AllDigits(t)
    ensures ParseTimeToMs(t) == Some(DayMs(
      10 * Numbers.DigitValue(t[0]) + Numbers.DigitValue(t[1]),
      10 * Numbers.DigitValue(t[2]) + Numbers.DigitValue(t[3]),
      10 * Numbers.DigitValue(t[4]) + Numbers.DigitValue(t[5])))
  {
    var d := DayMs(
      10 * Numbers.DigitValue(t[0]) + Numbers.DigitValue(t[1]),
      10 * Numbers.DigitValue(t[2]) + Numbers.DigitValue(t[3]),
      10 * Numbers.DigitValue(t[4]) + Numbers.DigitValue(t[5]));
    assert t[..6] == t;
    ClockMsOfDigits(t);
    Below64(d);
    assert FractionMs(t) == Some(0);
    TimeOfParts(t, d, 0);
  }

  /** Six leading digits are read as two-digit hours, minutes and seconds. */
  lemma {:induction false} ClockMsOfDigits(t: string)
    requires |t| >= 6 && Numbers.AllDigits(t[..6])
    ensures ClockMs(t) == Some(DayMs(
      10 * Numbers.DigitValue(t[0]) + Numbers.DigitValue(t[1]),
      10 * Numbers.DigitValue(t[2]) + Numbers.DigitValue(t[3]),
      10 * Numbers.DigitValue(t[4]) + Numbers.DigitValue(t[5])))
    ensures 0 <= ClockMs(t).value < 400_000_000
  {
    assert forall i :: 0 <= i < 6 ==> Numbers.IsDigit(t[i]) by {
      forall i | 0 <= i < 6 ensures Numbers.IsDigit(t[i]) {
        assert t[..6][i] == t[i];
      }
    }
    Numbers.ParseIntTwoDigits(t[0..2]);
    Numbers.ParseIntTwoDigits(t[2..4]);
    Numbers.ParseIntTwoDigits(t[4..6]);
  }

  /** Six leading digits and at most one more character always read as a time. */
  lemma {:induction false} ParseTimeToMsDefined(t: string)
    requires 6 <= |t| <= 7 && Numbers.AllDigits(t[..6])
    ensures ParseTimeToMs(t).Some?
  {
    ClockMsOfDigits(t);
  }

  /** A value inside 64 bits is unchanged by the reduction modulo 2^64. */
  lemma {:induction false} Below64(x: int)
    requires 0 <= x < TwoTo64
    ensures (x + 0) % TwoTo64 == x
  {
  }

  /**
   * "123519" is 12:35:19, that is 45 319 000 ms after midnight. The text
   * comes in as a parameter fixed by the precondition, so that the solver
   * works on the digits asserted below instead of unfolding the string
   * literal through every call of the parse; the statement is the same as
   * `ParseTimeToMs("123519") == Some(45319000)`.
   */
  lemma {:induction false} ParseTimeToMsExample(t: string)
    requires t == "123519"
    ensures ParseTimeToMs(t) == Some(45319000)
  {
    assert Numbers.AllDigits(t);
    assert Numbers.DigitValue(t[0]) == 1 && Numbers.DigitValue(t[1]) == 2;
    assert Numbers.DigitValue(t[2]) == 3 && Numbers.DigitValue(t[3]) == 5;
    assert Numbers.DigitValue(t[4]) == 1 && Numbers.DigitValue(t[5]) == 9;
    ParseTimeToMsOfDigits(t);
  }

  /**
   * The part after the '.' is read as a whole number of hundredths and
   * added to the time of day: one fractional digit "5" adds 50 ms and
   * three digits "123" add 1230 ms.
   */
  lemma {:induction false} ParseTimeToMsFraction(s: string)
    requires |s| >= 8 && Numbers.AllDigits(s[..6]) && s[6] == '.'
    requires Numbers.AllDigits(s[7..]) && Numbers.DigitsValue(s[7..]) <= Numbers.MaxInt32
    ensures ParseTimeToMs(s) == Some(DayMs(
      10 * Numbers.DigitValue(s[0]) + Numbers.DigitValue(s[1]),
      10 * Numbers.DigitValue(s[2]) + Numbers.DigitValue(s[3]),
      10 * Numbers.DigitValue(s[4]) + Numbers.DigitValue(s[5])) + 10 * Numbers.DigitsValue(s[7..]))
  {
    var d := DayMs(
      10 * Numbers.DigitValue(s[0]) + Numbers.DigitValue(s[1]),
      10 * Numbers.DigitValue(s[2]) + Numbers.DigitValue(s[3]),
      10 * Numbers.DigitValue(s[4]) + Numbers.DigitValue(s[5]));
    var ms := 10 * Numbers.DigitsValue(s[7..]);
    ClockMsOfDigits(s);
    FractionMsOfDigits(s);
    TimeOfSmallParts(s, d, ms);
  }

  /** A time of day plus a bounded fraction stays inside 64 bits and is not reduced. */
  lemma {:induction false} TimeOfSmallParts(t: string, c: int, ms: int)
    requires |t| >= 6 && ClockMs(t) == Some(c) && FractionMs(t) == Some(ms)
    requires 0 <= c < 400_000_000 && 0 <= ms <= 10 * Numbers.MaxInt32
    ensures ParseTimeToMs(t) == Some(c + ms)
  {
    TimeOfParts(t, c, ms);
    assert (c + ms) % TwoTo64 == c + ms;
  }

  /** A time followed by more text: the sub-second part is added to the time of day. */
  lemma {:induction false} TimeWithSuffix(s: string, t: string, base: nat, ms: int)
    requires |t| == 6 && |s| >= 6 && s[..6] == t
    requires ParseTimeToMs(t) == Some(base) && FractionMs(s) == Some(ms)
    ensures ParseTimeToMs(s) == Some((base + ms) % TwoTo64)
  {
    SameTimeFields(s, t);
    assert ClockMs(s) == ClockMs(t);
    var c := ClockMs(t).value;
    TimeOfParts(t, c, 0);
    TimeOfParts(s, c, ms);
    ModAddLeft(c, ms, base);
  }

  lemma {:induction false} TimeOfParts(t: string, c: int, ms: int)
    requires |t| >= 6 && ClockMs(t) == Some(c) && FractionMs(t) == Some(ms)
    ensures ParseTimeToMs(t) == Some((c + ms) % TwoTo64)
  {
  }

  /** Reducing a summand modulo 2^64 first does not change the sum modulo 2^64. */
  lemma {:induction false} ModAddLeft(x: int, y: int, b: int)
    requires b == (x + 0) % TwoTo64
    ensures (b + y) % TwoTo64 == (x + y) % TwoTo64
  {
    var q := x / TwoTo64;
    assert x == q * TwoTo64 + b;
  }

  lemma {:induction false} SameTimeFields(s: string, t: string)
    requires |t| == 6 && |s| >= 6 && s[..6] == t
    ensures Numbers.ParseInt(s[0..2]) == Numbers.ParseInt(t[0..2])
    ensures Numbers.ParseInt(s[2..4]) == Numbers.ParseInt(t[2..4])
    ensures Numbers.ParseInt(s[4..6]) == Numbers.ParseInt(t[4..6])
  {
    assert s[0..2] == t[0..2] && s[2..4] == t[2..4] && s[4..6] == t[4..6];
  }

  lemma {:induction false} FractionMsOfDigits(s: string)
    requires |s| >= 8 && Numbers.AllDigits(s[..6]) && s[6] == '.'
    requires Numbers.AllDigits(s[7..]) && Numbers.DigitsValue(s[7..]) <= Numbers.MaxInt32
    ensures FractionMs(s) == Some(10 * Numbers.DigitsValue(s[7..]))
  {
    assert '.' !in s[..6] by {
      forall i | 0 <= i < 6 ensures s[..6][i] != '.' {
        assert Numbers.IsDigit(s[..6][i]);
      }
    }
    Text.FindIs(s, '.', 6);
    Numbers.ParseIntOfDigits(s[7..]);
  }

  /**
   * The comma-separated fields of a sentence, empty fields kept. The text
   * after the last comma becomes a field only when a '*' follows, and it
   * ends at that '*'.
   */
  function SplitFields(line: string): (fields: seq<string>)
    ensures forall k :: 0 <= k < |fields| ==> ',' !in fields[k]
    ensures |fields| == |Text.SplitAll(line, ',')| - 1 || |fields| == |Text.SplitAll(line, ',')|
    ensures '*' in line ==> |fields| >= 1
  {
    var parts := Text.SplitAll(line, ',');
    var last := parts[|parts| - 1];
    match Text.Find(last, '*')
    case None =>
      SplitNoStar(line);
      parts[..|parts| - 1]
    case Some(star) => parts[..|parts| - 1] + [last[..star]]
  }

  /** With no '*' after the last comma, a line with a '*' is impossible. */
  lemma {:induction false} SplitNoStar(line: string)
    ensures var parts := Text.SplitAll(line, ',');
      '*' !in parts[|parts| - 1] && '*' in line ==> |parts| >= 2
  {
    var parts := Text.SplitAll(line, ',');
    if |parts| == 1 {
      Text.SplitAllJoin(line, ',');
    }
  }

  /**
   * Fields joined by commas and closed by '*' and a checksum split back
   * into the same fields, empty ones included.
   */
  lemma {:induction false} SplitFieldsRoundTrip(line: string, fields: seq<string>, checksum: string)
    requires |fields| >= 1 && line == Text.Join(fields, ',') + "*" + checksum
    requires Text.FreeOf(fields, ',')
    requires '*' !in fields[|fields| - 1] && ',' !in checksum
    ensures SplitFields(line) == fields
  {
    var n := |fields|;
    var last := fields[n - 1] + "*" + checksum;
    SplitAllOfFramedFields(fields, checksum, last);
    LastFieldStar(fields[n - 1], checksum, last);
    SplitFieldsOfPieces(line, fields, last, |fields[n - 1]|);
  }

  lemma {:induction false} LastFieldStar(field: string, checksum: string, last: string)
    requires '*' !in field && last == field + "*" + checksum
    ensures Text.Find(last, '*') == Some(|field|)
    ensures last[..|field|] == field
  {
    assert last[..|field|] == field;
    Text.FindIs(last, '*', |field|);
  }

  lemma {:induction false} SplitFieldsOfPieces(line: string, fields: seq<string>, last: string, star: nat)
    requires |fields| >= 1
    requires Text.SplitAll(line, ',') == fields[..|fields| - 1] + [last]
    requires Text.Find(last, '*') == Some(star)
    requires star <= |last| && last[..star] == fields[|fields| - 1]
    ensures SplitFields(line) == fields
  {
    var front := fields[..|fields| - 1];
    var parts := front + [last];
    assert parts[..|parts| - 1] == front;
    Text.FrontLast(fields);
  }

  lemma {:induction false} SplitAllOfFramedFields(fields: seq<string>, checksum: string, last: string)
    requires |fields| >= 1 && last == fields[|fields| - 1] + "*" + checksum
    requires Text.FreeOf(fields, ',')
    requires ',' !in checksum
    ensures Text.SplitAll(Text.Join(fields, ',') + "*" + checksum, ',')
      == fields[..|fields| - 1] + [last]
  {
    var n := |fields|;
    var tail := "*" + checksum;
    var parts := fields[..n - 1] + [fields[n - 1] + tail];
    Text.JoinAppendToLast(fields, ',', tail);
    assert Text.Join(fields, ',') + "*" + checksum == Text.Join(fields, ',') + tail;
    assert fields[n - 1] + tail == fields[n - 1] + "*" + checksum;
    assert forall k :: 0 <= k < n ==> ',' !in parts[k] by {
      forall k | 0 <= k < n
        ensures ',' !in parts[k]
      {
        if k < n - 1 {
          assert parts[k] == fields[k];
        }
      }
    }
    Text.JoinSplitAll(parts, ',');
  }

  // ---------------------------------------------------------------------------
  // Sentences

  /** The outcome of decoding one sentence's fields. */
  datatype Decoded<T> = Value(value: T) | TooShort | Threw

  datatype Rmc = Rmc(
    timestamp: nat,
    valid: bool,
    latitude: real,
    latHemisphere: char,
    longitude: real,
    lonHemisphere: char,
    speedKnots: real,
    course: real,
    date: string)

  datatype Gga = Gga(
    timestamp: nat,
    latitude: real,
    latHemisphere: char,
    longitude: real,
    lonHemisphere: char,
    quality: int,
    satellites: int,
    hdop: real,
    altitude: real,
    altitudeUnit: string)

  /** One satellite of a GSV sentence. */
  datatype SatelliteInView = SatelliteInView(prn: int, elevation: int, azimuth: int, snr: int)

  datatype Gsv = Gsv(
    totalMessages: int,
    messageNumber: int,
    totalSatellites: int,
    satellites: seq<SatelliteInView>)

  /** The value of an optional numeric field: the default when empty, None where std::stod throws. */
  function RealField(field: string, default: real): (r: Option<real>)
    ensures field == "" ==> r == Some(default)
    ensures field != "" ==> r == Numbers.ParseReal(field)
  {
    if field == "" then Some(default) else Numbers.ParseReal(field)
  }

  /** A field written as a decimal numeral reads as its value, whatever the default. */
  lemma {:induction false} RealFieldOfDecimal(d: Numbers.Decimal, default: real)
    requires d.WellFormed()
    ensures RealField(d.Written(), default) == Some(d.Value())
  {
    Numbers.ParseDecimal(d);
  }

  /** As RealField, for an integer field read by std::stoi. */
  function IntField(field: string, default: int): (r: Option<int>)
    ensures field == "" ==> r == Some(default)
    ensures field != "" ==> r == Numbers.ParseInt(field)
  {
    if field == "" then Some(default) else Numbers.ParseInt(field)
  }

  /** An integer field written in decimal reads as that integer, whatever the default. */
  lemma {:induction false} IntFieldOfDecimal(n: int, default: int)
    requires Numbers.MinInt32 <= n <= Numbers.MaxInt32
    ensures IntField(Numbers.IntToDecimal(n), default) == Some(n)
  {
    Numbers.IntToDecimalRoundTrip(n);
  }

  /**
   * An angle and its hemisphere letter: both fields must be non-empty for
   * either to be read; otherwise 0.0 and `defaultHemisphere`.
   */
  function AngleFields(value: string, hemisphere: string, defaultHemisphere: char): (r: Option<(real, char)>)
    ensures value == "" || hemisphere == "" ==> r == Some((0.0, defaultHemisphere))
    ensures value != "" && hemisphere != "" && Numbers.ParseReal(value).Some? ==>
      r == Some((Numbers.ParseReal(value).value, hemisphere[0]))
    ensures value != "" && hemisphere != "" && Numbers.ParseReal(value).None? ==> r.None?
  {
    if value == "" || hemisphere == "" then Some((0.0, defaultHemisphere))
    else match Numbers.ParseReal(value)
      case Some(v) => Some((v, hemisphere[0]))
      case None => None
  }

  /** A decimal angle with a hemisphere letter reads as that angle and letter. */
  lemma {:induction false} AngleFieldsOfDecimal(d: Numbers.Decimal, hemisphere: string, defaultHemisphere: char)
    requires d.WellFormed() && hemisphere != ""
    ensures AngleFields(d.Written(), hemisphere, defaultHemisphere) == Some((d.Value(), hemisphere[0]))
  {
    Numbers.ParseDecimal(d);
  }

  /**
   * The RMC fields (at least 12), read in their fixed positions. Every
   * numeric field is read where it is present; the first one that throws
   * makes the whole sentence throw.
   */
  function ParseRmc(fields: seq<string>): (r: Decoded<Rmc>)
    ensures |fields| < 12 <==> r.TooShort?
    ensures |fields| >= 12 ==> (r.Threw? <==>
      ParseTimeToMs(fields[1]).None? || AngleFields(fields[3], fields[4], 'N').None?
      || AngleFields(fields[5], fields[6], 'E').None?
      || RealField(fields[7], 0.0).None? || RealField(fields[8], 0.0).None?)
    ensures r.Value? ==> (r.value.valid <==> fields[2] == "A")
    ensures r.Value? ==> ParseTimeToMs(fields[1]) == Some(r.value.timestamp)
    ensures r.Value? ==> AngleFields(fields[3], fields[4], 'N') == Some((r.value.latitude, r.value.latHemisphere))
    ensures r.Value? ==> AngleFields(fields[5], fields[6], 'E') == Some((r.value.longitude, r.value.lonHemisphere))
    ensures r.Value? ==> RealField(fields[7], 0.0) == Some(r.value.speedKnots)
    ensures r.Value? ==> RealField(fields[8], 0.0) == Some(r.value.course)
    ensures r.Value? ==> r.value.date == fields[9]
  {
    if |fields| < 12 then TooShort
    else
      match (ParseTimeToMs(fields[1]), AngleFields(fields[3], fields[4], 'N'),
             AngleFields(fields[5], fields[6], 'E'), RealField(fields[7], 0.0), RealField(fields[8], 0.0))
      case (Some(ts), Some(lat), Some(lon), Some(speed), Some(course)) =>
        Value(Rmc(ts, fields[2] == "A", lat.0, lat.1, lon.0, lon.1, speed, course, fields[9]))
      case _ => Threw
  }

  /**
   * An RMC whose time is six digits and whose position, speed and course
   * are written as decimal numerals decodes to exactly those values.
   */
  lemma {:induction false} RmcOfWrittenFields(fields: seq<string>,
      lat: Numbers.Decimal, lon: Numbers.Decimal, speed: Numbers.Decimal, course: Numbers.Decimal)
    requires |fields| >= 12 && |fields[1]| == 6 && Numbers.AllDigits(fields[1])
    requires lat.WellFormed() && lon.WellFormed() && speed.WellFormed() && course.WellFormed()
    requires fields[3] == lat.Written() && fields[4] != "" && fields[5] == lon.Written() && fields[6] != ""
    requires fields[7] == speed.Written() && fields[8] == course.Written()
    ensures ParseTimeToMs(fields[1]).Some?
    ensures ParseRmc(fields) == Value(Rmc(ParseTimeToMs(fields[1]).value, fields[2] == "A",
      lat.Value(), fields[4][0], lon.Value(), fields[6][0], speed.Value(), course.Value(), fields[9]))
  {
    ParseTimeToMsDefined(fields[1]);
    AngleFieldsOfDecimal(lat, fields[4], 'N');
    AngleFieldsOfDecimal(lon, fields[6], 'E');
    RealFieldOfDecimal(speed, 0.0);
    RealFieldOfDecimal(course, 0.0);
  }

  /**
   * The GGA fields (at least 14), read in their fixed positions. Every
   * numeric field is read where it is present; the first one that throws
   * makes the whole sentence throw.
   */
  function ParseGga(fields: seq<string>): (r: Decoded<Gga>)
    ensures |fields| < 14 <==> r.TooShort?
    ensures |fields| >= 14 ==> (r.Threw? <==>
      ParseTimeToMs(fields[1]).None? || AngleFields(fields[2], fields[3], 'N').None?
      || AngleFields(fields[4], fields[5], 'E').None?
      || IntField(fields[6], 0).None? || IntField(fields[7], 0).None?
      || RealField(fields[8], 0.0).None? || RealField(fields[9], 0.0).None?)
    ensures r.Value? ==> ParseTimeToMs(fields[1]) == Some(r.value.timestamp)
    ensures r.Value? ==> AngleFields(fields[2], fields[3], 'N') == Some((r.value.latitude, r.value.latHemisphere))
    ensures r.Value? ==> AngleFields(fields[4], fields[5], 'E') == Some((r.value.longitude, r.value.lonHemisphere))
    ensures r.Value? ==> IntField(fields[6], 0) == Some(r.value.quality)
    ensures r.Value? ==> IntField(fields[7], 0) == Some(r.value.satellites)
    ensures r.Value? ==> RealField(fields[8], 0.0) == Some(r.value.hdop)
    ensures r.Value? ==> RealField(fields[9], 0.0) == Some(r.value.altitude)
    ensures r.Value? ==> r.value.altitudeUnit == fields[10]
  {
    if |fields| < 14 then TooShort
    else
      match (ParseTimeToMs(fields[1]), AngleFields(fields[2], fields[3], 'N'),
             AngleFields(fields[4], fields[5], 'E'), IntField(fields[6], 0), IntField(fields[7], 0))
      case (Some(ts), Some(lat), Some(lon), Some(quality), Some(sats)) =>
        (match (RealField(fields[8], 0.0), RealField(fields[9], 0.0))
         case (Some(hdop), Some(alt)) =>
           Value(Gga(ts, lat.0, lat.1, lon.0, lon.1, quality, sats, hdop, alt, fields[10]))
         case _ => Threw)
      case _ => Threw
  }

  /**
   * A GGA whose time is six digits, whose position, HDOP and altitude are
   * decimal numerals and whose quality and satellite count are integers
   * written in decimal decodes to exactly those values.
   */
  lemma {:induction false} GgaOfWrittenFields(fields: seq<string>,
      lat: Numbers.Decimal, lon: Numbers.Decimal, quality: int, satellites: int,
      hdop: Numbers.Decimal, altitude: Numbers.Decimal)
    requires |fields| >= 14 && |fields[1]| == 6 && Numbers.AllDigits(fields[1])
    requires lat.WellFormed() && lon.WellFormed() && hdop.WellFormed() && altitude.WellFormed()
    requires Numbers.MinInt32 <= quality <= Numbers.MaxInt32 && Numbers.MinInt32 <= satellites <= Numbers.MaxInt32
    requires fields[2] == lat.Written() && fields[3] != "" && fields[4] == lon.Written() && fields[5] != ""
    requires fields[6] == Numbers.IntToDecimal(quality) && fields[7] == Numbers.IntToDecimal(satellites)
    requires fields[8] == hdop.Written() && fields[9] == altitude.Written()
    ensures ParseTimeToMs(fields[1]).Some?
    ensures ParseGga(fields) == Value(Gga(ParseTimeToMs(fields[1]).value, lat.Value(), fields[3][0],
      lon.Value(), fields[5][0], quality, satellites, hdop.Value(), altitude.Value(), fields[10]))
  {
    ParseTimeToMsDefined(fields[1]);
    AngleFieldsOfDecimal(lat, fields[3], 'N');
    AngleFieldsOfDecimal(lon, fields[5], 'E');
    IntFieldOfDecimal(quality, 0);
    IntFieldOfDecimal(satellites, 0);
    RealFieldOfDecimal(hdop, 0.0);
    RealFieldOfDecimal(altitude, 0.0);
  }

  /**
   * The GSV fields (at least 4): message counts, then one group of four
   * numbers per satellite, skipping a group whose first field is empty.
   * A throw of std::stoi is caught: the sentence then yields nothing.
   */
  function ParseGsv(fields: seq<string>): (r: Option<Gsv>)
    ensures |fields| < 4 ==> r.None?
    ensures |fields| >= 4 ==> (r.None? <==>
      Numbers.ParseInt(fields[1]).None? || Numbers.ParseInt(fields[2]).None?
      || Numbers.ParseInt(fields[3]).None? || SatelliteGroups(fields, 4).None?)
    ensures r.Some? ==> |r.value.satellites| <= (|fields| - 4) / 4
    ensures r.Some? ==> Numbers.ParseInt(fields[1]) == Some(r.value.totalMessages)
    ensures r.Some? ==> Numbers.ParseInt(fields[2]) == Some(r.value.messageNumber)
    ensures r.Some? ==> Numbers.ParseInt(fields[3]) == Some(r.value.totalSatellites)
    ensures r.Some? ==> SatelliteGroups(fields, 4) == Some(r.value.satellites)
  {
    if |fields| < 4 then None
    else
      match (Numbers.ParseInt(fields[1]), Numbers.ParseInt(fields[2]), Numbers.ParseInt(fields[3]),
             SatelliteGroups(fields, 4))
      case (Some(total), Some(number), Some(inView), Some(sats)) => Some(Gsv(total, number, inView, sats))
      case _ => None
  }

  /** The satellite groups starting at field `i`, in order. */
  function SatelliteGroups(fields: seq<string>, i: nat): (r: Option<seq<SatelliteInView>>)
    requires 4 <= i <= |fields|
    ensures r.Some? ==> |r.value| <= (|fields| - i) / 4
    ensures i + 3 >= |fields| ==> r == Some([])
    decreases |fields| - i
  {
    if i + 3 >= |fields| then Some([])
    else
      match SatelliteGroups(fields, i + 4)
      case None => None
      case Some(rest) =>
        if fields[i] == "" then Some(rest)
        else
          match (Numbers.ParseInt(fields[i]), Numbers.ParseInt(fields[i + 1]),
                 Numbers.ParseInt(fields[i + 2]), Numbers.ParseInt(fields[i + 3]))
          case (Some(prn), Some(el), Some(az), Some(snr)) => Some([SatelliteInView(prn, el, az, snr)] + rest)
          case _ => None
  }

  /** One of the four numbers of the satellite group at `j` makes std::stoi throw. */
  predicate GroupThrows(fields: seq<string>, j: nat)
    requires j + 3 < |fields|
  {
    Numbers.ParseInt(fields[j]).None? || Numbers.ParseInt(fields[j + 1]).None?
    || Numbers.ParseInt(fields[j + 2]).None? || Numbers.ParseInt(fields[j + 3]).None?
  }

  /**
   * A throw of std::stoi in the satellite group `k` groups after field `i`,
   * when that group's first field is present, is caught for the whole
   * sentence: the groups from `i` on yield nothing.
   */
  lemma {:induction false} GroupThrowGivesNothing(fields: seq<string>, i: nat, k: nat)
    requires 4 <= i && i + 4 * k + 3 < |fields| && fields[i + 4 * k] != ""
    requires GroupThrows(fields, i + 4 * k) == true
    ensures SatelliteGroups(fields, i).None?
    decreases k
  {
    if k == 0 {
      GroupThrowHere(fields, i);
    } else {
      GroupThrowGivesNothing(fields, i + 4, k - 1);
      LaterGroupThrows(fields, i);
    }
  }

  lemma {:induction false} GroupThrowHere(fields: seq<string>, i: nat)
    requires 4 <= i && i + 3 < |fields| && fields[i] != ""
    requires GroupThrows(fields, i) == true
    ensures SatelliteGroups(fields, i).None?
  {
  }

  lemma {:induction false} LaterGroupThrows(fields: seq<string>, i: nat)
    requires 4 <= i && i + 3 < |fields|
    requires SatelliteGroups(fields, i + 4).None?
    ensures SatelliteGroups(fields, i).None?
  {
  }

  /** The GSV counterpart: a throw in any group makes the whole sentence yield nothing. */
  lemma {:induction false} GsvGroupThrowGivesNothing(fields: seq<string>, k: nat)
    requires 4 * k + 7 < |fields| && fields[4 + 4 * k] != ""
    requires GroupThrows(fields, 4 + 4 * k) == true
    ensures ParseGsv(fields).None?
  {
    GroupThrowGivesNothing(fields, 4, k);
  }

  /** A GSV with one satellite, all numbers written in decimal, reads back as those numbers. */
  lemma {:induction false} GsvOfOneSatellite(fields: seq<string>, total: int, number: int, inView: int,
      sat: SatelliteInView)
    requires |fields| == 8
    requires Numbers.MinInt32 <= total <= Numbers.MaxInt32 && fields[1] == Numbers.IntToDecimal(total)
    requires Numbers.MinInt32 <= number <= Numbers.MaxInt32 && fields[2] == Numbers.IntToDecimal(number)
    requires Numbers.MinInt32 <= inView <= Numbers.MaxInt32 && fields[3] == Numbers.IntToDecimal(inView)
    requires Numbers.MinInt32 <= sat.prn <= Numbers.MaxInt32 && fields[4] == Numbers.IntToDecimal(sat.prn)
    requires Numbers.MinInt32 <= sat.elevation <= Numbers.MaxInt32 && fields[5] == Numbers.IntToDecimal(sat.elevation)
    requires Numbers.MinInt32 <= sat.azimuth <= Numbers.MaxInt32 && fields[6] == Numbers.IntToDecimal(sat.azimuth)
    requires Numbers.MinInt32 <= sat.snr <= Numbers.MaxInt32 && fields[7] == Numbers.IntToDecimal(sat.snr)
    ensures ParseGsv(fields) == Some(Gsv(total, number, inView, [sat]))
  {
    Numbers.IntToDecimalRoundTrip(total);
    Numbers.IntToDecimalRoundTrip(number);
    Numbers.IntToDecimalRoundTrip(inView);
    Numbers.IntToDecimalRoundTrip(sat.prn);
    Numbers.IntToDecimalRoundTrip(sat.elevation);
    Numbers.IntToDecimalRoundTrip(sat.azimuth);
    Numbers.IntToDecimalRoundTrip(sat.snr);
    assert SatelliteGroups(fields, 8) == Some([]);
    assert [sat] + [] == [sat];
  }

  // ---------------------------------------------------------------------------
  // Correlation

  /** The decoder's memory: the last RMC, GGA and GSV not yet consumed. */
  datatype Parser = Parser(lastRmc: Option<Rmc>, lastGga: Option<Gga>, lastGsv: Option<Gsv>)

  const Initial: Parser := Parser(None, None, None)

  /** What one line produces. */
  datatype LineResult = Point(fix: Fix) | NoPoint | LineThrew

  datatype Step = Step(parser: Parser, result: LineResult)

  /** The fix made of an RMC and a GGA with the same time. */
  function CombineData(rmc: Rmc, gga: Gga): (f: Fix)
    ensures f.timestamp == rmc.timestamp
    ensures f.latitude == Units.ConvertCoordinate(rmc.latitude, rmc.latHemisphere)
    ensures f.longitude == Units.ConvertCoordinate(rmc.longitude, rmc.lonHemisphere)
    ensures f.speed == Units.KnotsToKmh(rmc.speedKnots) && f.course == rmc.course
    ensures f.altitude == gga.altitude && f.satellites == gga.satellites && f.hdop == gga.hdop
    ensures f.isValid <==> rmc.valid && gga.quality > 0
  {
    Fix(
      Units.ConvertCoordinate(rmc.latitude, rmc.latHemisphere),
      Units.ConvertCoordinate(rmc.longitude, rmc.lonHemisphere),
      Units.KnotsToKmh(rmc.speedKnots),
      rmc.course,
      gga.altitude,
      gga.satellites,
      gga.hdop,
      rmc.timestamp,
      rmc.valid && gga.quality > 0)
  }

  /** The point an RMC alone gives: no altitude, satellites or HDOP. */
  function RmcPoint(rmc: Rmc): (f: Fix)
    ensures f.timestamp == rmc.timestamp && f.isValid == rmc.valid
    ensures f.altitude == 0.0 && f.satellites == 0 && f.hdop == 0.0
    ensures f == CombineData(rmc, NoGga).(isValid := rmc.valid)
  {
    Unset.(
      timestamp := rmc.timestamp,
      latitude := Units.ConvertCoordinate(rmc.latitude, rmc.latHemisphere),
      longitude := Units.ConvertCoordinate(rmc.longitude, rmc.lonHemisphere),
      speed := Units.KnotsToKmh(rmc.speedKnots),
      course := rmc.course,
      isValid := rmc.valid)
  }

  /** A GGA with every field at its default. */
  const NoGga: Gga := Gga(0, 0.0, 'N', 0.0, 'E', 0, 0, 0.0, 0.0, "M")

  /** The point a GGA alone gives: no speed or course. */
  function GgaPoint(gga: Gga): (f: Fix)
    ensures f.timestamp == gga.timestamp && (f.isValid <==> gga.quality > 0)
    ensures f.speed == 0.0 && f.course == 0.0
    ensures f.altitude == gga.altitude && f.satellites == gga.satellites && f.hdop == gga.hdop
    ensures f.latitude == Units.ConvertCoordinate(gga.latitude, gga.latHemisphere)
    ensures f.longitude == Units.ConvertCoordinate(gga.longitude, gga.lonHemisphere)
  {
    Unset.(
      timestamp := gga.timestamp,
      latitude := Units.ConvertCoordinate(gga.latitude, gga.latHemisphere),
      longitude := Units.ConvertCoordinate(gga.longitude, gga.lonHemisphere),
      altitude := gga.altitude,
      satellites := gga.satellites,
      hdop := gga.hdop,
      isValid := gga.quality > 0)
  }

  /** Both slots hold data for the same time of day. */
  predicate Matches(p: Parser) {
    p.lastRmc.Some? && p.lastGga.Some? && p.lastRmc.value.timestamp == p.lastGga.value.timestamp
  }

  /** The correlator never keeps an RMC and a GGA that could be merged. */
  predicate NoPendingMatch(p: Parser) {
    !Matches(p)
  }

  /** The three letters after the two-letter talker, for a type field of at least 6 characters. */
  function MessageType(typeField: string): Option<string> {
    if |typeField| >= 6 then Some(typeField[3..6]) else None
  }

  /** The effect of a decoded sentence, before the merge check. */
  datatype Stored = Stored(parser: Parser, point: Option<Fix>) | StoreThrew

  function Store(p: Parser, fields: seq<string>): (s: Stored)
    requires |fields| >= 1
    ensures s.Stored? ==> s.parser.lastGsv == p.lastGsv || MessageType(fields[0]) == Some("GSV")
  {
    match MessageType(fields[0])
    case Some(t) =>
      if t == "RMC" then
        match ParseRmc(fields)
        case Value(rmc) => Stored(p.(lastRmc := Some(rmc)), Some(RmcPoint(rmc)))
        case TooShort => Stored(p, None)
        case Threw => StoreThrew
      else if t == "GGA" then
        match ParseGga(fields)
        case Value(gga) => Stored(p.(lastGga := Some(gga)), Some(GgaPoint(gga)))
        case TooShort => Stored(p, None)
        case Threw => StoreThrew
      else if t == "GSV" then
        match ParseGsv(fields)
        case Some(gsv) => Stored(p.(lastGsv := Some(gsv)), None)
        case None => Stored(p, None)
      else Stored(p, None)
    case None => Stored(p, None)
  }

  /**
   * One input line. A line failing the checksum test yields nothing and
   * changes nothing. Otherwise the sentence is decoded and stored, and then,
   * whatever the sentence was, a stored RMC and GGA with equal times are
   * merged into the result and both forgotten. An RMC or GGA that is not
   * merged still yields the partial point built from it alone.
   */
  function ParseLine(p: Parser, line: string): (r: Step)
    ensures !ValidateChecksum(line) ==> r == Step(p, NoPoint)
    ensures r.result.LineThrew? ==> r.parser == p
    ensures r.parser.lastGsv == p.lastGsv || r.parser.lastGsv.Some?
    ensures ValidateChecksum(line) && !r.result.LineThrew? ==> NoPendingMatch(r.parser)
    ensures NoPendingMatch(p) ==> NoPendingMatch(r.parser)
  {
    if !ValidateChecksum(line) then Step(p, NoPoint)
    else
      var fields := SplitFields(line);
      if fields == [] then Step(p, NoPoint)
      else
        match Store(p, fields)
        case StoreThrew => Step(p, LineThrew)
        case Stored(q, point) =>
          if Matches(q) then
            Step(q.(lastRmc := None, lastGga := None), Point(CombineData(q.lastRmc.value, q.lastGga.value)))
          else if point.Some? then Step(q, Point(point.value))
          else Step(q, NoPoint)
  }

  /** `reset` forgets all three slots. */
  function Reset(p: Parser): (r: Parser)
    ensures r.lastRmc.None? && r.lastGga.None? && r.lastGsv.None?
    ensures NoPendingMatch(r)
  {
    Initial
  }

  /** The last GSV seen, as `getLastGSV` reports it. */
  function LastGsv(p: Parser): Option<Gsv> {
    p.lastGsv
  }

  // ---------------------------------------------------------------------------
  // Properties of the correlator

  /** Lines fed one after another, from a given state. */
  function ParseAll(p: Parser, lines: seq<string>): (r: Parser)
    ensures NoPendingMatch(p) ==> NoPendingMatch(r)
    decreases |lines|
  {
    if lines == [] then p else ParseAll(ParseLine(p, lines[0]).parser, lines[1..])
  }

  /** An RMC that decodes, when no stored GGA has its time, is stored and returned alone. */
  lemma {:induction false} LoneRmcGivesPartialPoint(p: Parser, line: string, rmc: Rmc)
    requires ValidateChecksum(line)
    requires MessageType(SplitFields(line)[0]) == Some("RMC")
    requires ParseRmc(SplitFields(line)) == Value(rmc)
    requires p.lastGga.None? || p.lastGga.value.timestamp != rmc.timestamp
    ensures ParseLine(p, line) == Step(p.(lastRmc := Some(rmc)), Point(RmcPoint(rmc)))
  {
  }

  /** A GGA that decodes, when no stored RMC has its time, is stored and returned alone. */
  lemma {:induction false} LoneGgaGivesPartialPoint(p: Parser, line: string, gga: Gga)
    requires ValidateChecksum(line)
    requires MessageType(SplitFields(line)[0]) == Some("GGA")
    requires ParseGga(SplitFields(line)) == Value(gga)
    requires p.lastRmc.None? || p.lastRmc.value.timestamp != gga.timestamp
    ensures ParseLine(p, line) == Step(p.(lastGga := Some(gga)), Point(GgaPoint(gga)))
  {
  }

  /**
   * A GGA with the same time as the stored RMC completes the pair: the
   * merged fix is returned and both slots are emptied; the GSV slot is kept.
   */
  lemma {:induction false} GgaCompletesRmc(p: Parser, line: string, gga: Gga)
    requires ValidateChecksum(line)
    requires MessageType(SplitFields(line)[0]) == Some("GGA")
    requires ParseGga(SplitFields(line)) == Value(gga)
    requires p.lastRmc.Some? && p.lastRmc.value.timestamp == gga.timestamp
    ensures ParseLine(p, line)
         == Step(Parser(None, None, p.lastGsv), Point(CombineData(p.lastRmc.value, gga)))
  {
  }

  /** Symmetrically, an RMC with the same time as the stored GGA completes the pair. */
  lemma {:induction false} RmcCompletesGga(p: Parser, line: string, rmc: Rmc)
    requires ValidateChecksum(line)
    requires MessageType(SplitFields(line)[0]) == Some("RMC")
    requires ParseRmc(SplitFields(line)) == Value(rmc)
    requires p.lastGga.Some? && p.lastGga.value.timestamp == rmc.timestamp
    ensures ParseLine(p, line)
         == Step(Parser(None, None, p.lastGsv), Point(CombineData(rmc, p.lastGga.value)))
  {
  }

  /**
   * A merged fix comes only from an RMC and a GGA with equal times: if a
   * line returns a point with both slots emptied where one was full, that
   * point is the combination of the pair.
   */
  lemma {:induction false} MergeOnlyOnEqualTimes(p: Parser, line: string)
    requires NoPendingMatch(p)
    requires ParseLine(p, line).result.Point?
    requires ParseLine(p, line).parser.lastRmc.None? && ParseLine(p, line).parser.lastGga.None?
    ensures exists rmc: Rmc, gga: Gga ::
      (rmc.timestamp == gga.timestamp && ParseLine(p, line).result.fix == CombineData(rmc, gga))
  {
    var fields := SplitFields(line);
    match Store(p, fields)
    case Stored(q, point) =>
      if Matches(q) {
        var rmc, gga := q.lastRmc.value, q.lastGga.value;
        assert ParseLine(p, line).result.fix == CombineData(rmc, gga);
      } else {
        assert false;
      }
  }

  /**
   * Without a pending match, a GSV sentence or a sentence of another type
   * yields no point and leaves both RMC and GGA slots as they were.
   */
  lemma {:induction false} OtherSentencesYieldNothing(p: Parser, line: string)
    requires NoPendingMatch(p) && ValidateChecksum(line)
    requires MessageType(SplitFields(line)[0]) != Some("RMC")
    requires MessageType(SplitFields(line)[0]) != Some("GGA")
    ensures ParseLine(p, line).result == NoPoint
    ensures ParseLine(p, line).parser.lastRmc == p.lastRmc
    ensures ParseLine(p, line).parser.lastGga == p.lastGga
  {
  }
}

=== FILE: numbers.dfy ===
/**
 * The numeric conversions of the C++ standard library that the source
 * relies on, stated over unbounded integers and exact reals:
 * std::stoi / std::stod (read the longest numeric prefix, throw when there
 * is none), integer division and double-to-int casts (both truncate toward
 * zero), and decimal rendering of integers as an ostream does it.
 */
module Numbers {
  import opened Wrappers
  import Text

  const MinInt32: int := -0x8000_0000
  const MaxInt32: int := 0x7FFF_FFFF
  const TwoTo64: int := 0x1_0000_0000_0000_0000

  predicate IsDigit(c: char) {
    '0' <= c <= '9'
  }

  /** The value of a decimal digit; other characters count as 0 and are never read as digits. */
  function DigitValue(c: char): (d: nat)
    ensures d < 10
    ensures IsDigit(c) ==> d == c as int - '0' as int
  {
    if IsDigit(c) then c as int - '0' as int else 0
  }

  function DigitChar(d: nat): (c: char)
    requires d < 10
    ensures IsDigit(c) && DigitValue(c) == d
  {
    ('0' as int + d) as char
  }

  predicate AllDigits(s: string) {
    forall i :: 0 <= i < |s| ==> IsDigit(s[i])
  }

  /** Value of a run of decimal digits, most significant digit first. */
  function DigitsValue(s: string): nat {
    if |s| == 0 then 0 else 10 * DigitsValue(s[..|s| - 1]) + DigitValue(s[|s| - 1])
  }

  function Pow10(n: nat): (r: nat)
    ensures r >= 1
  {
    if n == 0 then 1 else 10 * Pow10(n - 1)
  }

  /** Length of the run of digits that starts at `i`. */
  function DigitRun(s: string, i: nat): (n: nat)
    requires i <= |s|
    ensures i + n <= |s|
    ensures i + n < |s| ==> !IsDigit(s[i + n])
    decreases |s| - i
  {
    if i < |s| && IsDigit(s[i]) then
      1 + DigitRun(s, i + 1)
    else 0
  }

  /** First index at or after `i` that is not white space. */
  function SkipSpace(s: string, i: nat): (j: nat)
    requires i <= |s|
    ensures i <= j <= |s|
    ensures j < |s| ==> !Text.IsSpace(s[j])
    ensures forall k :: i <= k < j ==> Text.IsSpace(s[k])
    decreases |s| - i
  {
    if i < |s| && Text.IsSpace(s[i]) then SkipSpace(s, i + 1) else i
  }

  /** Where the digits of a number start: after white space and one optional sign. */
  function DigitsStart(s: string): (j: nat)
    ensures j <= |s|
  {
    var i := SkipSpace(s, 0);
    if i < |s| && (s[i] == '+' || s[i] == '-') then i + 1 else i
  }

  predicate IsNegative(s: string) {
    var i := SkipSpace(s, 0);
    i < |s| && s[i] == '-'
  }

  /**
   * std::stoi in base 10: None where std::stoi throws, either because no
   * digit follows the optional white space and sign, or because the value
   * does not fit a 32-bit int. Characters after the digits are ignored.
   */
  function ParseInt(s: string): (r: Option<int>)
    ensures r.Some? ==> MinInt32 <= r.value <= MaxInt32
    ensures r.Some? ==> DigitRun(s, DigitsStart(s)) > 0
  {
    var j := DigitsStart(s);
    var n := DigitRun(s, j);
    if n == 0 then None
    else
      var mag := DigitsValue(s[j..j + n]);
      var v: int := if IsNegative(s) then -(mag as int) else mag;
      if MinInt32 <= v <= MaxInt32 then Some(v) else None
  }

  /**
   * std::stod restricted to plain decimal notation: optional white space,
   * an optional sign, digits, and an optional '.' with more digits; at
   * least one digit on either side of the point. None where std::stod
   * throws for want of any digit.
   */
  function ParseReal(s: string): (r: Option<real>)
  {
    if DigitRun(s, DigitsStart(s)) == 0 && FractionDigits(s) == 0 then None
    else if IsNegative(s) then Some(-Magnitude(s))
    else Some(Magnitude(s))
  }

  /** The unsigned value of the decimal number at the start of `s`. */
  function Magnitude(s: string): real {
    WholeDigits(s) as real + FractionPart(s)
  }

  /** The value of the digits before the decimal point. */
  function WholeDigits(s: string): nat {
    var j := DigitsStart(s);
    DigitsValue(s[j..j + DigitRun(s, j)])
  }

  /** The value of the digits after the decimal point, if any. */
  function FractionPart(s: string): real {
    var j := DigitsStart(s);
    var k := j + DigitRun(s, j) + 1;
    var m := FractionDigits(s);
    if m == 0 then 0.0 else Fraction(s[k..k + m])
  }

  /**
   * The value of the digits `ds` written after a decimal point:
   * 0.d1d2...dn is (d1 + 0.d2...dn) / 10.
   */
  function Fraction(ds: string): (r: real)
    ensures 0.0 <= r < 1.0
  {
    if ds == [] then 0.0
    else (DigitValue(ds[0]) as real + Fraction(ds[1..])) / 10.0
  }

  /** Number of digits after the decimal point that ends the integer digits. */
  function FractionDigits(s: string): nat {
    var j := DigitsStart(s);
    var k := j + DigitRun(s, j);
    if k < |s| && s[k] == '.' then DigitRun(s, k + 1) else 0
  }

  lemma {:induction false} DigitRunAll(s: string, i: nat)
    requires i <= |s| && AllDigits(s)
    ensures DigitRun(s, i) == |s| - i
    decreases |s| - i
  {
    if i < |s| {
      DigitRunAll(s, i + 1);
    }
  }

  /** A non-empty string of digits is read by std::stoi as its decimal value. */
  lemma {:induction false} ParseIntOfDigits(s: string)
    requires |s| > 0 && AllDigits(s) && DigitsValue(s) <= MaxInt32
    ensures ParseInt(s) == Some(DigitsValue(s))
  {
    assert !Text.IsSpace(s[0]);
    assert SkipSpace(s, 0) == 0;
    DigitRunAll(s, 0);
    assert s[0..|s|] == s;
  }

  /** Two decimal digits are read by std::stoi as 10 times the first plus the second. */
  lemma {:induction false} ParseIntTwoDigits(s: string)
    requires |s| == 2 && AllDigits(s)
    ensures ParseInt(s) == Some(10 * DigitValue(s[0]) + DigitValue(s[1]))
  {
    assert s[..1][..0] == [];
    assert DigitsValue(s[..1]) == DigitValue(s[0]);
    ParseIntOfDigits(s);
  }

  /** A digit string followed by '.' and a digit string reads as whole + fraction / 10^|fraction|. */
  lemma {:induction false} ParseRealOfDecimal(whole: string, frac: string)
    requires |whole| > 0 && AllDigits(whole) && AllDigits(frac)
    ensures ParseReal(whole + "." + frac)
         == Some(DigitsValue(whole) as real + Fraction(frac))
  {
    DecimalLayout(whole, frac);
    DecimalValue(whole + "." + frac, whole, frac);
  }

  lemma {:induction false} DecimalValue(s: string, whole: string, frac: string)
    requires |whole| > 0 && s == whole + "." + frac
    requires DigitsStart(s) == 0 && !IsNegative(s)
    requires DigitRun(s, 0) == |whole| && FractionDigits(s) == |frac|
    ensures ParseReal(s) == Some(DigitsValue(whole) as real + Fraction(frac))
  {
    DecimalParts(s, whole, frac);
    ParseRealFromParts(s, DigitsValue(whole), Fraction(frac));
  }

  lemma {:induction false} DecimalParts(s: string, whole: string, frac: string)
    requires s == whole + "." + frac
    requires DigitsStart(s) == 0 && DigitRun(s, 0) == |whole| && FractionDigits(s) == |frac|
    ensures WholeDigits(s) == DigitsValue(whole)
    ensures FractionPart(s) == Fraction(frac)
  {
    var w := |whole|;
    assert s[0..w] == whole;
    assert s[w + 1..w + 1 + |frac|] == frac;
  }

  lemma {:induction false} ParseRealFromParts(s: string, wv: nat, fv: real)
    requires DigitsStart(s) == 0 && !IsNegative(s) && DigitRun(s, 0) > 0
    requires WholeDigits(s) == wv && FractionPart(s) == fv
    ensures ParseReal(s) == Some(wv as real + fv)
  {
  }

  lemma {:induction false} DecimalLayout(whole: string, frac: string)
    requires |whole| > 0 && AllDigits(whole) && AllDigits(frac)
    ensures var s := whole + "." + frac;
      && DigitsStart(s) == 0 && !IsNegative(s)
      && DigitRun(s, 0) == |whole|
      && FractionDigits(s) == |frac|
  {
    var s := whole + "." + frac;
    assert !Text.IsSpace(s[0]) && s[0] != '+' && s[0] != '-';
    assert SkipSpace(s, 0) == 0;
    assert s[..|whole|] == whole;
    DigitRunPrefix(s, whole, 0);
    var k := |whole| + 1;
    assert s[k..] == frac;
    DigitRunAll(frac, 0);
    DigitRunSuffix(s, k, frac);
  }

  /** A decimal numeral "digits.digits", as sentences write their numeric fields. */
  datatype Decimal = Decimal(whole: string, frac: string) {
    predicate WellFormed() {
      |whole| > 0 && AllDigits(whole) && AllDigits(frac)
    }

    function Written(): string {
      whole + "." + frac
    }

    function Value(): real {
      DigitsValue(whole) as real + Fraction(frac)
    }
  }

  /** A written decimal numeral reads back, with std::stod, as its value. */
  lemma {:induction false} ParseDecimal(d: Decimal)
    requires d.WellFormed()
    ensures d.Written() != []
    ensures ParseReal(d.Written()) == Some(d.Value())
  {
    ParseRealOfDecimal(d.whole, d.frac);
  }

  /** A string of digits alone reads as its decimal value. */
  lemma {:induction false} ParseRealOfDigits(whole: string)
    requires |whole| > 0 && AllDigits(whole)
    ensures ParseReal(whole) == Some(DigitsValue(whole) as real)
  {
    assert !Text.IsSpace(whole[0]) && whole[0] != '+' && whole[0] != '-';
    assert SkipSpace(whole, 0) == 0;
    DigitRunAll(whole, 0);
    assert whole[0..|whole|] == whole;
  }

  lemma {:induction false} DigitRunPrefix(s: string, d: string, i: nat)
    requires AllDigits(d) && |d| < |s| && s[..|d|] == d && !IsDigit(s[|d|]) && i <= |d|
    ensures DigitRun(s, i) == |d| - i
    decreases |d| - i
  {
    if i < |d| {
      assert s[i] == d[i];
      DigitRunPrefix(s, d, i + 1);
    }
  }

  lemma {:induction false} DigitRunSuffix(s: string, k: nat, d: string)
    requires k <= |s| && s[k..] == d && AllDigits(d)
    ensures DigitRun(s, k) == |d|
    decreases |s| - k
  {
    if k < |s| {
      assert s[k + 1..] == d[1..];
      DigitRunSuffix(s, k + 1, d[1..]);
    }
  }

  /** Decimal rendering of a natural number, as `ostream << n` writes it. */
  function NatToDecimal(n: nat): (s: string)
    ensures |s| >= 1 && AllDigits(s) && DigitsValue(s) == n
    ensures |s| > 1 ==> s[0] != '0'
  {
    if n < 10 then [DigitChar(n)]
    else
      var init := NatToDecimal(n / 10);
      var s := init + [DigitChar(n % 10)];
      assert s[..|s| - 1] == init;
      s
  }

  /** Decimal rendering of an integer, with a leading '-' when negative. */
  function IntToDecimal(v: int): (s: string)
    ensures |s| >= 1
  {
    if v < 0 then "-" + NatToDecimal(-v) else NatToDecimal(v)
  }

  /** Rendering an int and reading it back with std::stoi gives the same int. */
  lemma {:induction false} IntToDecimalRoundTrip(v: int)
    requires MinInt32 <= v <= MaxInt32
    ensures ParseInt(IntToDecimal(v)) == Some(v)
  {
    var s := IntToDecimal(v);
    if v >= 0 {
      ParseIntOfDigits(s);
    } else {
      var d := NatToDecimal(-v);
      assert s == "-" + d;
      assert !Text.IsSpace(s[0]);
      assert SkipSpace(s, 0) == 0;
      assert IsNegative(s);
      assert DigitsStart(s) == 1;
      assert s[1..] == d;
      DigitRunAll(d, 0);
      DigitRunSuffix(s, 1, d);
      assert s[1..1 + |d|] == d;
    }
  }

  /** C++ integer division of `a` by a positive `b`, which truncates toward zero. */
  function TruncDiv(a: int, b: int): (q: int)
    requires b > 0
    ensures a >= 0 ==> 0 <= a - q * b < b
    ensures a < 0 ==> -b < a - q * b <= 0
  {
    if a >= 0 then a / b else -((-a) / b)
  }

  /** static_cast<int> of a double: truncation toward zero (range overflow not modelled). */
  function Trunc(x: real): (r: int)
    ensures x >= 0.0 ==> r as real <= x < r as real + 1.0
    ensures x < 0.0 ==> r as real - 1.0 < x <= r as real
  {
    if x >= 0.0 then x.Floor else -((-x).Floor)
  }

  /** Conversion of an integer to a 32-bit int: reduction modulo 2^32 into the signed range. */
  function ToInt32(x: int): (r: int)
    ensures MinInt32 <= r <= MaxInt32
    ensures (r - x) % 0x1_0000_0000 == 0
    ensures MinInt32 <= x <= MaxInt32 ==> r == x
  {
    (x - MinInt32) % 0x1_0000_0000 + MinInt32
  }
}

=== FILE: pipeline.dfy ===
/**
 * The processing pipeline (src/pipeline.cpp): each line is decoded by the
 * NMEA correlator; a line that yields no point is a parse error, a point
 * without a fix is shown as such, and a valid fix runs through the filter
 * chain in priority order. A fix that survives the chain is counted,
 * appended to the history and shown; a rejected one is counted and
 * reported under the rejecting filter's name.
 *
 * The display is modelled as the list of calls the pipeline makes on it.
 */
module Pipeline {
  import opened Wrappers
  import opened Fix
  import Nmea
  import History
  import Smoothing
  import InfraFilters

  // ---------------------------------------------------------------------------
  // The filter list

  /** A filter and the priority it was added with; lower priorities run first. */
  datatype Entry = Entry(priority: int, filter: InfraFilters.Filter)

  predicate Sorted(entries: seq<Entry>) {
    forall i, j :: 0 <= i < j < |entries| ==> entries[i].priority <= entries[j].priority
  }

  /** The first index whose priority exceeds `p`: where a new entry of priority `p` goes. */
  function Position(entries: seq<Entry>, p: int): (k: nat)
    requires Sorted(entries)
    ensures k <= |entries|
    ensures forall j :: 0 <= j < k ==> entries[j].priority <= p
    ensures forall j :: k <= j < |entries| ==> entries[j].priority > p
    decreases |entries|
  {
    if entries == [] || p < entries[0].priority then 0
    else 1 + Position(entries[1..], p)
  }

  /**
   * `addFilter`: the entry is appended and the list sorted by priority. The
   * source sorts with std::sort, which orders entries of equal priority in
   * no specified way; the model keeps them in the order they were added,
   * one of the orders std::sort may produce.
   */
  function Insert(entries: seq<Entry>, e: Entry): (r: seq<Entry>)
    requires Sorted(entries)
    ensures Sorted(r)
    ensures multiset(r) == multiset(entries) + multiset{e}
    ensures |r| == |entries| + 1
  {
    var k := Position(entries, e.priority);
    assert entries == entries[..k] + entries[k..];
    entries[..k] + [e] + entries[k..]
  }

  /** Every smoothing filter in the list can compute its alpha. */
  predicate AllTuned(entries: seq<Entry>, pi: real) {
    forall k :: 0 <= k < |entries| ==> Tuned(entries[k], pi)
  }

  predicate Tuned(e: Entry, pi: real) {
    e.filter.kind.SmoothingFilter? ==>
      Smoothing.Tuned(e.filter.kind.smoother.cutoff, e.filter.kind.smoother.sampleRate, pi)
  }

  /** The indices from `i` on whose filters are enabled, in increasing order. */
  function EnabledFrom(entries: seq<Entry>, i: nat): (r: seq<nat>)
    requires i <= |entries|
    ensures forall k :: 0 <= k < |r| ==> i <= r[k] < |entries| && entries[r[k]].filter.enabled
    decreases |entries| - i
  {
    if i == |entries| then []
    else if entries[i].filter.enabled then [i] + EnabledFrom(entries, i + 1)
    else EnabledFrom(entries, i + 1)
  }

  /**
   * `EnabledFrom` lists every enabled index from `i` on and no other, each
   * once, in increasing order.
   */
  lemma {:induction false} EnabledFromExact(entries: seq<Entry>, i: nat)
    requires i <= |entries|
    ensures forall j :: i <= j < |entries| ==> (j in EnabledFrom(entries, i) <==> entries[j].filter.enabled)
    ensures Increasing(EnabledFrom(entries, i))
    decreases |entries| - i
  {
    EnabledFromMembers(entries, i);
    EnabledFromIncreasing(entries, i);
  }

  lemma {:induction false} EnabledFromMembers(entries: seq<Entry>, i: nat)
    requires i <= |entries|
    ensures forall j :: i <= j < |entries| ==> (j in EnabledFrom(entries, i) <==> entries[j].filter.enabled)
    decreases |entries| - i
  {
    if i < |entries| {
      EnabledFromMembers(entries, i + 1);
    }
  }

  predicate Increasing(s: seq<nat>) {
    forall k, l :: 0 <= k < l < |s| ==> s[k] < s[l]
  }

  lemma {:induction false} EnabledFromIncreasing(entries: seq<Entry>, i: nat)
    requires i <= |entries|
    ensures Increasing(EnabledFrom(entries, i))
    decreases |entries| - i
  {
    if i < |entries| {
      EnabledFromIncreasing(entries, i + 1);
      var rest := EnabledFrom(entries, i + 1);
      if entries[i].filter.enabled {
        var r := [i] + rest;
        assert EnabledFrom(entries, i) == r;
        forall k, l | 0 <= k < l < |r|
          ensures r[k] < r[l]
        {
          assert r[l] == rest[l - 1] && i + 1 <= rest[l - 1];
          if k > 0 {
            assert r[k] == rest[k - 1];
          }
        }
      }
    }
  }

  /** Lists with the same enabled flags have the same enabled indices. */
  lemma {:induction false} EnabledFromSameFlags(a: seq<Entry>, b: seq<Entry>, i: nat)
    requires |a| == |b| && i <= |a|
    requires forall k :: i <= k < |a| ==> a[k].filter.enabled == b[k].filter.enabled
    ensures EnabledFrom(a, i) == EnabledFrom(b, i)
    decreases |a| - i
  {
    if i < |a| {
      EnabledFromSameFlags(a, b, i + 1);
    }
  }

  // ---------------------------------------------------------------------------
  // The filter chain

  /** One call of a filter's `process`: which entry, the fix it was handed and what it returned. */
  datatype Call = Call(index: nat, point: Fix, outcome: InfraFilters.Outcome)

  datatype Verdict = Accepted | RejectedBy(name: string)

  /** The entries' new states, the fix as the chain left it, the verdict and the calls made. */
  datatype Chain = Chain(entries: seq<Entry>, point: Fix, verdict: Verdict, calls: seq<Call>)

  function Indices(calls: seq<Call>): (r: seq<nat>)
    ensures |r| == |calls| && forall k :: 0 <= k < |r| ==> r[k] == calls[k].index
  {
    if calls == [] then [] else [calls[0].index] + Indices(calls[1..])
  }

  /** The list after a chain: same priorities, flags and names, smoothing still tuned. */
  predicate SameShape(before: seq<Entry>, after: seq<Entry>, pi: real) {
    |after| == |before|
    && AllTuned(after, pi)
    && forall k :: 0 <= k < |before| ==>
         after[k].priority == before[k].priority
         && after[k].filter.enabled == before[k].filter.enabled
         && InfraFilters.Name(after[k].filter) == InfraFilters.Name(before[k].filter)
  }

  /**
   * What a chain run from entry `i` on promises. The list keeps its shape.
   * The filters called are the enabled ones in order, up to the one that
   * ended the chain, and each saw a fix exactly as valid as the input. A
   * rejection names the last filter called. The chain ends before the last
   * enabled filter only on a rejection or at a stop filter.
   */
  predicate ChainFacts(entries: seq<Entry>, i: nat, point: Fix, pi: real, r: Chain)
    requires i <= |entries|
  {
    && SameShape(entries, r.entries, pi)
    && CallOrder(entries, i, r)
    && SameValidity(point, r)
  }

  /** The calls and the verdict against the list's enabled entries. */
  predicate CallOrder(entries: seq<Entry>, i: nat, r: Chain)
    requires i <= |entries|
  {
    && Indices(r.calls) <= EnabledFrom(entries, i)
    && (r.verdict.RejectedBy? ==>
          && r.calls != []
          && r.verdict.name == InfraFilters.Name(entries[r.calls[|r.calls| - 1].index].filter))
    && (|r.calls| < |EnabledFrom(entries, i)| ==>
          && r.calls != []
          && (r.verdict.RejectedBy? || entries[r.calls[|r.calls| - 1].index].filter.kind.StopFilter?))
  }

  function Last(calls: seq<Call>): Call
    requires calls != []
  {
    calls[|calls| - 1]
  }

  /**
   * The calls against the filters' `process`. Each call is the filter's
   * `process` on the entry as it was before the chain, and the entry is left
   * holding the filter's new state; entries not called are unchanged. The
   * first filter is handed the input, each later one the fix the one before
   * it passed on, and every call but the last returned PASS. The chain's fix
   * is the last call's, or the input when nothing was called; the chain is a
   * rejection exactly when the last call returned REJECT; and it ends before
   * the last enabled filter only when the last call did not return PASS.
   */
  predicate Traced(entries: seq<Entry>, i: nat, point: Fix, history: History.History,
                   distance: Distance, pi: real, r: Chain)
    requires i <= |entries|
  {
    Applied(entries, history, distance, pi, r) && Linked(entries, i, point, r)
  }

  /** What the calls did to the list. */
  predicate Applied(entries: seq<Entry>, history: History.History, distance: Distance, pi: real, r: Chain) {
    && |r.entries| == |entries|
    && (forall k :: 0 <= k < |r.calls| ==> Performed(entries, r.entries, r.calls[k], history, distance, pi))
    && (forall j :: 0 <= j < |entries| && j !in Indices(r.calls) ==> r.entries[j] == entries[j])
  }

  /** How the calls hand the fix on, and how the last one decides the chain. */
  predicate Linked(entries: seq<Entry>, i: nat, point: Fix, r: Chain)
    requires i <= |entries|
  {
    && (r.calls != [] ==> r.calls[0].point == point)
    && (forall k :: 0 <= k < |r.calls| - 1 ==>
          r.calls[k].outcome.result == InfraFilters.Pass && r.calls[k + 1].point == r.calls[k].outcome.point)
    && r.point == (if r.calls == [] then point else Last(r.calls).outcome.point)
    && (r.verdict.RejectedBy? <==> r.calls != [] && Last(r.calls).outcome.result == InfraFilters.Reject)
    && (|r.calls| < |EnabledFrom(entries, i)| ==> r.calls != [] && Last(r.calls).outcome.result != InfraFilters.Pass)
  }

  /** Call `c` is entry `c.index`'s `process` before the chain, and `after` holds the new state. */
  predicate Performed(entries: seq<Entry>, after: seq<Entry>, c: Call, history: History.History,
                      distance: Distance, pi: real) {
    && c.index < |entries| && c.index < |after|
    && InfraFilters.Ready(entries[c.index].filter, c.point, pi)
    && c.outcome == InfraFilters.Process(entries[c.index].filter, c.point, history, distance, pi)
    && after[c.index] == Entry(entries[c.index].priority, c.outcome.filter)
  }

  /** Every filter called, and the chain's output, see a fix as valid as `point`, with its time. */
  predicate SameValidity(point: Fix, r: Chain) {
    && (forall k :: 0 <= k < |r.calls| ==> r.calls[k].point.isValid == point.isValid)
    && r.point.isValid == point.isValid && r.point.timestamp == point.timestamp
  }

  /**
   * `applyFilters` from entry `i` on: disabled filters are skipped; a
   * REJECT ends the chain with that filter's name; a STOP ends it with the
   * fix accepted; a PASS hands the (possibly rewritten) fix on.
   */
  function ApplyFrom(entries: seq<Entry>, i: nat, point: Fix, history: History.History,
                     distance: Distance, pi: real): (r: Chain)
    requires i <= |entries| && AllTuned(entries, pi)
    ensures ChainFacts(entries, i, point, pi, r)
    ensures Traced(entries, i, point, history, distance, pi, r)
    decreases |entries| - i, 1
  {
    if i == |entries| then
      Chain(entries, point, Accepted, [])
    else if !entries[i].filter.enabled then
      ApplyFrom(entries, i + 1, point, history, distance, pi)
    else
      ApplyAt(entries, i, point, history, distance, pi)
  }

  /** The chain at an enabled entry `i`. */
  function ApplyAt(entries: seq<Entry>, i: nat, point: Fix, history: History.History,
                   distance: Distance, pi: real): (r: Chain)
    requires i < |entries| && entries[i].filter.enabled && AllTuned(entries, pi)
    ensures ChainFacts(entries, i, point, pi, r)
    ensures Traced(entries, i, point, history, distance, pi, r)
    decreases |entries| - i, 0
  {
    var e := entries[i];
    assert Tuned(e, pi);
    var o := InfraFilters.Process(e.filter, point, history, distance, pi);
    var updated := entries[i := Entry(e.priority, o.filter)];
    UpdateKeepsShape(entries, i, o.filter, pi);
    var call := Call(i, point, o);
    match o.result
    case Reject =>
      var r := Chain(updated, o.point, RejectedBy(InfraFilters.Name(e.filter)), [call]);
      EndingCall(entries, i, call, history, distance, pi, r);
      r
    case Stop =>
      var r := Chain(updated, o.point, Accepted, [call]);
      EndingCall(entries, i, call, history, distance, pi, r);
      r
    case Pass =>
      var rest := ApplyFrom(updated, i + 1, o.point, history, distance, pi);
      EnabledFromSameFlags(entries, updated, i + 1);
      PassStep(entries, updated, i, point, call, pi, rest);
      PassStepTrace(entries, i, point, history, distance, pi, rest);
      rest.(calls := [call] + rest.calls)
  }

  /** A chain from enabled entry `i` that ends at `i`'s REJECT or STOP. */
  lemma {:induction false} EndingCall(entries: seq<Entry>, i: nat, call: Call, history: History.History,
                                      distance: Distance, pi: real, r: Chain)
    requires i < |entries| && entries[i].filter.enabled
    requires call.index == i && call.outcome.result != InfraFilters.Pass
    requires Performed(entries, r.entries, call, history, distance, pi)
    requires |r.entries| == |entries| && forall j :: 0 <= j < |entries| && j != i ==> r.entries[j] == entries[j]
    requires r.calls == [call] && r.point == call.outcome.point
    requires r.verdict.RejectedBy? <==> call.outcome.result == InfraFilters.Reject
    requires r.verdict.RejectedBy? ==> r.verdict.name == InfraFilters.Name(entries[i].filter)
    requires SameShape(entries, r.entries, pi)
    ensures Traced(entries, i, call.point, history, distance, pi, r)
    ensures ChainFacts(entries, i, call.point, pi, r)
  {
    assert Indices(r.calls) == [i];
    assert EnabledFrom(entries, i) == [i] + EnabledFrom(entries, i + 1);
  }

  /** Replacing entry `i`'s filter by one with the same flag, name and tuning keeps the shape. */
  lemma {:induction false} UpdateKeepsShape(entries: seq<Entry>, i: nat, f: InfraFilters.Filter, pi: real)
    requires i < |entries| && AllTuned(entries, pi)
    requires f.enabled == entries[i].filter.enabled
    requires InfraFilters.Name(f) == InfraFilters.Name(entries[i].filter)
    requires Tuned(Entry(entries[i].priority, f), pi)
    ensures SameShape(entries, entries[i := Entry(entries[i].priority, f)], pi)
  {
  }

  /** A PASS at enabled entry `i` followed by the chain from `i + 1` is a chain from `i`. */
  lemma {:induction false} PassStep(entries: seq<Entry>, updated: seq<Entry>, i: nat, point: Fix, call: Call,
                                    pi: real, rest: Chain)
    requires i < |entries| && entries[i].filter.enabled
    requires SameShape(entries, updated, pi)
    requires EnabledFrom(entries, i + 1) == EnabledFrom(updated, i + 1)
    requires call.index == i && call.point == point
    requires call.outcome.point.isValid == point.isValid && call.outcome.point.timestamp == point.timestamp
    requires ChainFacts(updated, i + 1, call.outcome.point, pi, rest)
    ensures ChainFacts(entries, i, point, pi, rest.(calls := [call] + rest.calls))
  {
    PassStepOrder(entries, updated, i, call, rest);
    PassStepValidity(call, rest);
  }

  /**
   * A PASS at enabled entry `i`, recorded as its first call, followed by the
   * chain from `i + 1` on the updated list, traces the chain from `i`.
   */
  lemma {:induction false} PassStepTrace(entries: seq<Entry>, i: nat, point: Fix, history: History.History,
                                         distance: Distance, pi: real, rest: Chain)
    requires i < |entries| && entries[i].filter.enabled && AllTuned(entries, pi)
    requires InfraFilters.Ready(entries[i].filter, point, pi)
    requires var o := InfraFilters.Process(entries[i].filter, point, history, distance, pi);
      && o.result == InfraFilters.Pass
      && var updated := entries[i := Entry(entries[i].priority, o.filter)];
      && EnabledFrom(entries, i + 1) == EnabledFrom(updated, i + 1)
      && CallOrder(updated, i + 1, rest)
      && Traced(updated, i + 1, o.point, history, distance, pi, rest)
    ensures var o := InfraFilters.Process(entries[i].filter, point, history, distance, pi);
      Traced(entries, i, point, history, distance, pi, rest.(calls := [Call(i, point, o)] + rest.calls))
  {
    var o := InfraFilters.Process(entries[i].filter, point, history, distance, pi);
    var updated := entries[i := Entry(entries[i].priority, o.filter)];
    var call := Call(i, point, o);
    CalledFrom(updated, i + 1, rest);
    AppliedStep(entries, updated, i, call, history, distance, pi, rest);
    LinkedStep(entries, updated, i, call, rest);
  }

  lemma {:induction false} AppliedStep(entries: seq<Entry>, updated: seq<Entry>, i: nat, call: Call,
                                       history: History.History, distance: Distance, pi: real, rest: Chain)
    requires i < |entries| && call.index == i && |updated| == |entries|
    requires Performed(entries, updated, call, history, distance, pi)
    requires forall j :: 0 <= j < |entries| && j != i ==> updated[j] == entries[j]
    requires forall k :: 0 <= k < |rest.calls| ==> i < rest.calls[k].index
    requires Applied(updated, history, distance, pi, rest)
    ensures Applied(entries, history, distance, pi, rest.(calls := [call] + rest.calls))
  {
    var calls := [call] + rest.calls;
    assert Indices(calls) == [i] + Indices(rest.calls);
    assert i !in Indices(rest.calls);
    forall k | 0 <= k < |calls|
      ensures Performed(entries, rest.entries, calls[k], history, distance, pi)
    {
      if k > 0 {
        assert calls[k] == rest.calls[k - 1];
        assert updated[calls[k].index] == entries[calls[k].index];
      }
    }
  }

  lemma {:induction false} LinkedStep(entries: seq<Entry>, updated: seq<Entry>, i: nat, call: Call, rest: Chain)
    requires i < |entries| && entries[i].filter.enabled && |updated| == |entries|
    requires call.outcome.result == InfraFilters.Pass
    requires EnabledFrom(entries, i + 1) == EnabledFrom(updated, i + 1)
    requires Linked(updated, i + 1, call.outcome.point, rest)
    ensures Linked(entries, i, call.point, rest.(calls := [call] + rest.calls))
  {
    var calls := [call] + rest.calls;
    forall k | 0 <= k < |calls| - 1
      ensures calls[k].outcome.result == InfraFilters.Pass && calls[k + 1].point == calls[k].outcome.point
    {
      if k > 0 {
        assert calls[k] == rest.calls[k - 1] && calls[k + 1] == rest.calls[k];
      }
    }
    if rest.calls != [] {
      assert Last(calls) == Last(rest.calls);
    }
    assert EnabledFrom(entries, i) == [i] + EnabledFrom(updated, i + 1);
  }

  /** The filters a chain from `i` calls are at `i` or after. */
  lemma {:induction false} CalledFrom(entries: seq<Entry>, i: nat, r: Chain)
    requires i <= |entries| && CallOrder(entries, i, r)
    ensures forall k :: 0 <= k < |r.calls| ==> i <= r.calls[k].index < |entries|
  {
    var enabled := EnabledFrom(entries, i);
    forall k | 0 <= k < |r.calls|
      ensures i <= r.calls[k].index < |entries|
    {
      assert r.calls[k].index == Indices(r.calls)[k] == enabled[k];
    }
  }

  lemma {:induction false} PassStepOrder(entries: seq<Entry>, updated: seq<Entry>, i: nat, call: Call, rest: Chain)
    requires i < |entries| && entries[i].filter.enabled
    requires |updated| == |entries|
    requires forall k :: 0 <= k < |entries| ==>
               InfraFilters.Name(updated[k].filter) == InfraFilters.Name(entries[k].filter)
    requires EnabledFrom(entries, i + 1) == EnabledFrom(updated, i + 1)
    requires CallOrder(updated, i + 1, rest) && call.index == i
    ensures CallOrder(entries, i, rest.(calls := [call] + rest.calls))
  {
    var calls := [call] + rest.calls;
    var enabled := EnabledFrom(updated, i + 1);
    assert Indices(calls) == [i] + Indices(rest.calls);
    assert EnabledFrom(entries, i) == [i] + enabled;
    PrefixCons(i, Indices(rest.calls), enabled);
    if rest.calls != [] {
      var last := rest.calls[|rest.calls| - 1].index;
      assert last == enabled[|rest.calls| - 1];
      assert calls[|calls| - 1].index == last;
      SameNameSameKind(updated[last].filter, entries[last].filter);
    }
  }

  lemma {:induction false} PrefixCons(x: nat, a: seq<nat>, b: seq<nat>)
    requires a <= b
    ensures [x] + a <= [x] + b
  {
    assert ([x] + b)[..|a| + 1] == [x] + b[..|a|];
  }

  /** The name tells the kind of filter. */
  lemma {:induction false} SameNameSameKind(f: InfraFilters.Filter, g: InfraFilters.Filter)
    requires InfraFilters.Name(f) == InfraFilters.Name(g)
    ensures f.kind.StopFilter? == g.kind.StopFilter?
  {
  }

  lemma {:induction false} PassStepValidity(call: Call, rest: Chain)
    requires call.outcome.point.isValid == call.point.isValid
    requires call.outcome.point.timestamp == call.point.timestamp
    requires SameValidity(call.outcome.point, rest)
    ensures SameValidity(call.point, rest.(calls := [call] + rest.calls))
  {
    var calls := [call] + rest.calls;
    forall k | 0 <= k < |calls|
      ensures calls[k].point.isValid == call.point.isValid
    {
      if k > 0 {
        assert calls[k] == rest.calls[k - 1];
      }
    }
  }

  /** The whole chain. */
  function ApplyFilters(entries: seq<Entry>, point: Fix, history: History.History,
                        distance: Distance, pi: real): (r: Chain)
    requires AllTuned(entries, pi)
    ensures ChainFacts(entries, 0, point, pi, r)
    ensures Traced(entries, 0, point, history, distance, pi, r)
  {
    ApplyFrom(entries, 0, point, history, distance, pi)
  }

  /** A list whose filters are all disabled accepts every fix untouched, calling nothing. */
  lemma {:induction false} AllDisabledAccepts(entries: seq<Entry>, i: nat, point: Fix, history: History.History,
                                              distance: Distance, pi: real)
    requires i <= |entries| && AllTuned(entries, pi)
    requires forall k :: 0 <= k < |entries| ==> !entries[k].filter.enabled
    ensures ApplyFrom(entries, i, point, history, distance, pi) == Chain(entries, point, Accepted, [])
    decreases |entries| - i
  {
    if i < |entries| {
      AllDisabledAccepts(entries, i + 1, point, history, distance, pi);
    }
  }

  // ---------------------------------------------------------------------------
  // The pipeline

  /** What the pipeline shows on its display. */
  datatype Event =
    | PointShown(point: Fix)
    | InvalidFixShown(timestamp: nat)
    | ParseErrorShown(message: string)
    | RejectedShown(message: string)

  const ParseErrorMessage: string := "invalid checksum or message format"
  const RejectedSuffix: string := ": point rejected"

  datatype Pipeline = Pipeline(
    parser: Nmea.Parser,
    history: History.History,
    entries: seq<Entry>,
    processed: nat,
    valid: nat,
    rejected: nat,
    errors: nat)

  /** A new pipeline: fresh correlator, the given history, no filters, all counters zero. */
  function New(history: History.History): (pl: Pipeline)
    ensures pl.entries == [] && pl.processed == 0 && pl.valid == 0 && pl.rejected == 0 && pl.errors == 0
  {
    Pipeline(Nmea.Initial, history, [], 0, 0, 0, 0)
  }

  /** The invariant the pipeline keeps: a sorted filter list and no line counted twice. */
  predicate Valid(pl: Pipeline) {
    Sorted(pl.entries) && pl.valid + pl.rejected + pl.errors <= pl.processed
  }

  /** `addFilter`: the entry joins the list in priority order; nothing else changes. */
  function AddFilter(pl: Pipeline, filter: InfraFilters.Filter, priority: int): (r: Pipeline)
    requires Sorted(pl.entries)
    ensures Sorted(r.entries) && (Valid(pl) ==> Valid(r))
    ensures multiset(r.entries) == multiset(pl.entries) + multiset{Entry(priority, filter)}
    ensures r == pl.(entries := r.entries)
  {
    pl.(entries := Insert(pl.entries, Entry(priority, filter)))
  }

  /** `setHistorySize`: delegated to the history. */
  function SetHistorySize(pl: Pipeline, size: nat): (r: Pipeline)
    ensures r.history.maxSize == size && History.Bounded(r.history)
    ensures r == pl.(history := r.history)
  {
    pl.(history := History.SetMaxSize(pl.history, size))
  }

  /** The points among the events, in order. */
  function Shown(events: seq<Event>): seq<Fix> {
    if events == [] then []
    else (if events[0].PointShown? then [events[0].point] else []) + Shown(events[1..])
  }

  function Rejections(events: seq<Event>): nat {
    if events == [] then 0 else (if events[0].RejectedShown? then 1 else 0) + Rejections(events[1..])
  }

  function ParseErrors(events: seq<Event>): nat {
    if events == [] then 0 else (if events[0].ParseErrorShown? then 1 else 0) + ParseErrors(events[1..])
  }

  /**
   * The display agrees with the counters and the history: `after` counts
   * exactly the shown points as valid, the rejections as rejected and the
   * parse errors as errors, and its history is `before`'s with the shown
   * points appended.
   */
  predicate Accounts(before: Pipeline, after: Pipeline, events: seq<Event>) {
    && after.valid == before.valid + |Shown(events)|
    && after.rejected == before.rejected + Rejections(events)
    && after.errors == before.errors + ParseErrors(events)
    && after.history == History.AddAll(before.history, Shown(events))
  }

  /** The pipeline after one line, the display calls it made, and whether the parser threw. */
  datatype Processed = Processed(pipeline: Pipeline, events: seq<Event>, threw: bool)

  /**
   * `process`: one line. A throw from the decoder escapes after the line was
   * counted as processed, with nothing shown.
   */
  function Process(pl: Pipeline, line: string, distance: Distance, pi: real): (r: Processed)
    requires AllTuned(pl.entries, pi)
    ensures r.pipeline.processed == pl.processed + 1
    ensures |r.events| == (if r.threw then 0 else 1)
    ensures r.threw ==> r.pipeline == pl.(processed := pl.processed + 1)
    ensures Accounts(pl, r.pipeline, r.events)
    ensures Valid(pl) ==> Valid(r.pipeline)
    ensures SameShape(pl.entries, r.pipeline.entries, pi)
    ensures forall k :: 0 <= k < |r.events| && r.events[k].PointShown? ==> r.events[k].point.isValid
    ensures !Nmea.ValidateChecksum(line) ==> r.events == [ParseErrorShown(ParseErrorMessage)]
    ensures !Nmea.ValidateChecksum(line) ==> r.pipeline == pl.(processed := pl.processed + 1, errors := pl.errors + 1)
  {
    Handle(pl, Nmea.ParseLine(pl.parser, line), distance, pi)
  }

  /** `process` once the decoder has answered with `step`. */
  function Handle(pl: Pipeline, step: Nmea.Step, distance: Distance, pi: real): (r: Processed)
    requires AllTuned(pl.entries, pi)
    ensures r.pipeline.processed == pl.processed + 1
    ensures r.threw <==> step.result.LineThrew?
    ensures |r.events| == (if r.threw then 0 else 1)
    ensures r.threw ==> r.pipeline == pl.(processed := pl.processed + 1)
    ensures Accounts(pl, r.pipeline, r.events)
    ensures Valid(pl) ==> Valid(r.pipeline)
    ensures SameShape(pl.entries, r.pipeline.entries, pi)
    ensures forall k :: 0 <= k < |r.events| && r.events[k].PointShown? ==> r.events[k].point.isValid
    ensures step.result.NoPoint? ==> r.events == [ParseErrorShown(ParseErrorMessage)]
    ensures step.result.NoPoint? ==>
      r.pipeline == pl.(processed := pl.processed + 1, parser := step.parser, errors := pl.errors + 1)
    ensures !r.threw ==> r.pipeline.parser == step.parser
    ensures step.result.Point? && !step.result.fix.isValid ==>
      r.events == [InvalidFixShown(step.result.fix.timestamp)]
      && r.pipeline == pl.(processed := pl.processed + 1, parser := step.parser)
  {
    var pl1 := pl.(processed := pl.processed + 1);
    match step.result
    case LineThrew => Processed(pl1, [], true)
    case NoPoint =>
      var r := Processed(pl1.(parser := step.parser, errors := pl.errors + 1), [ParseErrorShown(ParseErrorMessage)], false);
      SingleEvent(r.events[0]);
      r
    case Point(fix) =>
      var pl2 := pl1.(parser := step.parser);
      if !fix.isValid then
        var r := Processed(pl2, [InvalidFixShown(fix.timestamp)], false);
        SingleEvent(r.events[0]);
        r
      else Admit(pl2, fix, distance, pi)
  }

  /**
   * `applyFilters` on a valid fix: a rejection is counted and reported with
   * the filter's name; otherwise the fix as the chain left it is counted,
   * appended to the history and shown.
   */
  function Admit(pl: Pipeline, fix: Fix, distance: Distance, pi: real): (r: Processed)
    requires AllTuned(pl.entries, pi) && fix.isValid
    ensures !r.threw && |r.events| == 1
    ensures r.pipeline.processed == pl.processed && r.pipeline.parser == pl.parser
    ensures r.pipeline.valid + r.pipeline.rejected == pl.valid + pl.rejected + 1
    ensures r.pipeline.errors == pl.errors
    ensures Accounts(pl, r.pipeline, r.events)
    ensures SameShape(pl.entries, r.pipeline.entries, pi)
    ensures Sorted(pl.entries) ==> Sorted(r.pipeline.entries)
    ensures r.events[0].PointShown? ==> r.events[0].point.isValid
    ensures var chain := ApplyFilters(pl.entries, fix, pl.history, distance, pi);
      && r.pipeline.entries == chain.entries
      && r.events[0] == (if chain.verdict.RejectedBy? then RejectedShown(chain.verdict.name + RejectedSuffix)
                         else PointShown(chain.point))
  {
    var chain := ApplyFilters(pl.entries, fix, pl.history, distance, pi);
    SortedSameShape(pl.entries, chain.entries, pi);
    var pl1 := pl.(entries := chain.entries);
    match chain.verdict
    case RejectedBy(name) =>
      var r := Processed(pl1.(rejected := pl.rejected + 1), [RejectedShown(name + RejectedSuffix)], false);
      SingleEvent(r.events[0]);
      r
    case Accepted =>
      var r := Processed(pl1.(valid := pl.valid + 1, history := History.AddPoint(pl.history, chain.point)),
                         [PointShown(chain.point)], false);
      SingleEvent(r.events[0]);
      r
  }

  /** The tallies of a single display call. */
  lemma {:induction false} SingleEvent(e: Event)
    ensures Shown([e]) == (if e.PointShown? then [e.point] else [])
    ensures Rejections([e]) == (if e.RejectedShown? then 1 else 0)
    ensures ParseErrors([e]) == (if e.ParseErrorShown? then 1 else 0)
    ensures e.PointShown? ==> forall h :: History.AddAll(h, Shown([e])) == History.AddPoint(h, e.point)
    ensures !e.PointShown? ==> forall h :: History.AddAll(h, Shown([e])) == h
  {
    assert [e][1..] == [];
    if e.PointShown? {
      forall h ensures History.AddAll(h, Shown([e])) == History.AddPoint(h, e.point) {
        assert [e.point][..0] == [];
      }
    }
  }

  /** A chain keeps the priorities, hence the order. */
  lemma {:induction false} SortedSameShape(before: seq<Entry>, after: seq<Entry>, pi: real)
    requires SameShape(before, after, pi)
    ensures Sorted(before) ==> Sorted(after)
  {
  }

  /** The lines processed one after another, up to the first throw. */
  datatype Run = Run(pipeline: Pipeline, events: seq<Event>, consumed: nat, threw: bool)

  function ProcessAll(pl: Pipeline, lines: seq<string>, distance: Distance, pi: real): (r: Run)
    requires AllTuned(pl.entries, pi)
    ensures r.consumed <= |lines| && (!r.threw ==> r.consumed == |lines|)
    ensures r.pipeline.processed == pl.processed + r.consumed
    ensures |r.events| == r.consumed - (if r.threw then 1 else 0)
    ensures Accounts(pl, r.pipeline, r.events)
    ensures Valid(pl) ==> Valid(r.pipeline)
    ensures SameShape(pl.entries, r.pipeline.entries, pi)
    decreases |lines|
  {
    if lines == [] then Run(pl, [], 0, false)
    else
      var one := Process(pl, lines[0], distance, pi);
      if one.threw then Run(one.pipeline, [], 1, true)
      else
        var rest := ProcessAll(one.pipeline, lines[1..], distance, pi);
        AccountsCompose(pl, one.pipeline, rest.pipeline, one.events, rest.events);
        SameShapeCompose(pl.entries, one.pipeline.entries, rest.pipeline.entries, pi);
        Run(rest.pipeline, one.events + rest.events, rest.consumed + 1, rest.threw)
  }

  lemma {:induction false} ShownConcat(a: seq<Event>, b: seq<Event>)
    ensures Shown(a + b) == Shown(a) + Shown(b)
    ensures Rejections(a + b) == Rejections(a) + Rejections(b)
    ensures ParseErrors(a + b) == ParseErrors(a) + ParseErrors(b)
    decreases |a|
  {
    if a != [] {
      ShownConcat(a[1..], b);
      assert (a + b)[1..] == a[1..] + b;
    } else {
      assert a + b == b;
    }
  }

  lemma {:induction false} AccountsCompose(p0: Pipeline, p1: Pipeline, p2: Pipeline, e1: seq<Event>, e2: seq<Event>)
    requires Accounts(p0, p1, e1) && Accounts(p1, p2, e2)
    ensures Accounts(p0, p2, e1 + e2)
  {
    ShownConcat(e1, e2);
    History.AddAllConcat(p0.history, Shown(e1), Shown(e2));
  }

  lemma {:induction false} SameShapeCompose(a: seq<Entry>, b: seq<Entry>, c: seq<Entry>, pi: real)
    requires SameShape(a, b, pi) && SameShape(b, c, pi)
    ensures SameShape(a, c, pi)
  {
  }

  /**
   * From a new pipeline whose history has capacity `c`, after any lines the
   * counters match the display and the history holds the last min(n, c)
   * of the n points shown, oldest first.
   */
  lemma {:induction false} HistoryHoldsLastShown(c: nat, filters: seq<Entry>, lines: seq<string>,
                                                 distance: Distance, pi: real)
    requires Sorted(filters) && AllTuned(filters, pi)
    ensures var r := ProcessAll(New(History.New(c)).(entries := filters), lines, distance, pi);
      var shown := Shown(r.events);
      && r.pipeline.valid == |shown|
      && r.pipeline.valid + r.pipeline.rejected + r.pipeline.errors <= r.pipeline.processed
      && r.pipeline.history.points == shown[|shown| - History.Min(|shown|, c)..]
  {
    var r := ProcessAll(New(History.New(c)).(entries := filters), lines, distance, pi);
    History.AddAllKeepsLast(c, Shown(r.events));
  }
}

=== FILE: smoothing.dfy ===
/**
 * The smoothing filter of the infra generation (src/smoothing_filter.cpp):
 * a first-order low-pass filter over latitude, longitude and, when
 * positive, speed and altitude. Each new raw fix is pulled toward the raw
 * fix before it by the factor alpha = dt / (RC + dt), with dt the sample
 * period and RC = 1 / (2 pi fc). The value of pi is a parameter.
 */
module Smoothing {
  import opened Fix

  /** The most raw fixes the filter remembers. */
  const MaxPrevious: nat := 5

  /** Default cutoff frequency (Hz) and sample rate (Hz). */
  const DefaultCutoff: real := 0.1
  const DefaultSampleRate: real := 1.0

  datatype Smoother = Smoother(cutoff: real, sampleRate: real, previous: seq<Fix>)

  /** A new smoother with an empty buffer. */
  function New(cutoff: real, sampleRate: real): (s: Smoother)
    ensures s.cutoff == cutoff && s.sampleRate == sampleRate && s.previous == []
  {
    Smoother(cutoff, sampleRate, [])
  }

  /** The parameters give alpha without a division by zero. */
  predicate Tuned(cutoff: real, sampleRate: real, pi: real) {
    sampleRate != 0.0 && 2.0 * pi * cutoff != 0.0
    && 1.0 / sampleRate + 1.0 / (2.0 * pi * cutoff) != 0.0
  }

  /** `calculateAlpha`: dt / (RC + dt). */
  function Alpha(cutoff: real, sampleRate: real, pi: real): (alpha: real)
    requires Tuned(cutoff, sampleRate, pi)
    ensures pi > 0.0 && cutoff > 0.0 && sampleRate > 0.0 ==> 0.0 < alpha < 1.0
  {
    var dt := 1.0 / sampleRate;
    var rc := 1.0 / (2.0 * pi * cutoff);
    dt / (rc + dt)
  }

  /** For positive parameters alpha is 2 pi fc / (2 pi fc + rate). */
  lemma {:induction false} AlphaClosedForm(cutoff: real, sampleRate: real, pi: real)
    requires pi > 0.0 && cutoff > 0.0 && sampleRate > 0.0
    ensures Tuned(cutoff, sampleRate, pi)
    ensures Alpha(cutoff, sampleRate, pi) == 2.0 * pi * cutoff / (2.0 * pi * cutoff + sampleRate)
  {
    var w := 2.0 * pi * cutoff;
    var dt := 1.0 / sampleRate;
    var rc := 1.0 / w;
    assert rc + dt == (sampleRate + w) / (w * sampleRate);
    assert dt / (rc + dt) == (1.0 / sampleRate) * ((w * sampleRate) / (sampleRate + w));
  }

  /** A higher cutoff frequency gives a larger alpha: less smoothing. */
  lemma {:induction false} AlphaGrowsWithCutoff(c1: real, c2: real, sampleRate: real, pi: real)
    requires pi > 0.0 && 0.0 < c1 < c2 && sampleRate > 0.0
    ensures Tuned(c1, sampleRate, pi) && Tuned(c2, sampleRate, pi)
    ensures Alpha(c1, sampleRate, pi) < Alpha(c2, sampleRate, pi)
  {
    AlphaClosedForm(c1, sampleRate, pi);
    AlphaClosedForm(c2, sampleRate, pi);
    FractionGrows(2.0 * pi * c1, 2.0 * pi * c2, sampleRate);
  }

  /** A higher sample rate gives a smaller alpha: more smoothing. */
  lemma {:induction false} AlphaShrinksWithSampleRate(cutoff: real, s1: real, s2: real, pi: real)
    requires pi > 0.0 && cutoff > 0.0 && 0.0 < s1 < s2
    ensures Tuned(cutoff, s1, pi) && Tuned(cutoff, s2, pi)
    ensures Alpha(cutoff, s2, pi) < Alpha(cutoff, s1, pi)
  {
    AlphaClosedForm(cutoff, s1, pi);
    AlphaClosedForm(cutoff, s2, pi);
    var w := 2.0 * pi * cutoff;
    assert w * s1 < w * s2;
    FractionLess(w, w + s2, w, w + s1);
  }

  /** w / (w + s) grows with w for positive s. */
  lemma {:induction false} FractionGrows(w1: real, w2: real, s: real)
    requires 0.0 < w1 < w2 && s > 0.0
    ensures w1 / (w1 + s) < w2 / (w2 + s)
  {
    var b, d := w1 + s, w2 + s;
    assert (w2 - w1) * s > 0.0;
    assert w2 * b - w1 * d == (w2 - w1) * s;
    FractionLess(w1, b, w2, d);
  }

  /** a / b < c / d for positive denominators when a * d < c * b. */
  lemma {:induction false} FractionLess(a: real, b: real, c: real, d: real)
    requires b > 0.0 && d > 0.0 && a * d < c * b
    ensures a / b < c / d
  {
    var x := a / b;
    var y := c / d;
    assert a == x * b;
    assert c == y * d;
    assert x * (b * d) < y * (b * d);
    assert (y - x) * (b * d) > 0.0;
  }

  /** `lowPassFilter`: the previous value moved toward the current one by the fraction alpha. */
  function LowPass(current: real, previous: real, alpha: real): real {
    previous + alpha * (current - previous)
  }

  /** With 0 < alpha < 1 the filtered value lies strictly between the previous and the current value. */
  lemma {:induction false} LowPassBetween(current: real, previous: real, alpha: real)
    requires 0.0 < alpha < 1.0
    ensures previous < current ==> previous < LowPass(current, previous, alpha) < current
    ensures current < previous ==> current < LowPass(current, previous, alpha) < previous
    ensures current == previous ==> LowPass(current, previous, alpha) == current
  {
    var d := current - previous;
    assert d > 0.0 ==> alpha * d > 0.0 && (1.0 - alpha) * d > 0.0;
    assert d < 0.0 ==> alpha * d < 0.0 && (1.0 - alpha) * d < 0.0;
    assert LowPass(current, previous, alpha) - previous == alpha * d;
    assert current - LowPass(current, previous, alpha) == (1.0 - alpha) * d;
  }

  /** The raw fix pulled toward the previous raw fix; speed and altitude only when positive. */
  function Smoothed(point: Fix, prev: Fix, alpha: real): (r: Fix)
    ensures r == point.(latitude := r.latitude, longitude := r.longitude, speed := r.speed, altitude := r.altitude)
    ensures point.speed <= 0.0 ==> r.speed == point.speed
    ensures point.altitude <= 0.0 ==> r.altitude == point.altitude
  {
    point.(
      latitude := LowPass(point.latitude, prev.latitude, alpha),
      longitude := LowPass(point.longitude, prev.longitude, alpha),
      speed := if point.speed > 0.0 then LowPass(point.speed, prev.speed, alpha) else point.speed,
      altitude := if point.altitude > 0.0 then LowPass(point.altitude, prev.altitude, alpha) else point.altitude)
  }

  /** The buffer after a push to the back and, over the bound, one drop from the front. */
  function Push(buffer: seq<Fix>, point: Fix): (r: seq<Fix>)
    ensures |buffer| <= MaxPrevious ==> |r| <= MaxPrevious
    ensures |r| >= 1 && r[|r| - 1] == point
    ensures |buffer| >= 1 ==> |r| >= 2 && r[|r| - 2] == buffer[|buffer| - 1]
    ensures |buffer| == 0 ==> r == [point]
  {
    var b := buffer + [point];
    if |b| > MaxPrevious then b[1..] else b
  }

  datatype Smoothing = Smoothing(smoother: Smoother, point: Fix)

  /**
   * `process` (whose verdict is always PASS). Disabled, or for an invalid
   * fix: nothing changes. Otherwise the raw fix is remembered, and if a raw
   * fix came before it, the fix is smoothed toward that one.
   */
  function Process(s: Smoother, enabled: bool, point: Fix, pi: real): (r: Smoothing)
    requires enabled && point.isValid ==> Tuned(s.cutoff, s.sampleRate, pi)
    ensures !enabled || !point.isValid ==> r == Smoothing(s, point)
    ensures r.smoother.cutoff == s.cutoff && r.smoother.sampleRate == s.sampleRate
    ensures |s.previous| <= MaxPrevious ==> |r.smoother.previous| <= MaxPrevious
    ensures enabled && point.isValid ==> r.smoother.previous == Push(s.previous, point)
    ensures enabled && point.isValid && s.previous == [] ==> r == Smoothing(s.(previous := [point]), point)
    ensures enabled && point.isValid && s.previous != [] ==>
      Tuned(s.cutoff, s.sampleRate, pi) &&
      r.point == Smoothed(point, s.previous[|s.previous| - 1], Alpha(s.cutoff, s.sampleRate, pi))
    ensures r.point.isValid == point.isValid && r.point.timestamp == point.timestamp
  {
    if !enabled || !point.isValid then Smoothing(s, point)
    else
      var alpha := Alpha(s.cutoff, s.sampleRate, pi);
      var buffer := Push(s.previous, point);
      if |buffer| < 2 then Smoothing(s.(previous := buffer), point)
      else Smoothing(s.(previous := buffer), Smoothed(point, buffer[|buffer| - 2], alpha))
  }

  /**
   * Two valid fixes in a row through a fresh enabled smoother: the first
   * passes unchanged and the second is pulled toward the first one's raw
   * coordinates, landing strictly between the two when they differ.
   */
  lemma {:induction false} SecondFixPulledTowardFirst(cutoff: real, sampleRate: real, pi: real, a: Fix, b: Fix)
    requires pi > 0.0 && cutoff > 0.0 && sampleRate > 0.0
    requires a.isValid && b.isValid && a.latitude < b.latitude
    ensures Tuned(cutoff, sampleRate, pi)
    ensures Process(New(cutoff, sampleRate), true, a, pi).point == a
    ensures var second := Process(Process(New(cutoff, sampleRate), true, a, pi).smoother, true, b, pi).point;
      a.latitude < second.latitude < b.latitude
  {
    AlphaClosedForm(cutoff, sampleRate, pi);
    var alpha := Alpha(cutoff, sampleRate, pi);
    LowPassBetween(b.latitude, a.latitude, alpha);
  }

  /**
   * Three valid fixes in a row through a fresh enabled smoother: the buffer
   * holds the raw fixes, so the third is pulled toward the second one's RAW
   * latitude (not toward the smoothed value the second fix was handed on
   * with) and lands strictly between the two.
   */
  lemma {:induction false} ThirdFixPulledTowardSecond(cutoff: real, sampleRate: real, pi: real, a: Fix, b: Fix, c: Fix)
    requires pi > 0.0 && cutoff > 0.0 && sampleRate > 0.0
    requires a.isValid && b.isValid && c.isValid && b.latitude < c.latitude
    ensures Tuned(cutoff, sampleRate, pi)
    ensures var s1 := Process(New(cutoff, sampleRate), true, a, pi).smoother;
      var s2 := Process(s1, true, b, pi).smoother;
      var r := Process(s2, true, c, pi);
      && s2.previous == [a, b]
      && r.smoother.previous == [a, b, c]
      && r.point.latitude == LowPass(c.latitude, b.latitude, Alpha(cutoff, sampleRate, pi))
      && b.latitude < r.point.latitude < c.latitude
  {
    AlphaClosedForm(cutoff, sampleRate, pi);
    var alpha := Alpha(cutoff, sampleRate, pi);
    var s1 := Process(New(cutoff, sampleRate), true, a, pi).smoother;
    assert s1.previous == [a];
    var s2 := Process(s1, true, b, pi).smoother;
    assert s2.previous == [a] + [b];
    var r := Process(s2, true, c, pi);
    assert r.smoother.previous == [a, b] + [c];
    LowPassBetween(c.latitude, b.latitude, alpha);
  }
}

=== FILE: text.dfy ===
/**
 * Character-level scanning over strings, in the shape of the std::string
 * members the source uses: find, find_first_of, find_first_not_of,
 * find_last_not_of and substring search. Positions are indices into the
 * string; "not found" (std::string::npos) is None.
 */
module Text {
  import opened Wrappers

  /** std::isspace in the "C" locale. */
  predicate IsSpace(c: char) {
    c == ' ' || c == '\t' || c == '\n' || c == '\r' || c == '\U{B}' || c == '\U{C}'
  }

  /** First index at or after `from` holding `c`. */
  function FindFrom(s: string, c: char, from: nat): (r: Option<nat>)
    ensures r.Some? ==> from <= r.value < |s| && s[r.value] == c
    ensures r.Some? ==> forall j :: from <= j < r.value ==> s[j] != c
    ensures r.None? ==> forall j :: from <= j < |s| ==> s[j] != c
    decreases |s| - from
  {
    if from >= |s| then None
    else if s[from] == c then Some(from)
    else FindFrom(s, c, from + 1)
  }

  /** First index at or after `from` holding a character of `chars`. */
  function FindFirstOf(s: string, chars: string, from: nat): (r: Option<nat>)
    ensures r.Some? ==> from <= r.value < |s| && s[r.value] in chars
    ensures r.Some? ==> forall j :: from <= j < r.value ==> s[j] !in chars
    ensures r.None? ==> forall j :: from <= j < |s| ==> s[j] !in chars
    decreases |s| - from
  {
    if from >= |s| then None
    else if s[from] in chars then Some(from)
    else FindFirstOf(s, chars, from + 1)
  }

  /** First index at or after `from` holding a character outside `chars`. */
  function FindFirstNotOf(s: string, chars: string, from: nat): (r: Option<nat>)
    ensures r.Some? ==> from <= r.value < |s| && s[r.value] !in chars
    ensures r.Some? ==> forall j :: from <= j < r.value ==> s[j] in chars
    ensures r.None? ==> forall j :: from <= j < |s| ==> s[j] in chars
    decreases |s| - from
  {
    if from >= |s| then None
    else if s[from] !in chars then Some(from)
    else FindFirstNotOf(s, chars, from + 1)
  }

  /** Last index below `upto` holding a character outside `chars`. */
  function FindLastNotOfBelow(s: string, chars: string, upto: nat): (r: Option<nat>)
    requires upto <= |s|
    ensures r.Some? ==> r.value < upto && s[r.value] !in chars
    ensures r.Some? ==> forall j :: r.value < j < upto ==> s[j] in chars
    ensures r.None? ==> forall j :: 0 <= j < upto ==> s[j] in chars
  {
    if upto == 0 then None
    else if s[upto - 1] !in chars then Some(upto - 1)
    else FindLastNotOfBelow(s, chars, upto - 1)
  }

  /** Does `pat` occur in `s` starting exactly at `i`? */
  predicate OccursAt(s: string, pat: string, i: nat) {
    i + |pat| <= |s| && s[i..i + |pat|] == pat
  }

  /** First index at or after `from` where `pat` occurs. */
  function FindSubFrom(s: string, pat: string, from: nat): (r: Option<nat>)
    ensures r.Some? ==> from <= r.value && OccursAt(s, pat, r.value)
    ensures r.Some? ==> forall j :: from <= j < r.value ==> !OccursAt(s, pat, j)
    ensures r.None? ==> forall j :: from <= j ==> !OccursAt(s, pat, j)
    decreases |s| - from
  {
    if from + |pat| > |s| then None
    else if s[from..from + |pat|] == pat then Some(from)
    else FindSubFrom(s, pat, from + 1)
  }

  /** Index of the first occurrence of `c` in `s`. */
  function Find(s: string, c: char): (r: Option<nat>)
    ensures r.Some? ==> r.value < |s| && s[r.value] == c && c !in s[..r.value]
    ensures r.None? <==> c !in s
  {
    var r := FindFrom(s, c, 0);
    assert r.Some? ==> forall j :: 0 <= j < r.value ==> s[..r.value][j] != c;
    r
  }

  /**
   * The pieces of `s` between occurrences of `sep`, empty pieces kept:
   * there is always one more piece than there are separators.
   */
  function SplitAll(s: string, sep: char): (r: seq<string>)
    ensures |r| >= 1
    ensures forall k :: 0 <= k < |r| ==> sep !in r[k]
    decreases |s|
  {
    match Find(s, sep)
    case None => [s]
    case Some(i) => [s[..i]] + SplitAll(s[i + 1..], sep)
  }

  /** No piece contains the separator. */
  predicate FreeOf(parts: seq<string>, sep: char) {
    forall k :: 0 <= k < |parts| ==> sep !in parts[k]
  }

  /** The pieces written one after another with `sep` between neighbours. */
  function Join(parts: seq<string>, sep: char): string
    requires |parts| >= 1
  {
    if |parts| == 1 then parts[0] else parts[0] + [sep] + Join(parts[1..], sep)
  }

  /** Joining a piece in front of further pieces puts a separator between them. */
  lemma {:induction false} JoinCons(head: string, rest: seq<string>, sep: char)
    requires |rest| >= 1
    ensures Join([head] + rest, sep) == head + [sep] + Join(rest, sep)
  {
    assert ([head] + rest)[1..] == rest;
  }

  /** A string is the part before index `i`, the character there and the part after. */
  lemma {:induction false} CutAt(s: string, i: nat)
    requires i < |s|
    ensures s == s[..i] + [s[i]] + s[i + 1..]
  {
  }

  /** Re-joining the pieces with the separator gives the string back. */
  lemma {:induction false} SplitAllJoin(s: string, sep: char)
    ensures Join(SplitAll(s, sep), sep) == s
    decreases |s|
  {
    match Find(s, sep)
    case None =>
    case Some(i) =>
      SplitAllJoin(s[i + 1..], sep);
      CutAt(s, i);
      SplitAllAt(s, sep, s[..i], s[i + 1..]);
      JoinCons(s[..i], SplitAll(s[i + 1..], sep), sep);
  }

  /** A string cut at its first `sep` splits into the part before and the pieces after. */
  lemma {:induction false} SplitAllAt(s: string, sep: char, head: string, rest: string)
    requires s == head + [sep] + rest && sep !in head
    ensures SplitAll(s, sep) == [head] + SplitAll(rest, sep)
  {
    assert s[|head|] == sep;
    assert s[..|head|] == head;
    FindIs(s, sep, |head|);
    assert s[|head| + 1..] == rest;
  }

  /** Splitting a join of separator-free pieces gives the pieces back. */
  lemma {:induction false} JoinSplitAll(parts: seq<string>, sep: char)
    requires |parts| >= 1
    requires forall k :: 0 <= k < |parts| ==> sep !in parts[k]
    ensures SplitAll(Join(parts, sep), sep) == parts
    decreases |parts|
  {
    if |parts| > 1 {
      JoinSplitAll(parts[1..], sep);
      SplitAllAt(Join(parts, sep), sep, parts[0], Join(parts[1..], sep));
      assert parts == [parts[0]] + parts[1..];
    }
  }

  /** Extending the last piece extends the joined string at its end. */
  lemma {:induction false} JoinAppendToLast(parts: seq<string>, sep: char, tail: string)
    requires |parts| >= 1
    ensures Join(parts[..|parts| - 1] + [parts[|parts| - 1] + tail], sep) == Join(parts, sep) + tail
    decreases |parts|
  {
    var extended := parts[..|parts| - 1] + [parts[|parts| - 1] + tail];
    if |parts| > 1 {
      assert extended[0] == parts[0];
      assert extended[1..] == parts[1..][..|parts| - 2] + [parts[|parts| - 1] + tail];
      JoinAppendToLast(parts[1..], sep, tail);
    }
  }

  /** The first occurrence is where `c` stands with no `c` before it. */
  lemma {:induction false} FindIs(s: string, c: char, k: nat)
    requires k < |s| && s[k] == c && c !in s[..k]
    ensures Find(s, c) == Some(k)
  {
    var r := Find(s, c);
    assert c in s by {
      assert s[k] == c;
    }
    assert r.value <= k ==> s[..k + 1][r.value] == c;
    assert r.value >= k ==> s[..r.value + 1][k] == c;
  }

  /** The first `c` at or after `from` is at `k` when it stands there and nowhere in between. */
  lemma {:induction false} FindFromIs(s: string, c: char, from: nat, k: nat)
    requires from <= k < |s| && s[k] == c
    requires forall j :: from <= j < k ==> s[j] != c
    ensures FindFrom(s, c, from) == Some(k)
  {
  }

  /** The first occurrence of `pat` at or after `from` is at `k` when it occurs there and nowhere in between. */
  lemma {:induction false} FindSubFromIs(s: string, pat: string, from: nat, k: nat)
    requires from <= k && OccursAt(s, pat, k)
    requires forall j :: from <= j < k ==> !OccursAt(s, pat, j)
    ensures FindSubFrom(s, pat, from) == Some(k)
  {
  }

  /** The same for the first character of a set. */
  lemma {:induction false} FindFirstOfIs(s: string, chars: string, from: nat, k: nat)
    requires from <= k < |s| && s[k] in chars
    requires forall j :: from <= j < k ==> s[j] !in chars
    ensures FindFirstOf(s, chars, from) == Some(k)
  {
  }

  /** The same for the first character outside a set. */
  lemma {:induction false} FindFirstNotOfIs(s: string, chars: string, from: nat, k: nat)
    requires from <= k < |s| && s[k] !in chars
    requires forall j :: from <= j < k ==> s[j] in chars
    ensures FindFirstNotOf(s, chars, from) == Some(k)
  {
  }

  /** A non-empty sequence is its front followed by its last element. */
  lemma {:induction false} FrontLast<T>(s: seq<T>)
    requires |s| >= 1
    ensures s[..|s| - 1] + [s[|s| - 1]] == s
  {
  }
}

=== FILE: units.dfy ===
/**
 * Unit conversions shared by both parser generations: the NMEA "ddmm.mmmm"
 * angle notation to signed decimal degrees, and knots to km/h. Doubles are
 * modelled as exact reals.
 */
module Units {
  import Numbers

  /** Kilometres per hour in one knot. */
  const KmhPerKnot: real := 1.852

  predicate IsNegativeHemisphere(hemisphere: char) {
    hemisphere == 'S' || hemisphere == 'W'
  }

  /**
   * NMEA angle `v` written as degrees * 100 + minutes, to decimal degrees:
   * the whole hundreds (truncated toward zero) are degrees, the rest are
   * minutes. South and west give the negated value.
   */
  function ConvertCoordinate(v: real, hemisphere: char): (r: real)
    ensures 0.0 <= v && !IsNegativeHemisphere(hemisphere) ==> 0.0 <= r <= v
    ensures 0.0 <= v && IsNegativeHemisphere(hemisphere) ==> -v <= r <= 0.0
  {
    var degrees := Numbers.Trunc(v / 100.0);
    var minutes := v - (degrees * 100) as real;
    var result := degrees as real + minutes / 60.0;
    if IsNegativeHemisphere(hemisphere) then -result else result
  }

  /** The "ddmm.mmmm" notation of a non-negative angle in decimal degrees. */
  function EncodeCoordinate(deg: real): (v: real)
    requires 0.0 <= deg
    ensures 0.0 <= v
  {
    var d := deg.Floor;
    (d * 100) as real + (deg - d as real) * 60.0
  }

  /** Converting the NMEA notation of an angle gives the angle back, signed by hemisphere. */
  lemma {:induction false} ConvertEncodeRoundTrip(deg: real, hemisphere: char)
    requires 0.0 <= deg
    ensures ConvertCoordinate(EncodeCoordinate(deg), hemisphere)
         == if IsNegativeHemisphere(hemisphere) then -deg else deg
  {
    var d := deg.Floor;
    var v := EncodeCoordinate(deg);
    assert v / 100.0 == d as real + (deg - d as real) * 0.6;
    assert Numbers.Trunc(v / 100.0) == d;
  }

  /** The sentence "4807.038,N" is 48 degrees 7.038 minutes north. */
  lemma ConvertCoordinateExample()
    ensures ConvertCoordinate(4807.038, 'N') == 48.1173
    ensures ConvertCoordinate(4807.038, 'S') == -48.1173
    ensures ConvertCoordinate(1131.0, 'W') == -(11.0 + 31.0 / 60.0)
  {
    assert Numbers.Trunc(48.07038) == 48;
    assert Numbers.Trunc(11.31) == 11;
  }

  /** Knots to kilometres per hour. */
  function KnotsToKmh(knots: real): (kmh: real)
    ensures knots == kmh / KmhPerKnot
    ensures 0.0 <= knots ==> knots <= kmh
  {
    knots * KmhPerKnot
  }

  /** 22.4 knots is 41.4848 km/h. */
  lemma KnotsToKmhExample()
    ensures KnotsToKmh(22.4) == 41.4848
  {
  }
}

=== FILE: wrappers.dfy ===
/** Optional values, standing for std::optional and for the null unique_ptr. */
module Wrappers {

  datatype Option<+T> = None | Some(value: T) {

    /** The value, or `default` when there is none. */
    function GetOr(default: T): T {
      match this
      case Some(v) => v
      case None => default
    }
  }
}
